=== FILE: README.md ===
# Movie recommender: a verified model of its decision logic

This project models, in Dafny, the pure decision and scoring logic of a
Next.js movie-recommendation site, and proves properties of it.

- **Recommendation blender** (`GET /api/recommendations`), modules `Recommender` and `Ranking`:
  - a request-local map from movie id to candidate is filled by six strategy passes (similar, genre, director, hidden gem, trending, diversity);
  - the candidates are boosted by the search history;
  - each gets a weighted final score, and they are sorted, cut to the limit and summarised.
- **Achievement awarder** (`checkAndAwardAchievements`), module `Achievements`.
- **Local catalogue** (`searchMovies`, `getRecommendedMovies`), module `MovieData`.
- **Page and component helpers:**
  - the reviews page's statistics, search, filter and sort (`ReviewsPage`);
  - the recommendations page's type filter, filter options, genre names and request query (`RecommendationsPage`);
  - the movie details dialog's crew lists and runtime label (`MovieDetailsDialog`);
  - the profile editor's genre toggle, payload and save request (`ProfileEdit`);
  - the registration page's validation, error messages and login links (`Register`).

Supporting modules model the JavaScript built-ins this logic relies on:

| module | what it models |
|---|---|
| `Wrappers` | `Option` |
| `OrderedMaps` | `Map` with insertion order |
| `Seqs` | `slice`, `filter`, the stable `sort` by a key |
| `Text` | `trim`, ASCII `toLowerCase`, `includes`, `split`, `join`, `parseInt`, `String(n)` |
| `JsMath` | `Math.round`, `Math.floor`, `%` |
| `Uri` | `encodeURIComponent`, `decodeURIComponent` and reading a query string |
| `Posters` | the shared w500 image URL |

The outside world becomes inputs:

- **Catalogue service.** The blender's requests are a `Gateway` value. Each list it returns is an input, and `None` marks a request that failed; a failed request contributes nothing.
- **Achievement awarder.** Its five responses are a `Fetched` value.
- **Sign-up call.** The registration page's call is a `SignUpReply`.
- **Clock.** The current year is a parameter.
- **Dates.** A parsed release year is an `Option<int>` (`None` for an unparsable date).
- **Numbers.** Floating-point quantities are `real`. Catalogue ratings are tenths (8.5 is 85).

Behaviour of the code worth knowing:

- **Confidence has no global cap at 99.** A fresh "similar" candidate starts at `85 + vote_average / 10 * 15`, which is 100 for a rating of 10 (`Recommender.FreshSimilarConfidence`).
- **The trending merge leaves confidence as it is.** So a candidate can keep a confidence of 100 after that merge.
- **The result is not always at most `limit` long.** `slice(0, limit)` with a negative limit drops entries from the end rather than returning at most `limit` of them, and a limit given without a number (blank, `abc`, `-x`) gives an empty list (`Seqs.SliceEnd`, `Ranking.NonNumericLimit`).
- **A blank search term matches every movie.** The search history is split at commas without dropping blank pieces. So a blank term, for example from a trailing comma, occurs in every text and boosts every candidate (`Recommender.BlankTermMatchesAll`).

## Model

| member | source | states |
|---|---|---|
| Ranking.YearScore | src/app/api/recommendations/route.ts:381-390 | the recency step is 100 exactly for a year difference of at most 0, 20 exactly beyond 20 years, and always lies in 20..100 |
| Ranking.YearScoreMonotone | src/app/api/recommendations/route.ts:383-390 | a newer movie never gets a lower recency score than an older one |
| Ranking.RecencyScore | src/app/api/recommendations/route.ts:376-391 | 50 without a release date; 20 for a date that does not parse (NaN fails every comparison); otherwise the step of the year difference |
| Ranking.PopularityScore | src/app/api/recommendations/route.ts:318 | the popularity score never exceeds 100 and equals the popularity up to 100 |
| Ranking.RatingScore | src/app/api/recommendations/route.ts:319 | a rating in 0..10 scores in 0..100 |
| Ranking.VoteCountScore | src/app/api/recommendations/route.ts:320 | a missing or zero vote count scores 50; 5000 votes or more score 100; never above 100 |
| Ranking.FinalScoreMatchWeight | src/app/api/recommendations/route.ts:323-328 | each extra point of match score adds exactly 0.35 to the final score |
| Ranking.FinalScoreBounded | src/app/api/recommendations/route.ts:323-328 | the five weights sum to one: with every component in 0..100 the blend is in 0..100 |
| Ranking.ToRanked | src/app/api/recommendations/route.ts:330-335 | the ranked form keeps movie, reasons and type, carries the final score, and rounds score and confidence to within one half |
| Ranking.Scored | src/app/api/recommendations/route.ts:314-317 | one scored entry per pool candidate in insertion order, with pairwise distinct movie ids |
| Ranking.Rank | src/app/api/recommendations/route.ts:314-338 | the result has the `slice` length of the pool size and the limit, is sorted by final score, has distinct ids, holds only pool candidates, and no candidate left out scores higher than one kept |
| Ranking.DefaultLimit | src/app/api/recommendations/route.ts:45 | without a `limit` parameter the limit is 24 |
| Ranking.NonNumericLimit | src/app/api/recommendations/route.ts:45 | a `limit` given with no digit after its leading whitespace and optional sign (blank, `abc`, `-x`) parses to NaN, so `slice` returns nothing |
| Ranking.AvgConfidence | src/app/api/recommendations/route.ts:341 | the average is absent (NaN, sent as null) exactly for an empty list |
| Ranking.AvgBetween | src/app/api/recommendations/route.ts:341 | the rounded average lies between the smallest and the largest confidence |
| Ranking.CountOfTypeTotal | src/app/api/recommendations/route.ts:342-345 | the six per-type counts add up to the list length |
| Ranking.Distribution | src/app/api/recommendations/route.ts:342-345 | a type's tag is a key exactly when the type occurs, its value is that type's count, and every key is a type tag |
| Ranking.DistributionSumsToTotal | src/app/api/recommendations/route.ts:342-349 | the distribution's counts add up to `total` |
| Ranking.StrategiesUsed | src/app/api/recommendations/route.ts:353-362 | every strategy that ran is listed, semantic matching exactly when a search history was given, ranking last, and the length follows the inputs given |
| Ranking.Summarize | src/app/api/recommendations/route.ts:347-363 | the reply carries the list and its length, the strategies used, the average confidence of the list (absent exactly for an empty list) and the list's type distribution, whose keys are exactly the types that occur and whose counts add up to `total` |
| Ranking.Reply | src/app/api/recommendations/route.ts:313-363 | the reply's list is the pool ranked and cut to the parsed limit (so `Rank`'s length, order and content facts hold of it), with the strategies of the query; sorted, distinct ids, at most 24 by default, every movie with a reason and at most one "multiple liked movies" reason, its strategy listed; the average and the distribution are those of the returned list, and the distribution's counts add up to `total`; an empty pool gives an empty reply |
| Ranking.Recommend | src/app/api/recommendations/route.ts:38-363 | the reply's list is the ranked, cut candidate pool of the whole request, with every fact of `Reply` (average and distribution of that list, counts adding up to `total`), and a reply with no recommendations and no distribution when every catalogue request fails |
| Ranking.RankedFacts | src/app/api/recommendations/route.ts:314-362 | every ranked movie has a reason, at most one "multiple liked movies" reason, and a type whose strategy is listed as used |
| Ranking.CountOfTypePositive | src/app/api/recommendations/route.ts:342-345 | a type's count is positive exactly when some ranked movie has that type |
| Recommender.TypeNameInjective | src/app/api/recommendations/route.ts:25 | different types have different tags |
| Recommender.FreshSimilarConfidence | src/app/api/recommendations/route.ts:81 | a fresh similar candidate starts at 85 plus 1.5 times the rating, which is 100 for a rating of 10 |
| Recommender.MergeRuleOf | src/app/api/recommendations/route.ts:85-92 | hidden gems and diversity never merge; only the trending merge leaves confidence alone; only the similar merge uses the "multiple liked movies" reason, and appends it only when absent |
| Recommender.RaiseConfidence | src/app/api/recommendations/route.ts:88 | the raised confidence is at most 99 and at most `c + k`, and equals one of the two, which pins it to `Math.min(99, c + k)`; for k >= 0 it is never below `min(99, c)` |
| Recommender.Merge | src/app/api/recommendations/route.ts:86-91 | a merge adds exactly `fraction * base` to the match score, sets the confidence to the capped raise when the rule raises it and keeps it otherwise, keeps the movie and the type, keeps the old reasons as a prefix, and adds at most one reason |
| Recommender.PutGood | src/app/api/recommendations/route.ts:78 | storing a candidate that grows out of the one it replaces keeps the pool invariant and changes no other entry |
| Recommender.Absorb | src/app/api/recommendations/route.ts:73-93 | one step of a pass stores the fresh candidate for an unseen movie, or the merge of the candidate present (nothing for hidden gems and diversity); it keeps the pool invariant, adds exactly the movie's id, leaves every other entry alone, never changes an existing type, and leaves every confidence either as it was or at most 99 and not below `min(99, c)` |
| Recommender.PassFactsTransitive | src/app/api/recommendations/route.ts:73-93 | the facts of one pass, the capped confidence included, compose over several steps |
| Recommender.AbsorbList | src/app/api/recommendations/route.ts:73-93 | after a pass over a list every movie of the list is in the pool, and the pass facts hold |
| Recommender.AbsorbEach | src/app/api/recommendations/route.ts:105-137 | a pass over several fetched lists keeps the invariant, failed fetches change nothing, and the first `cap` movies of every fetched list end up in the pool |
| Recommender.ListedMono | src/app/api/recommendations/route.ts:73-93 | a list the pool holds stays held as the pool grows |
| Recommender.IdList | src/app/api/recommendations/route.ts:53 | the kept ids are exactly the non-blank comma pieces: none blank, every non-blank piece kept, as many as there are non-blank pieces, in their order |
| Recommender.SimilarPass | src/app/api/recommendations/route.ts:52-99 | the similar pass keeps the invariant and only inserts similar candidates; the first 8 related movies of each liked id that answered are in the pool, the details of each such id are cached under `parseInt(id)`, and nothing changes when every request fails |
| Recommender.Distinct | src/app/api/recommendations/route.ts:142-150 | the director set has no repeats, holds exactly the directors found, and lists them in order of first appearance |
| Recommender.IndexOf | src/app/api/recommendations/route.ts:142-150 | the position of the first occurrence of a value |
| Recommender.TopDirectors | src/app/api/recommendations/route.ts:158 | the first two (or fewer) of the distinct director ids, in order of first appearance |
| Recommender.DirectorsOf | src/app/api/recommendations/route.ts:146-150 | exactly the ids of the crew members whose job is "Director"; none without credits |
| Recommender.DirectorIds | src/app/api/recommendations/route.ts:145-154 | exactly the director ids found in some cached record |
| Recommender.LeadingGenres | src/app/api/recommendations/route.ts:104-105 | the first three (or fewer) non-blank genre pieces |
| Recommender.LikedIds | src/app/api/recommendations/route.ts:53-55 | the first five (or fewer) non-blank liked ids |
| Recommender.GenrePass | src/app/api/recommendations/route.ts:102-138 | the genre pass keeps the invariant and only inserts genre candidates; the first 6 movies of each leading genre's fetched list are in the pool; nothing changes when every request fails |
| Recommender.DirectorPass | src/app/api/recommendations/route.ts:141-192 | the director pass keeps the invariant and only inserts director candidates; the first 4 movies of each top director's fetched list are in the pool; nothing changes when every request fails |
| Recommender.HiddenGemPass | src/app/api/recommendations/route.ts:195-218 | the hidden-gem pass only inserts absent movies, leaves every existing candidate untouched, and puts the first 8 gems fetched in the pool |
| Recommender.TrendingPass | src/app/api/recommendations/route.ts:221-252 | the trending pass does nothing once there are 15 candidates, never changes an existing confidence, and below 15 puts the first 12 trending movies fetched in the pool |
| Recommender.UnusedGenres | src/app/api/recommendations/route.ts:257-261 | the first two (or fewer) palette genres that are not preferred, in palette order |
| Recommender.UnusedPalette | src/app/api/recommendations/route.ts:257-259 | exactly the palette genres that are not preferred, in palette order |
| Recommender.DiversityPass | src/app/api/recommendations/route.ts:256-287 | the diversity pass only inserts absent movies, leaves every existing candidate untouched, and puts the first 3 movies of each unused genre's fetched list in the pool |
| Recommender.SearchTerms | src/app/api/recommendations/route.ts:291 | the terms are the comma pieces of the lower-cased history, each trimmed, one per piece and at least one |
| Recommender.MatchedTerms | src/app/api/recommendations/route.ts:298-303 | the matched terms are exactly the terms that occur in the movie text, in the order of the terms, each occurrence once |
| Recommender.MatchCountIsLength | src/app/api/recommendations/route.ts:295-302 | the counter always equals the number of matched terms |
| Recommender.MatchCountPositive | src/app/api/recommendations/route.ts:305 | the counter is positive exactly when some term occurs |
| Recommender.Boost | src/app/api/recommendations/route.ts:293-309 | with m > 0 matches: the score gains exactly 15m, confidence becomes `min(99, c + 5m)`, and exactly one reason is appended; with no match the candidate is unchanged |
| Recommender.BlankTermMatchesAll | src/app/api/recommendations/route.ts:291-305 | a blank search term boosts every candidate |
| Recommender.BoostAll | src/app/api/recommendations/route.ts:293-310 | the boost keeps the keys and their order and boosts every candidate |
| Recommender.Ran | src/app/api/recommendations/route.ts:52-287 | hidden gems and trending always run; similar and director run exactly when liked movies are given; genre and diversity run exactly when genres are given |
| Recommender.Candidates | src/app/api/recommendations/route.ts:47-311 | the finished pool is well formed and every candidate's type belongs to a strategy that ran; it holds, up to each cap, every movie fetched by a strategy that ran (similar lists of the first five liked ids, the genre, director and diversity lists, the hidden gems, and the trending list whenever the pool ends below 15); it is empty when every request fails |
| Achievements.Selected | src/lib/achievements.ts:56-61 | a name is selected exactly when its condition holds and it is not already earned; never more names than rows |
| Achievements.SelectedInOrder | src/lib/achievements.ts:56-61 | the selected names come in table order, and none twice when the table's names are distinct |
| Achievements.Find | src/lib/achievements.ts:63 | `find` returns the first catalogue entry with that name, and nothing exactly when there is none |
| Achievements.FindIndex | src/lib/achievements.ts:63 | the position of the first catalogue entry with that name, or nothing exactly when there is none |
| Achievements.Post | src/lib/achievements.ts:63-73 | every posted id belongs to a catalogue entry for a selected name, and every selected name found in the catalogue is posted |
| Achievements.PostIsLookupOfKnown | src/lib/achievements.ts:60-73 | the posts are, position by position, the catalogue ids of the names the catalogue knows, in the order of the names: one post per known name and none for the others |
| Achievements.PostOfUnknown | src/lib/achievements.ts:63-64 | when no name is known to the catalogue (an empty catalogue, for one) nothing is posted |
| Achievements.ReviewsBy | src/lib/achievements.ts:41-42 | exactly the reviews whose author is the user, one per such review |
| Achievements.StatsOf | src/lib/achievements.ts:48-53 | the review count is the number of reviews the user wrote, the two list counts are the fetched lengths, and the user is never an early user |
| Achievements.CheckAndAward | src/lib/achievements.ts:25-79 | if any of the five requests fails nothing is posted; otherwise the awards for the fetched stats and earned names |
| Achievements.ReviewThresholdsNested | src/lib/achievements.ts:15-19 | fifty reviews meet all five review thresholds |
| Achievements.HoldsMonotone | src/lib/achievements.ts:15-22 | every condition stays met when the counts grow |
| Achievements.SelectedMonotone | src/lib/achievements.ts:60-61 | more activity selects every name that less activity selects |
| Achievements.EarlyAdopterNeverSelected | src/lib/achievements.ts:22 | "Early Adopter" is never selected, since the stats never mark an early user |
| Achievements.SelectedIdempotent | src/lib/achievements.ts:56-75 | running again with the names just selected added to the earned set selects nothing |
| Achievements.Awarded | src/lib/achievements.ts:60-73 | the names a run awards are exactly the selected names the catalogue knows |
| Achievements.RerunPostsNothing | src/lib/achievements.ts:56-75 | once a run's awarded names are earned, a second run with the same stats posts nothing |
| Achievements.MissingNameSkipped | src/lib/achievements.ts:63-64 | a selected name missing from the catalogue contributes no post |
| MovieData.SearchMovies | src/lib/movieData.ts:135-146 | a blank query returns the list unchanged; otherwise a movie is kept exactly when its lower-cased title, genre, description or a keyword contains the lower-cased query |
| MovieData.SearchIsSubsequence | src/lib/movieData.ts:139-145 | the search result keeps the order of the list |
| MovieData.EligibleMovies | src/lib/movieData.ts:150-152 | exactly the other movies of the same genre or rated 8.5 or more, in list order, each as often as the list holds it |
| MovieData.GetRecommended | src/lib/movieData.ts:148-154 | the picks are a sub-multiset of the eligible movies (no movie picked more often than the list holds it), never the current movie, best rated first, `slice` many, and no eligible movie left out is rated higher than a pick |
| MovieData.DefaultPicks | src/lib/movieData.ts:148 | by default at most three picks |
| ReviewsPage.ComputeStats | src/app/reviews/page.tsx:61-74 | for a non-empty list the total is its length, the mean rating times the total is the sum of the ratings, and each rating 1..10 maps to its count; an empty list leaves the previous statistics |
| ReviewsPage.SumRatingsBounds | src/app/reviews/page.tsx:65 | with ratings in 1..10 the sum lies between one and ten times the number of reviews |
| ReviewsPage.AvgRatingInRange | src/app/reviews/page.tsx:65 | with ratings in 1..10 the mean rating is in 1..10 |
| ReviewsPage.DistributionSumsToTotal | src/app/reviews/page.tsx:64-70 | with ratings in 1..10, as the form's range input allows, the ten counts add up to the total |
| ReviewsPage.DistributionPercentage | src/app/reviews/page.tsx:259-262 | 0 when there are no reviews, and within 0..100 when the count is at most the total |
| ReviewsPage.PercentageInIntegers | src/app/reviews/page.tsx:259-262 | the rounded percentage equals `(200 * count + total) div (2 * total)` |
| ReviewsPage.ImageUrl | src/app/reviews/page.tsx:239-243 | no path gives the placeholder, an `http` path is kept, and any other path gets the w200 prefix |
| ReviewsPage.ColorOf | src/app/reviews/page.tsx:253-257 | green exactly from 8, yellow exactly for 6 up to 8, red exactly below 6 |
| ReviewsPage.SearchFilter | src/app/reviews/page.tsx:80-88 | an empty query keeps everything; otherwise a review is kept exactly when its title, text or author contains the query, in list order and as often as the list holds it |
| ReviewsPage.EmptyQueryMatches | src/app/reviews/page.tsx:81-87 | every review matches the empty query |
| ReviewsPage.RatingFilter | src/app/reviews/page.tsx:90-93 | no selection keeps everything; otherwise exactly the reviews with the selected rating, in list order and as often as the list holds them |
| ReviewsPage.SortReviews | src/app/reviews/page.tsx:95-109 | the sort rearranges the list; highest and newest order non-increasing, lowest and oldest non-decreasing |
| ReviewsPage.Visible | src/app/reviews/page.tsx:76-112 | a review is shown exactly when it matches the query (if any) and the rating (if any), and the shown list rearranges the filtered one |
| RecommendationsPage.ShowFiltered | src/app/recommendations/page.tsx:81-90 | "all" shows everything; any other filter shows exactly the recommendations with that type |
| RecommendationsPage.ShowFilteredKeepsOrder | src/app/recommendations/page.tsx:86-88 | the filtered list keeps the response's order |
| RecommendationsPage.ShowFilteredUnknown | src/app/recommendations/page.tsx:86-88 | a filter that is neither "all" nor a type shows nothing |
| RecommendationsPage.ShowFilteredCount | src/app/recommendations/page.tsx:86-88 | selecting a type shows as many movies as the route counts for it |
| RecommendationsPage.TagCountIsCountOfType | src/app/recommendations/page.tsx:139-144 | the page's per-type `filter(...).length` equals the route's per-type count |
| RecommendationsPage.FilterOptions | src/app/recommendations/page.tsx:137-145 | "all" comes first with the full count; a type's option is present exactly when its count is positive, and carries that count, in the fixed order |
| RecommendationsPage.FindGenre | src/app/recommendations/page.tsx:123 | `find` gives the first genre with that id, or nothing exactly when there is none |
| RecommendationsPage.GenreName | src/app/recommendations/page.tsx:121-125 | "Movie" for no ids, no genres or an unknown id; otherwise the name of the first genre with the first id (or "Movie" when that name is empty) |
| RecommendationsPage.QueryParams | src/app/recommendations/page.tsx:95-99 | the query always ends with `limit=24` |
| RecommendationsPage.QueryParamsPresence | src/app/recommendations/page.tsx:96-98 | each preference is sent exactly when it is non-empty, and no value sent is empty |
| RecommendationsPage.QueryParamsReadBack | src/app/recommendations/page.tsx:95-101 | the route reads the page's query back as exactly the preferences, with limit 24 |
| Posters.LargeImageUrl | src/app/recommendations/page.tsx:127-130 | no path gives the placeholder; any other path gets the w500 prefix |
| Posters.LargeImageUrlInverse | src/components/MovieDetailsDialog.tsx:72-75 | the path can be read back from every URL that is not the placeholder |
| Posters.LargeImageUrlInjective | src/components/MovieDetailsDialog.tsx:72-75 | two paths never share an image URL |
| MovieDetailsDialog.CrewWithJob | src/components/MovieDetailsDialog.tsx:77-85 | no credits give nothing; otherwise exactly the crew entries with that job |
| MovieDetailsDialog.CrewWithJobKeepsOrder | src/components/MovieDetailsDialog.tsx:79 | the picked crew entries keep their order |
| MovieDetailsDialog.DirectorsAndProducersDisjoint | src/components/MovieDetailsDialog.tsx:77-85 | no crew entry is both a director and a producer |
| MovieDetailsDialog.ShownProducers | src/components/MovieDetailsDialog.tsx:201 | the first five producers are shown |
| MovieDetailsDialog.ShownCast | src/components/MovieDetailsDialog.tsx:211-215 | the first eight cast members are shown, none without credits |
| MovieDetailsDialog.FormatRuntime | src/components/MovieDetailsDialog.tsx:87-91 | for a non-negative runtime the label is the hours, "h ", the leftover minutes and "m" |
| MovieDetailsDialog.RuntimeParts | src/components/MovieDetailsDialog.tsx:88-89 | for a non-negative runtime, hours times 60 plus minutes is the runtime and the minutes are below 60 |
| MovieDetailsDialog.RuntimePartsNegative | src/components/MovieDetailsDialog.tsx:88-89 | a negative runtime that is not a whole hour comes out 60 minutes short |
| MovieDetailsDialog.ShownRuntime | src/components/MovieDetailsDialog.tsx:145-148 | no runtime renders nothing; a runtime of 0 renders the bare number "0" (a falsy number is still rendered by React); any other runtime renders the row with its label |
| MovieDetailsDialog.ShownZeroExactly | src/components/MovieDetailsDialog.tsx:145-148 | the page shows the text "0" exactly for a runtime of 0: no runtime label reads "0" |
| MovieDetailsDialog.FormatRuntimeReadBack | src/components/MovieDetailsDialog.tsx:87-91 | the label of a non-negative runtime reads back as that runtime |
| MovieDetailsDialog.FormatRuntimeInjective | src/components/MovieDetailsDialog.tsx:87-91 | different runtimes get different labels |
| ProfileEdit.ToggleGenre | src/app/profile/edit/page.tsx:84-91 | a selected genre is removed entirely; an unselected one is appended last; every other genre keeps its membership |
| ProfileEdit.ToggleRemovesInOrder | src/app/profile/edit/page.tsx:88 | removing a genre keeps the others in order |
| ProfileEdit.ToggleTwice | src/app/profile/edit/page.tsx:87-89 | toggling an unselected genre twice gives back the selection |
| ProfileEdit.ToggleTwiceSelected | src/app/profile/edit/page.tsx:87-89 | toggling a selected genre twice moves it, once, to the end |
| ProfileEdit.TrimmedOrNull | src/app/profile/edit/page.tsx:101-103 | null exactly for a blank text; otherwise the trimmed text, which is not empty |
| ProfileEdit.BuildPayload | src/app/profile/edit/page.tsx:100-107 | the texts are trimmed with blanks as null, and the genres are null exactly when none is selected |
| ProfileEdit.SaveRequest | src/app/profile/edit/page.tsx:111-131 | a PUT to the loaded profile's id exactly when a profile exists, a POST otherwise, with the payload as body |
| ProfileEdit.LoadForm | src/app/profile/edit/page.tsx:66-71 | a stored text or genre list loads as itself; missing texts load as empty and missing genres as the empty list |
| ProfileEdit.AfterFetch | src/app/profile/edit/page.tsx:63-75 | a found profile fills the form; 404 clears the profile; any other failure changes nothing |
| ProfileEdit.SaveThenLoad | src/app/profile/edit/page.tsx:66-107 | saving and loading back gives the form with its texts trimmed |
| ProfileEdit.SaveIdempotent | src/app/profile/edit/page.tsx:66-107 | saving what was loaded sends the same payload again |
| ProfileEdit.FieldRoundTrip | src/app/profile/edit/page.tsx:67-69 | a text field survives a save and a reload, as far as the next save can tell |
| Register.Utf16LengthOfBmp | src/app/register/page.tsx:43 | the length counts characters exactly when none lies beyond the Basic Multilingual Plane |
| Register.ValidationError | src/app/register/page.tsx:38-46 | the mismatch error exactly for differing passwords; the length error exactly for matching passwords shorter than 8; no error otherwise |
| Register.ErrorMessage | src/app/register/page.tsx:57-61 | `USER_ALREADY_EXISTS` gets its own message, and every other code the generic one |
| Register.Submit | src/app/register/page.tsx:34-73 | a failed check shows its error; registration succeeds exactly for a valid form whose reply has no error code; a code shows its message; an exception the unexpected-error message |
| Register.InvalidIgnoresReply | src/app/register/page.tsx:38-46 | a form failing a check never reaches the sign-up call |
| Register.RegisteredOnlyWhenValid | src/app/register/page.tsx:50-55 | a successful registration implies both checks passed |
| Register.MismatchReportedFirst | src/app/register/page.tsx:38-46 | a short password that also differs from its confirmation reports the mismatch |
| Register.CodelessRejectionRegisters | src/app/register/page.tsx:57-67 | an error reply without a code, or with an empty one, counts as success |
| Register.RedirectOf | src/app/register/page.tsx:26 | the redirect is the parameter when present and non-empty, and "/" otherwise |
| Register.LoginAfterRegisterReads | src/app/register/page.tsx:67 | the URL after registering is the login page with `registered=true`, and carries the redirect exactly when it is not "/" |
| Register.SignInHrefReads | src/app/register/page.tsx:261 | the sign-in link is the login page, and carries the redirect exactly when it is not "/" |
| Register.RedirectSurvives | src/app/register/page.tsx:26-67 | read back as the page reads its own parameter, either login link leads to the same redirect |
| Uri.DecodeEncode | src/app/register/page.tsx:67 | decoding an encoded text gives the text back |
| Uri.EncodeInjective | src/app/register/page.tsx:67 | different redirects get different encodings |
| Uri.EncodeHasNoDelimiters | src/app/register/page.tsx:67 | an encoded value never holds `&`, `=`, `?` or `#`, so it stays one parameter |
| Uri.GetParam | src/app/api/recommendations/route.ts:42-45 | `get` finds the first pair with the key, and nothing exactly when no pair has it |
| Text.TrimEmptyIff | src/lib/movieData.ts:136 | a text is empty after trimming exactly when it is all whitespace |
| Text.ParseIntDecimal | src/app/api/recommendations/route.ts:45 | `parseInt` reads back any written integer |
| Text.ParseIntNoNumber | src/app/api/recommendations/route.ts:45 | `parseInt` of a text with no decimal digit after its leading whitespace and optional sign is NaN |
| Seqs.Filter | src/app/api/recommendations/route.ts:53 | `filter` keeps exactly the elements that pass, as many as pass (each occurrence once) |
| Seqs.SortDescStable | src/app/api/recommendations/route.ts:337 | the sort is stable: movies with equal final scores keep their insertion order |
| OrderedMaps.SizeIsCardinality | src/app/api/recommendations/route.ts:221 | the map's `size` is its number of distinct keys |

## Left out

- **Network I/O and plumbing.** `fetch`, `Promise.all`, the try/catch and logging, `NextResponse`, React state and effects, toasts, the router and `localStorage`. Results are inputs, and a failed request reads as `None`.
- **The blender's error reply.** The 500 reply from the outer catch is not modelled. Every failure inside a strategy is already caught there and contributes nothing.
- **Date and clock handling.** `new Date(...).getFullYear()` and the current year are inputs, and review timestamps are integers. The reviews page's `formatDate` is presentation only.
- **Floating point.** Scores, confidences and averages are exact `real` numbers, so IEEE rounding is not modelled. `Math.round` is `floor(x + 0.5)` on reals.
- **Ranking.AvgConfidence** is `None` for the empty list, standing for NaN, which the JSON reply carries as null.
- **JSON.** Key order of `strategy_distribution` is not modelled: the distribution is a `map`. The JSON text of `favoriteGenres` is not modelled either: the payload carries the list itself, and `ProfileEdit.SaveThenLoad` assumes the server keeps it as sent.
- **Unused director/actor data.** The `actors` set of the director strategy is built but never used, so it is not modelled, and keywords in the details records are not modelled.
- **The server side of the user-profiles API.** Modelled only as the field-for-field store of `ProfileEdit.Stored`.
- **Register.Submit** does not model:
  - the session redirect effect, which is navigation only;
  - Google sign-in, which is a call into the auth client;
  - the loading flag.
- **Register.ErrorMessage** treats `errorMap` as a one-entry table. A code such as `constructor`, which JavaScript would look up on the object prototype, is not modelled.
- **Uri.GetParam.** Reading a query string is a reference model: split at `&`, cut at the first `=`, and percent-decode. It does not model `URLSearchParams` reading `+` as a space, or its lenient handling of malformed escapes.
- **RecommendationsPage.QueryParamsReadBack** reads the parameter list the page builds, not the text `URLSearchParams.toString()` makes of it. That form encoding (a space as `+`, its own escape set) is not the `encodeURIComponent` of `Uri.Encode`, so the serialisation is assumed to round-trip.
- **Uri.Encode.** Lone surrogates cannot occur, because a Dafny `char` is a Unicode scalar value, so the `URIError` of `encodeURIComponent` is not modelled.
- **Text.Lower** lower-cases ASCII letters only. JavaScript's full Unicode case mapping is not modelled.
- **MovieData.** The twelve-movie constant list is not reproduced: the list is a parameter, and `getRecommendedMovies` is modelled over it.
- **MovieDetailsDialog.FormatRuntime** states its label only for non-negative runtimes. For negative ones the parts are given by `RuntimePartsNegative`, and the label of a negative hour count is not stated.
- **Presentation-only parts.** The reviews page's share URLs, the recommendations page's strategy labels and display-only statistics, and the pages that only fetch and render (home, profile, login, admin) are not modelled.

=== FILE: achievements.dfy ===
/**
 * The achievement awarder run after a user acts: from the user's counts it
 * picks every threshold of a fixed table that is met and not yet earned, and
 * posts the catalogue id of each such achievement.  The five requests it
 * makes are inputs; a failed one is None.
 */
module Achievements {
  import opened Wrappers
  import Seqs

  /** The counts a threshold is checked against. */
  datatype UserStats = UserStats(reviewCount: nat, favoritesCount: nat, watchLaterCount: nat, isEarlyUser: bool)

  datatype Condition =
    | ReviewsAtLeast(reviews: nat)
    | FavoritesAtLeast(favorites: nat)
    | WatchLaterAtLeast(watchLater: nat)
    | EarlyUser

  datatype Threshold = Threshold(name: string, condition: Condition)

  /** `check.checkCondition(stats)`. */
  predicate Holds(c: Condition, stats: UserStats) {
    match c
    case ReviewsAtLeast(n) => stats.reviewCount >= n
    case FavoritesAtLeast(n) => stats.favoritesCount >= n
    case WatchLaterAtLeast(n) => stats.watchLaterCount >= n
    case EarlyUser => stats.isEarlyUser
  }

  const EarlyAdopter: string := "Early Adopter"

  /** `ACHIEVEMENT_THRESHOLDS`, in table order. */
  const Thresholds: seq<Threshold> := [
    Threshold("First Steps", ReviewsAtLeast(1)),
    Threshold("Movie Critic", ReviewsAtLeast(5)),
    Threshold("Film Buff", ReviewsAtLeast(10)),
    Threshold("Review Master", ReviewsAtLeast(25)),
    Threshold("Legendary Critic", ReviewsAtLeast(50)),
    Threshold("Favorites Collector", FavoritesAtLeast(10)),
    Threshold("Watchlist Planner", WatchLaterAtLeast(20)),
    Threshold(EarlyAdopter, EarlyUser)
  ]

  /** The names of a table's rows, in order. */
  function Names(table: seq<Threshold>): (r: seq<string>)
    ensures |r| == |table| && forall i :: 0 <= i < |table| ==> r[i] == table[i].name
  {
    if table == [] then [] else [table[0].name] + Names(table[1..])
  }

  /** No two rows of the table share a name. */
  predicate DistinctNames(table: seq<Threshold>) {
    forall i, j :: 0 <= i < j < |table| ==> table[i].name != table[j].name
  }

  /**
   * The names the loop decides to award, in table order: the condition holds
   * and the name is not among those already earned.  Their order and the
   * absence of repeats are stated by `SelectedInOrder`.
   */
  function Selected(table: seq<Threshold>, stats: UserStats, earned: set<string>): (names: seq<string>)
    ensures |names| <= |table|
    ensures forall n :: n in names ==> n !in earned
    ensures forall n :: n in names <==> exists i :: 0 <= i < |table| && table[i].name == n && Holds(table[i].condition, stats) && n !in earned
  {
    if table == [] then []
    else
      var rest := Selected(table[1..], stats, earned);
      SelectedShift(table, stats, earned);
      if Holds(table[0].condition, stats) && table[0].name !in earned then [table[0].name] + rest
      else rest
  }

  /**
   * The loop visits each row once: the names come in table order and, when
   * the table's names are distinct, none comes twice.
   */
  lemma {:induction false} SelectedInOrder(table: seq<Threshold>, stats: UserStats, earned: set<string>)
    ensures Seqs.IsSubsequence(Selected(table, stats, earned), Names(table))
    ensures DistinctNames(table) ==> forall i, j :: 0 <= i < j < |Selected(table, stats, earned)| ==> Selected(table, stats, earned)[i] != Selected(table, stats, earned)[j]
  {
    if table != [] {
      SelectedInOrder(table[1..], stats, earned);
      SelectedShift(table, stats, earned);
      SelectedStep(table, Selected(table[1..], stats, earned));
    }
  }

  /** Counting rows from the second one of a table, or from 1 in the whole table, selects the same names. */
  lemma SelectedShift(table: seq<Threshold>, stats: UserStats, earned: set<string>)
    requires table != []
    ensures forall n :: (exists i :: 0 <= i < |table[1..]| && table[1..][i].name == n && Holds(table[1..][i].condition, stats) && n !in earned)
              <==> (exists i :: 1 <= i < |table| && table[i].name == n && Holds(table[i].condition, stats) && n !in earned)
  {
    forall n
      ensures (exists i :: 0 <= i < |table[1..]| && table[1..][i].name == n && Holds(table[1..][i].condition, stats) && n !in earned)
          ==> (exists i :: 1 <= i < |table| && table[i].name == n && Holds(table[i].condition, stats) && n !in earned)
    {
      if exists i :: 0 <= i < |table[1..]| && table[1..][i].name == n && Holds(table[1..][i].condition, stats) && n !in earned {
        var i :| 0 <= i < |table[1..]| && table[1..][i].name == n && Holds(table[1..][i].condition, stats) && n !in earned;
        assert table[i + 1] == table[1..][i];
      }
    }
    forall n
      ensures (exists i :: 1 <= i < |table| && table[i].name == n && Holds(table[i].condition, stats) && n !in earned)
          ==> (exists i :: 0 <= i < |table[1..]| && table[1..][i].name == n && Holds(table[1..][i].condition, stats) && n !in earned)
    {
      if exists i :: 1 <= i < |table| && table[i].name == n && Holds(table[i].condition, stats) && n !in earned {
        var i :| 1 <= i < |table| && table[i].name == n && Holds(table[i].condition, stats) && n !in earned;
        assert table[1..][i - 1] == table[i];
      }
    }
  }

  /**
   * One row of `Selected`: whether or not the first row is kept, the names
   * chosen from the rest stay a subsequence of the table's names, and a
   * distinct table cannot choose its first name again.
   */
  lemma SelectedStep(table: seq<Threshold>, rest: seq<string>)
    requires table != [] && Seqs.IsSubsequence(rest, Names(table[1..]))
    requires forall n :: n in rest ==> exists i :: 1 <= i < |table| && table[i].name == n
    requires DistinctNames(table[1..]) ==> forall i, j :: 0 <= i < j < |rest| ==> rest[i] != rest[j]
    ensures Seqs.IsSubsequence([table[0].name] + rest, Names(table))
    ensures Seqs.IsSubsequence(rest, Names(table))
    ensures DistinctNames(table) ==> forall i, j :: 0 <= i < j < |[table[0].name] + rest| ==> ([table[0].name] + rest)[i] != ([table[0].name] + rest)[j]
    ensures DistinctNames(table) ==> forall i, j :: 0 <= i < j < |rest| ==> rest[i] != rest[j]
  {
    var names := Names(table);
    assert names == [table[0].name] + Names(table[1..]);
    assert ([table[0].name] + rest)[1..] == rest;
    Seqs.SubsequenceCons(rest, Names(table[1..]), table[0].name);
    if DistinctNames(table) {
      forall i, j | 0 <= i < j < |table[1..]|
        ensures table[1..][i].name != table[1..][j].name
      {
        assert table[1..][i] == table[i + 1] && table[1..][j] == table[j + 1];
      }
      var kept := [table[0].name] + rest;
      forall i, j | 0 <= i < j < |kept|
        ensures kept[i] != kept[j]
      {
        if i == 0 {
          assert kept[j] == rest[j - 1] && kept[j] in rest;
        } else {
          assert kept[i] == rest[i - 1] && kept[j] == rest[j - 1];
        }
      }
    }
  }

  /** An achievement of the catalogue: the id posted to award it, and its name. */
  datatype Achievement = Achievement(id: int, name: string)

  /** The position of the first achievement called `name`, if any. */
  function FindIndex(catalogue: seq<Achievement>, name: string): (k: Option<nat>)
    ensures k.Some? ==> k.value < |catalogue| && catalogue[k.value].name == name
    ensures k.Some? ==> forall i :: 0 <= i < k.value ==> catalogue[i].name != name
    ensures k.None? <==> forall i :: 0 <= i < |catalogue| ==> catalogue[i].name != name
  {
    if catalogue == [] then None
    else if catalogue[0].name == name then Some(0)
    else match FindIndex(catalogue[1..], name)
      case None => None
      case Some(k) => Some(k + 1)
  }

  /** `allAchievements.find(a => a.name === name)`: the first achievement of that name. */
  function Find(catalogue: seq<Achievement>, name: string): (r: Option<Achievement>)
    ensures r.Some? ==> r.value in catalogue && r.value.name == name
    ensures r.None? <==> forall i :: 0 <= i < |catalogue| ==> catalogue[i].name != name
    ensures r.Some? <==> FindIndex(catalogue, name).Some?
    ensures r.Some? ==> r.value == catalogue[FindIndex(catalogue, name).value]
  {
    match FindIndex(catalogue, name)
    case None => None
    case Some(k) => Some(catalogue[k])
  }

  /** The achievement ids posted for `names`, in order; a name missing from the catalogue is skipped. */
  function Post(names: seq<string>, catalogue: seq<Achievement>): (ids: seq<int>)
    ensures |ids| <= |names|
    ensures forall i :: 0 <= i < |ids| ==> exists a :: a in catalogue && a.id == ids[i] && a.name in names
    ensures forall n :: n in names && Find(catalogue, n).Some? ==> Find(catalogue, n).value.id in ids
  {
    if names == [] then []
    else
      var rest := Post(names[1..], catalogue);
      assert forall n :: n in names[1..] ==> n in names;
      match Find(catalogue, names[0])
      case None => rest
      case Some(a) => [a.id] + rest
  }

  /** `id` is what is posted for the name `n`: the catalogue knows `n` and `id` is its achievement's id. */
  ghost predicate PostedAt(catalogue: seq<Achievement>, n: string, id: int) {
    Find(catalogue, n).Some? && id == Find(catalogue, n).value.id
  }

  /**
   * `Post` against a reference: position by position, the catalogue id of
   * each name the catalogue knows, in the order of `names` (`known` stands
   * for "the catalogue has an achievement of that name").
   */
  lemma {:induction false} PostIsLookupOfKnown(names: seq<string>, catalogue: seq<Achievement>, known: string -> bool)
    requires forall n :: known(n) == Find(catalogue, n).Some?
    ensures |Post(names, catalogue)| == |Seqs.Filter(names, known)|
    ensures forall i :: 0 <= i < |Seqs.Filter(names, known)| ==>
              PostedAt(catalogue, Seqs.Filter(names, known)[i], Post(names, catalogue)[i])
  {
    if names != [] {
      PostIsLookupOfKnown(names[1..], catalogue, known);
      var f, rest := Seqs.Filter(names[1..], known), Post(names[1..], catalogue);
      var all, posted := Seqs.Filter(names, known), Post(names, catalogue);
      if known(names[0]) {
        assert all == [names[0]] + f;
        assert posted == [Find(catalogue, names[0]).value.id] + rest;
        PostedCons(catalogue, all, posted, f, rest);
      } else {
        assert all == f && posted == rest;
      }
    }
  }

  /** A first posted name in front of a pointwise-posted rest gives a pointwise-posted whole. */
  lemma PostedCons(catalogue: seq<Achievement>, all: seq<string>, posted: seq<int>, f: seq<string>, rest: seq<int>)
    requires all != [] && posted != [] && all[1..] == f && posted[1..] == rest && |f| == |rest|
    requires PostedAt(catalogue, all[0], posted[0])
    requires forall i :: 0 <= i < |f| ==> PostedAt(catalogue, f[i], rest[i])
    ensures forall i :: 0 <= i < |all| ==> PostedAt(catalogue, all[i], posted[i])
  {
    forall i | 0 <= i < |all|
      ensures PostedAt(catalogue, all[i], posted[i])
    {
      if i > 0 {
        assert all[i] == f[i - 1] && posted[i] == rest[i - 1];
      }
    }
  }

  /** All selected names are missing from the catalogue: nothing is posted. */
  lemma {:induction false} PostOfUnknown(names: seq<string>, catalogue: seq<Achievement>)
    requires forall i :: 0 <= i < |names| ==> Find(catalogue, names[i]).None?
    ensures Post(names, catalogue) == []
  {
    if names != [] {
      PostOfUnknown(names[1..], catalogue);
    }
  }

  /** The award loop over the table: what is posted for these stats. */
  function Awards(stats: UserStats, earned: set<string>, catalogue: seq<Achievement>): (ids: seq<int>)
    ensures forall i :: 0 <= i < |ids| ==> exists a :: a in catalogue && a.id == ids[i] && a.name in Selected(Thresholds, stats, earned)
    ensures forall n :: n in Selected(Thresholds, stats, earned) && Find(catalogue, n).Some? ==> Find(catalogue, n).value.id in ids
  {
    Post(Selected(Thresholds, stats, earned), catalogue)
  }

  /** A review as the listing returns it: only its author matters here. */
  datatype ReviewOwner = ReviewOwner(userId: string)

  /** The reviews written by `userId`: one per review of the listing whose author it is. */
  function ReviewsBy(all: seq<ReviewOwner>, userId: string): (r: seq<ReviewOwner>)
    ensures |r| <= |all|
    ensures |r| == Seqs.Count(all, (x: ReviewOwner) => x.userId == userId)
    ensures forall i :: 0 <= i < |r| ==> r[i].userId == userId
    ensures forall i :: 0 <= i < |all| && all[i].userId == userId ==> all[i] in r
  {
    if all == [] then []
    else if all[0].userId == userId then [all[0]] + ReviewsBy(all[1..], userId)
    else ReviewsBy(all[1..], userId)
  }

  /** The five responses the awarder waits for; None marks one that was not ok. */
  datatype Fetched = Fetched(
    reviews: Option<seq<ReviewOwner>>,
    favorites: Option<nat>,              // the length of the favourites list
    watchLater: Option<nat>,             // the length of the watch-later list
    userAchievements: Option<seq<string>>,   // the names of the achievements already earned
    achievements: Option<seq<Achievement>>)

  predicate AllOk(f: Fetched) {
    f.reviews.Some? && f.favorites.Some? && f.watchLater.Some? && f.userAchievements.Some? && f.achievements.Some?
  }

  /**
   * The stats the awarder builds: the number of reviews the user wrote, the
   * lengths of the two lists, and never an early user.
   */
  function StatsOf(userId: string, f: Fetched): (stats: UserStats)
    requires AllOk(f)
    ensures stats.reviewCount == Seqs.Count(f.reviews.value, (x: ReviewOwner) => x.userId == userId)
    ensures stats.favoritesCount == f.favorites.value && stats.watchLaterCount == f.watchLater.value
    ensures !stats.isEarlyUser
  {
    UserStats(|ReviewsBy(f.reviews.value, userId)|, f.favorites.value, f.watchLater.value, false)
  }

  /** `new Set(userAchievements.map(ua => ua.achievement.name))`. */
  function Earned(names: seq<string>): (s: set<string>)
    ensures forall n :: n in s <==> n in names
  {
    set n | n in names
  }

  /** `checkAndAwardAchievements`: the achievement ids it posts, in order. */
  function CheckAndAward(userId: string, f: Fetched): (ids: seq<int>)
    ensures !AllOk(f) ==> ids == []
    ensures AllOk(f) ==> ids == Awards(StatsOf(userId, f), Earned(f.userAchievements.value), f.achievements.value)
  {
    if !AllOk(f) then []
    else Awards(StatsOf(userId, f), Earned(f.userAchievements.value), f.achievements.value)
  }

  // ---------------------------------------------------------------------------
  // Properties
  // ---------------------------------------------------------------------------

  /** The five review thresholds are nested: fifty reviews meet all of them. */
  lemma ReviewThresholdsNested(stats: UserStats)
    requires stats.reviewCount >= 50
    ensures forall i :: 0 <= i < 5 ==> Thresholds[i].condition.ReviewsAtLeast? && Holds(Thresholds[i].condition, stats)
  {
  }

  /** `b` has at least the counts of `a` and is an early user whenever `a` is. */
  predicate AtLeast(b: UserStats, a: UserStats) {
    && a.reviewCount <= b.reviewCount
    && a.favoritesCount <= b.favoritesCount
    && a.watchLaterCount <= b.watchLaterCount
    && (a.isEarlyUser ==> b.isEarlyUser)
  }

  /** Every condition is monotone: more activity never un-meets a threshold. */
  lemma HoldsMonotone(c: Condition, a: UserStats, b: UserStats)
    requires AtLeast(b, a) && Holds(c, a)
    ensures Holds(c, b)
  {
  }

  /** More activity selects every name fewer activity selects, unless it is already earned. */
  lemma SelectedMonotone(a: UserStats, b: UserStats, earned: set<string>)
    requires AtLeast(b, a)
    ensures forall n :: n in Selected(Thresholds, a, earned) ==> n in Selected(Thresholds, b, earned)
  {
    forall n | n in Selected(Thresholds, a, earned)
      ensures n in Selected(Thresholds, b, earned)
    {
      var i :| 0 <= i < |Thresholds| && Thresholds[i].name == n && Holds(Thresholds[i].condition, a) && n !in earned;
      HoldsMonotone(Thresholds[i].condition, a, b);
    }
  }

  /** Since the awarder never marks anyone an early user, "Early Adopter" is never selected. */
  lemma EarlyAdopterNeverSelected(userId: string, f: Fetched)
    requires AllOk(f)
    ensures EarlyAdopter !in Selected(Thresholds, StatsOf(userId, f), Earned(f.userAchievements.value))
  {
    var stats := StatsOf(userId, f);
    forall i | 0 <= i < |Thresholds| && Thresholds[i].name == EarlyAdopter
      ensures !Holds(Thresholds[i].condition, stats)
    {
      assert Thresholds[i].name[0] == 'E';
    }
  }

  /** Running again with the names just selected added to the earned set selects nothing. */
  lemma SelectedIdempotent(table: seq<Threshold>, stats: UserStats, earned: set<string>)
    ensures Selected(table, stats, earned + Earned(Selected(table, stats, earned))) == []
  {
    SelectedNothingNew(table, stats, earned, earned + Earned(Selected(table, stats, earned)));
  }

  /** An earned set that already holds every name selected against `earned` leaves nothing to select. */
  lemma {:induction false} SelectedNothingNew(table: seq<Threshold>, stats: UserStats, earned: set<string>, again: set<string>)
    requires earned <= again
    requires forall n :: n in Selected(table, stats, earned) ==> n in again
    ensures Selected(table, stats, again) == []
  {
    if table != [] {
      var rest := Selected(table[1..], stats, earned);
      assert forall n :: n in rest ==> n in Selected(table, stats, earned);
      SelectedNothingNew(table[1..], stats, earned, again);
    }
  }

  /** The names a run actually awards: those selected that the catalogue knows. */
  function Awarded(stats: UserStats, earned: set<string>, catalogue: seq<Achievement>): (s: set<string>)
    ensures forall n :: n in s <==> n in Selected(Thresholds, stats, earned) && Find(catalogue, n).Some?
  {
    set n | n in Selected(Thresholds, stats, earned) && Find(catalogue, n).Some?
  }

  /**
   * A second run, after the first run's posts have become earned, posts
   * nothing: a name selected again is one the catalogue does not know.
   */
  lemma RerunPostsNothing(stats: UserStats, earned: set<string>, catalogue: seq<Achievement>)
    ensures Awards(stats, earned + Awarded(stats, earned, catalogue), catalogue) == []
  {
    var again := earned + Awarded(stats, earned, catalogue);
    var names := Selected(Thresholds, stats, again);
    forall i | 0 <= i < |names|
      ensures Find(catalogue, names[i]).None?
    {
      var n := names[i];
      assert n in names;
      var j :| 0 <= j < |Thresholds| && Thresholds[j].name == n && Holds(Thresholds[j].condition, stats) && n !in again;
      assert n in Selected(Thresholds, stats, earned);
    }
    PostOfUnknown(names, catalogue);
  }

  /** A selected name missing from the catalogue contributes no post. */
  lemma MissingNameSkipped(names: seq<string>, catalogue: seq<Achievement>, missing: string)
    requires forall i :: 0 <= i < |catalogue| ==> catalogue[i].name != missing
    ensures Post(names, catalogue) == Post(RemoveAll(names, missing), catalogue)
  {
    if names != [] {
      MissingNameSkipped(names[1..], catalogue, missing);
    }
  }

  /** `names` without any occurrence of `x`. */
  function RemoveAll(names: seq<string>, x: string): (r: seq<string>)
    ensures x !in r
    ensures forall n :: n in r <==> n in names && n != x
  {
    if names == [] then []
    else if names[0] == x then RemoveAll(names[1..], x)
    else [names[0]] + RemoveAll(names[1..], x)
  }
}

=== FILE: js_math.dfy ===
/**
 * JavaScript number operations over exact numbers: `Math.min` on reals,
 * `Math.round`, `Math.floor` of a quotient, and the `%` operator, whose
 * remainder takes the sign of the dividend.
 */
module JsMath {

  /** `Math.min(a, b)`. */
  function MinReal(a: real, b: real): (m: real)
    ensures m <= a && m <= b
    ensures m == a || m == b
  {
    if a <= b then a else b
  }

  /** `Math.round(x)`: the nearest integer, halves rounded up (towards +infinity). */
  function Round(x: real): (n: int)
    ensures x - 0.5 < n as real <= x + 0.5
  {
    (x + 0.5).Floor
  }

  /** For a positive divisor, the floor of the exact quotient is Euclidean integer division. */
  lemma FloorOfQuotient(a: int, b: int)
    requires b > 0
    ensures (a as real / b as real).Floor == a / b
  {
    var q := a / b;
    var r := a % b;
    var x := a as real / b as real;
    var y := x - q as real;
    assert y * b as real == r as real by {
      assert x * b as real == a as real;
      assert a == q * b + r;
      assert y * b as real == x * b as real - q as real * b as real;
    }
    ScaleBounds(y, b as real, r as real);
  }

  lemma ScaleBounds(y: real, b: real, r: real)
    requires b > 0.0 && y * b == r && 0.0 <= r < b
    ensures 0.0 <= y < 1.0
  {
  }

  /** `a % b` in JavaScript for integers: truncating division, remainder with the sign of `a`. */
  function TruncMod(a: int, b: int): (r: int)
    requires b != 0
    ensures a >= 0 ==> r == a % b
    ensures a < 0 ==> r == -((-a) % b)
  {
    if a >= 0 then a % b else -((-a) % b)
  }

  /** `Math.floor(a / b)` for integers with a positive divisor. */
  function FloorDiv(a: int, b: int): (q: int)
    requires b > 0
    ensures q * b <= a < (q + 1) * b
  {
    a / b
  }
}

=== FILE: movie_data.dfy ===
/**
 * The local movie list's search and "more like this" picks.  Ratings are
 * held in tenths (8.7 is 87) so that comparisons are exact.
 */
module MovieData {
  import opened Text
  import opened Seqs

  datatype Movie = Movie(
    id: int,
    title: string,
    year: int,
    ratingTenths: int,
    genre: string,
    image: string,
    description: string,
    keywords: seq<string>)

  /** Some keyword, lower-cased, contains `q`. */
  predicate KeywordMatch(keywords: seq<string>, q: string) {
    exists i | 0 <= i < |keywords| :: Contains(Lower(keywords[i]), q)
  }

  /** The lower-cased title, genre, description or a keyword contains the lower-cased query `q`. */
  predicate Matches(m: Movie, q: string) {
    || Contains(Lower(m.title), q)
    || Contains(Lower(m.genre), q)
    || Contains(Lower(m.description), q)
    || KeywordMatch(m.keywords, q)
  }

  /**
   * `searchMovies(query, list)`: a blank query returns the list as it is;
   * otherwise the movies matching the lower-cased (untrimmed) query, in order.
   */
  function SearchMovies(query: string, list: seq<Movie>): (r: seq<Movie>)
    ensures AllSpace(query) ==> r == list
    ensures !AllSpace(query) ==> forall i :: 0 <= i < |list| ==> (list[i] in r <==> Matches(list[i], Lower(query)))
    ensures !AllSpace(query) ==> forall i :: 0 <= i < |r| ==> Matches(r[i], Lower(query))
  {
    TrimEmptyIff(query);
    if Trim(query) == [] then list
    else
      var q := Lower(query);
      Filter(list, (m: Movie) => Matches(m, q))
  }

  /** The search result keeps the order of the list: it is a subsequence of it. */
  lemma SearchIsSubsequence(query: string, list: seq<Movie>)
    ensures IsSubsequence(SearchMovies(query, list), list)
  {
    if Trim(query) == [] {
      SubsequenceReflexive(list);
    } else {
      FilterIsSubsequence(list, (m: Movie) => Matches(m, Lower(query)));
    }
  }

  /** A movie qualifies as a pick for `current`: another movie, same genre or rated 8.5 or more. */
  predicate Eligible(m: Movie, current: Movie) {
    m.id != current.id && (m.genre == current.genre || m.ratingTenths >= 85)
  }

  function RatingKey(m: Movie): real {
    m.ratingTenths as real
  }

  /** `Eligible` with the current movie fixed, as the one predicate both filters amount to. */
  function EligibleTo(current: Movie): Movie -> bool {
    (m: Movie) => Eligible(m, current)
  }

  /**
   * The two filters of `getRecommendedMovies`, in order: each eligible movie
   * of the list once per occurrence, in list order.
   */
  function EligibleMovies(list: seq<Movie>, current: Movie): (r: seq<Movie>)
    ensures forall i :: 0 <= i < |r| ==> r[i] in list && Eligible(r[i], current)
    ensures forall i :: 0 <= i < |list| && Eligible(list[i], current) ==> list[i] in r
    ensures |r| == Count(list, EligibleTo(current))
    ensures IsSubsequence(r, list)
  {
    var others := Filter(list, (m: Movie) => m.id != current.id);
    var r := Filter(others, (m: Movie) => m.genre == current.genre || m.ratingTenths >= 85);
    FilterFilter(list, (m: Movie) => m.id != current.id, (m: Movie) => m.genre == current.genre || m.ratingTenths >= 85, EligibleTo(current));
    FilterIsSubsequence(list, EligibleTo(current));
    r
  }

  /**
   * `getRecommendedMovies(current, count)` over `list`: the eligible movies,
   * best rated first (ties keep list order), cut to `count`.  An eligible
   * movie left out is rated no higher than any that was kept.
   */
  function GetRecommended(list: seq<Movie>, current: Movie, count: int): (r: seq<Movie>)
    ensures |r| == SliceEnd(|EligibleMovies(list, current)|, count)
    ensures forall i :: 0 <= i < |r| ==> r[i] in list && Eligible(r[i], current) && r[i].id != current.id
    ensures multiset(r) <= multiset(EligibleMovies(list, current))
    ensures multiset(r) <= multiset(list)
    ensures SortedDesc(r, RatingKey)
    ensures forall i :: 0 <= i < |list| && Eligible(list[i], current) && list[i] !in r ==>
              forall j :: 0 <= j < |r| ==> list[i].ratingTenths <= r[j].ratingTenths
  {
    var eligible := EligibleMovies(list, current);
    var sorted := SortDesc(eligible, RatingKey);
    assert |sorted| == |multiset(sorted)| == |multiset(eligible)| == |eligible|;
    var r := Take(sorted, count);
    PicksFacts(list, current, eligible, sorted, r);
    SubsequenceMultiset(eligible, list);
    r
  }

  lemma PicksFacts(list: seq<Movie>, current: Movie, eligible: seq<Movie>, sorted: seq<Movie>, r: seq<Movie>)
    requires eligible == EligibleMovies(list, current)
    requires multiset(sorted) == multiset(eligible) && SortedDesc(sorted, RatingKey)
    requires |r| <= |sorted| && r == sorted[..|r|]
    ensures forall i :: 0 <= i < |r| ==> r[i] in list && Eligible(r[i], current)
    ensures multiset(r) <= multiset(eligible)
    ensures SortedDesc(r, RatingKey)
    ensures forall i :: 0 <= i < |list| && Eligible(list[i], current) && list[i] !in r ==>
              forall j :: 0 <= j < |r| ==> list[i].ratingTenths <= r[j].ratingTenths
  {
    assert sorted == r + sorted[|r|..];
    assert multiset(sorted) == multiset(r) + multiset(sorted[|r|..]);
    forall i | 0 <= i < |r|
      ensures r[i] in list && Eligible(r[i], current)
    {
      assert r[i] == sorted[i] && sorted[i] in multiset(eligible);
    }
    forall i, j | 0 <= i < j < |r|
      ensures RatingKey(r[i]) >= RatingKey(r[j])
    {
      assert r[i] == sorted[i] && r[j] == sorted[j];
    }
    forall i | 0 <= i < |list| && Eligible(list[i], current) && list[i] !in r
      ensures forall j :: 0 <= j < |r| ==> list[i].ratingTenths <= r[j].ratingTenths
    {
      assert list[i] in multiset(sorted);
      var pos :| 0 <= pos < |sorted| && sorted[pos] == list[i];
      forall j | 0 <= j < |r|
        ensures list[i].ratingTenths <= r[j].ratingTenths
      {
        assert r[j] == sorted[j];
        assert RatingKey(sorted[j]) >= RatingKey(sorted[pos]);
      }
    }
  }

  /** The default `count`: at most three picks. */
  function DefaultPicks(list: seq<Movie>, current: Movie): (r: seq<Movie>)
    ensures |r| <= 3
    ensures forall i :: 0 <= i < |r| ==> r[i].id != current.id
  {
    GetRecommended(list, current, 3)
  }
}

=== FILE: movie_details.dfy ===
/**
 * The movie details dialog's derived views: the directors and producers
 * picked out of the crew, the slices of producers and cast it shows, and
 * the runtime label.
 */
module MovieDetailsDialog {
  import opened Wrappers
  import opened Text
  import opened Seqs
  import opened JsMath
  import opened Recommender

  // ---------------------------------------------------------------------------
  // Crew and cast
  // ---------------------------------------------------------------------------

  const DirectorJob: string := "Director"
  const ProducerJob: string := "Producer"

  /**
   * `details.credits.crew.filter((person) => person.job === job)`, or nothing
   * when the details or their credits are missing (`None`).
   */
  function CrewWithJob(credits: Option<Credits>, job: string): (r: seq<CrewMember>)
    ensures credits.None? ==> r == []
    ensures credits.Some? ==> forall i :: 0 <= i < |credits.value.crew| ==>
              (credits.value.crew[i] in r <==> credits.value.crew[i].job == job)
    ensures forall i :: 0 <= i < |r| ==> r[i].job == job
  {
    if credits.None? then [] else Filter(credits.value.crew, (p: CrewMember) => p.job == job)
  }

  /** The crew members picked keep their order in the credits. */
  lemma CrewWithJobKeepsOrder(credits: Option<Credits>, job: string)
    ensures credits.Some? ==> IsSubsequence(CrewWithJob(credits, job), credits.value.crew)
  {
    if credits.Some? {
      FilterIsSubsequence(credits.value.crew, (p: CrewMember) => p.job == job);
    }
  }

  /** `getDirectors()`. */
  function Directors(credits: Option<Credits>): seq<CrewMember> {
    CrewWithJob(credits, DirectorJob)
  }

  /** `getProducers()`. */
  function Producers(credits: Option<Credits>): seq<CrewMember> {
    CrewWithJob(credits, ProducerJob)
  }

  /** No crew entry is listed both as a director and as a producer. */
  lemma DirectorsAndProducersDisjoint(credits: Option<Credits>)
    ensures forall i, j :: 0 <= i < |Directors(credits)| && 0 <= j < |Producers(credits)| ==>
              Directors(credits)[i] != Producers(credits)[j]
  {
    assert DirectorJob[0] != ProducerJob[0];
  }

  /** The producers shown: the first five. */
  function ShownProducers(credits: Option<Credits>): (r: seq<CrewMember>)
    ensures |r| == Min(5, |Producers(credits)|)
    ensures r == Producers(credits)[..|r|]
  {
    Take(Producers(credits), 5)
  }

  /** The cast shown: the first eight, and none without credits. */
  function ShownCast(credits: Option<Credits>): (r: seq<CastMember>)
    ensures credits.None? ==> r == []
    ensures credits.Some? ==> |r| == Min(8, |credits.value.cast|) && r == credits.value.cast[..|r|]
  {
    if credits.None? then [] else Take(credits.value.cast, 8)
  }

  // ---------------------------------------------------------------------------
  // The runtime label
  // ---------------------------------------------------------------------------

  /** `formatRuntime(minutes)`: `Math.floor(minutes / 60)` hours and `minutes % 60` minutes. */
  function FormatRuntime(minutes: int): (s: string)
    ensures minutes >= 0 ==> s == NatToDecimal(minutes / 60) + "h " + NatToDecimal(minutes % 60) + "m"
  {
    IntToDecimal(FloorDiv(minutes, 60)) + "h " + IntToDecimal(TruncMod(minutes, 60)) + "m"
  }

  /** For a non-negative runtime the two parts are the hours and the leftover minutes. */
  lemma RuntimeParts(minutes: int)
    requires minutes >= 0
    ensures FloorDiv(minutes, 60) * 60 + TruncMod(minutes, 60) == minutes
    ensures 0 <= TruncMod(minutes, 60) < 60
  {
  }

  /**
   * For a negative runtime that is not a whole number of hours the parts
   * disagree: the floored hours and the truncated minutes add up to an hour less.
   */
  lemma RuntimePartsNegative(minutes: int)
    requires minutes < 0 && minutes % 60 != 0
    ensures FloorDiv(minutes, 60) * 60 + TruncMod(minutes, 60) == minutes - 60
  {
    var k := -minutes;
    assert FloorDiv(minutes, 60) == -(k / 60) - 1;
  }

  /**
   * What `{details.runtime && (...)}` renders: nothing without a runtime; for
   * a runtime of 0 the expression is the number 0, which React renders as the
   * bare text "0"; otherwise the clock row with the label.
   */
  datatype RuntimeView = NoRuntime | BareZero | RuntimeRow(text: string)

  /** The text a view puts on the page. */
  function ViewText(v: RuntimeView): string {
    match v
    case NoRuntime => ""
    case BareZero => "0"
    case RuntimeRow(t) => t
  }

  /** The runtime part of the dialog's header. */
  function ShownRuntime(runtime: Option<int>): (v: RuntimeView)
    ensures v.NoRuntime? <==> runtime.None?
    ensures v.BareZero? <==> runtime == Some(0)
    ensures v.RuntimeRow? ==> runtime.Some? && runtime.value != 0 && v.text == FormatRuntime(runtime.value)
  {
    match runtime
    case None => NoRuntime
    case Some(m) => if m == 0 then BareZero else RuntimeRow(FormatRuntime(m))
  }

  /** The page shows the bare text "0" exactly for a runtime of 0: no label reads "0". */
  lemma ShownZeroExactly(runtime: Option<int>)
    ensures ViewText(ShownRuntime(runtime)) == "0" <==> runtime == Some(0)
  {
    if runtime.Some? && runtime.value != 0 {
      var t := FormatRuntime(runtime.value);
      assert t[|t| - 1] == 'm';
    }
  }

  /** Hours and minutes as a number of minutes. */
  function TotalMinutes(hours: nat, minutes: nat): nat {
    hours * 60 + minutes
  }

  /** Reads a label of the form `{h}h {m}m` back as a number of minutes. */
  function ReadRuntime(s: string): Option<nat> {
    var k := DigitRun(s, 10);
    if 0 < k && k + 3 < |s| && s[k] == 'h' && s[k + 1] == ' ' && s[|s| - 1] == 'm'
       && DigitRun(s[k + 2..|s| - 1], 10) == |s| - k - 3
    then Some(TotalMinutes(DigitsValue(s[..k], 10), DigitsValue(s[k + 2..|s| - 1], 10)))
    else None
  }

  /** The label of a non-negative runtime reads back as that runtime. */
  lemma FormatRuntimeReadBack(minutes: int)
    requires minutes >= 0
    ensures ReadRuntime(FormatRuntime(minutes)) == Some(minutes)
  {
    var hs := NatToDecimal(minutes / 60);
    var ms := NatToDecimal(minutes % 60);
    ReadLabel(hs, ms);
    DecimalValue(minutes / 60);
    DecimalValue(minutes % 60);
    assert TotalMinutes(minutes / 60, minutes % 60) == minutes;
  }

  /** Any label built from two digit strings reads back as hours times 60 plus minutes. */
  lemma ReadLabel(hs: string, ms: string)
    requires hs != [] && forall i :: 0 <= i < |hs| ==> IsDecimalDigit(hs[i])
    requires ms != [] && forall i :: 0 <= i < |ms| ==> IsDecimalDigit(ms[i])
    ensures ReadRuntime(hs + "h " + ms + "m") == Some(TotalMinutes(DigitsValue(hs, 10), DigitsValue(ms, 10)))
  {
    var s := hs + "h " + ms + "m";
    LabelParts(hs, ms, s);
    DigitsOnly(ms);
    ReadParts(s, hs, ms);
  }

  /** `ReadRuntime` on a string already cut into its parts. */
  lemma ReadParts(s: string, hs: string, ms: string)
    requires hs != [] && ms != [] && |s| == |hs| + |ms| + 3
    requires DigitRun(s, 10) == |hs| && DigitRun(ms, 10) == |ms|
    requires s[|hs|] == 'h' && s[|hs| + 1] == ' ' && s[|s| - 1] == 'm'
    requires s[..|hs|] == hs && s[|hs| + 2..|s| - 1] == ms
    ensures ReadRuntime(s) == Some(TotalMinutes(DigitsValue(hs, 10), DigitsValue(ms, 10)))
  {
  }

  lemma LabelParts(hs: string, ms: string, s: string)
    requires forall i :: 0 <= i < |hs| ==> IsDecimalDigit(hs[i])
    requires s == hs + "h " + ms + "m"
    ensures DigitRun(s, 10) == |hs| && |s| == |hs| + |ms| + 3
    ensures s[|hs|] == 'h' && s[|hs| + 1] == ' ' && s[|s| - 1] == 'm'
    ensures s[..|hs|] == hs && s[|hs| + 2..|s| - 1] == ms
  {
    var tail := "h " + ms + "m";
    assert s == hs + tail;
    DigitRunOfNumber(hs, tail, 10);
  }

  lemma DigitsOnly(ms: string)
    requires forall i :: 0 <= i < |ms| ==> IsDecimalDigit(ms[i])
    ensures DigitRun(ms, 10) == |ms|
  {
    DigitRunOfNumber(ms, [], 10);
    assert ms + [] == ms;
  }

  /** Different non-negative runtimes get different labels. */
  lemma FormatRuntimeInjective(a: int, b: int)
    requires a >= 0 && b >= 0 && FormatRuntime(a) == FormatRuntime(b)
    ensures a == b
  {
    FormatRuntimeReadBack(a);
    FormatRuntimeReadBack(b);
  }
}

=== FILE: ordered_maps.dfy ===
/**
 * A JavaScript `Map`: a finite map that also remembers the order in which its
 * keys were first inserted.  Iteration (`forEach`, `values()`) follows that
 * order, and `set` on a key already present replaces the value in place.
 */
module OrderedMaps {
  import opened Wrappers

  datatype OrderedMap<K(==), V> = OrderedMap(keys: seq<K>, entries: map<K, V>)

  /** The insertion order lists every key of the map exactly once. */
  ghost predicate Valid<K, V>(m: OrderedMap<K, V>) {
    && (forall i, j :: 0 <= i < j < |m.keys| ==> m.keys[i] != m.keys[j])
    && m.entries.Keys == set k | k in m.keys
  }

  function Empty<K, V>(): (m: OrderedMap<K, V>)
    ensures Valid(m)
    ensures m.keys == [] && m.entries == map[]
  {
    OrderedMap([], map[])
  }

  /** `m.size`. */
  function Size<K, V>(m: OrderedMap<K, V>): nat {
    |m.keys|
  }

  /** `m.get(k)`. */
  function Get<K, V>(m: OrderedMap<K, V>, k: K): Option<V> {
    if k in m.entries then Some(m.entries[k]) else None
  }

  /** `m.set(k, v)`: a new key goes last, a known key keeps its place. */
  function Put<K, V>(m: OrderedMap<K, V>, k: K, v: V): (r: OrderedMap<K, V>)
    requires Valid(m)
    ensures Valid(r)
    ensures r.entries == m.entries[k := v]
    ensures k in m.entries ==> r.keys == m.keys
    ensures k !in m.entries ==> r.keys == m.keys + [k]
  {
    if k in m.entries then OrderedMap(m.keys, m.entries[k := v])
    else OrderedMap(m.keys + [k], m.entries[k := v])
  }

  /** `Array.from(m.values())`: the values in insertion order of their keys. */
  function Values<K, V>(m: OrderedMap<K, V>): (vs: seq<V>)
    requires Valid(m)
    ensures |vs| == |m.keys|
    ensures forall i :: 0 <= i < |vs| ==> vs[i] == m.entries[m.keys[i]]
  {
    seq(|m.keys|, i requires 0 <= i < |m.keys| => m.entries[m.keys[i]])
  }

  /** `m.size` agrees with the number of distinct keys. */
  lemma SizeIsCardinality<K, V>(m: OrderedMap<K, V>)
    requires Valid(m)
    ensures Size(m) == |m.entries.Keys|
  {
    DistinctCardinality(m.keys);
  }

  /** A sequence without repetitions has as many elements as its set of elements. */
  lemma {:induction false} DistinctCardinality<K>(s: seq<K>)
    requires forall i, j :: 0 <= i < j < |s| ==> s[i] != s[j]
    ensures |set k | k in s| == |s|
  {
    if s != [] {
      var rest := s[1..];
      assert forall i, j :: 0 <= i < j < |rest| ==> rest[i] != rest[j] by {
        forall i, j | 0 <= i < j < |rest|
          ensures rest[i] != rest[j]
        {
          assert rest[i] == s[i + 1] && rest[j] == s[j + 1];
        }
      }
      DistinctCardinality(rest);
      assert s[0] !in rest;
      assert (set k | k in s) == (set k | k in rest) + {s[0]} by {
        assert s == [s[0]] + rest;
      }
    }
  }
}

=== FILE: posters.dfy ===
/**
 * Poster and profile image addresses shared by the recommendations page and
 * the movie details dialog: a TMDB path becomes a w500 image URL, and a
 * missing path falls back to the local placeholder image.
 */
module Posters {
  import opened Wrappers

  const Placeholder: string := "/placeholder-movie.jpg"
  const LargeBase: string := "https://image.tmdb.org/t/p/w500"

  /** `getImageUrl(path)`: a `null` or empty path (both falsy) gives the placeholder. */
  function LargeImageUrl(path: Option<string>): (url: string)
    ensures path.None? || path.value == [] ==> url == Placeholder
    ensures path.Some? && path.value != [] ==> |url| > |LargeBase| && url[..|LargeBase|] == LargeBase
  {
    if path.None? || path.value == [] then Placeholder else LargeBase + path.value
  }

  /** The path can be read back from every URL that is not the placeholder, so no two paths share a URL. */
  lemma LargeImageUrlInverse(path: Option<string>)
    ensures path.Some? && path.value != [] ==> LargeImageUrl(path) != Placeholder
    ensures path.Some? && path.value != [] ==> LargeImageUrl(path)[|LargeBase|..] == path.value
  {
    if path.Some? && path.value != [] {
      var url := LargeImageUrl(path);
      assert url[|LargeBase|..] == path.value;
      assert url[0] != Placeholder[0];
    }
  }

  lemma LargeImageUrlInjective(a: string, b: string)
    requires a != [] && b != []
    ensures LargeImageUrl(Some(a)) == LargeImageUrl(Some(b)) ==> a == b
  {
    LargeImageUrlInverse(Some(a));
    LargeImageUrlInverse(Some(b));
  }
}

=== FILE: profile_edit.dfy ===
/**
 * The profile editor: toggling favourite genres, building the save request
 * from the form, and filling the form from a stored profile.  The stored
 * favourite-genre list is kept as a list of strings; its JSON text form is
 * not modelled.
 */
module ProfileEdit {
  import opened Wrappers
  import opened Text
  import opened Seqs

  /** The genres offered as toggles. */
  const GenreOptions: seq<string> := [
    "Action", "Adventure", "Animation", "Comedy", "Crime", "Documentary",
    "Drama", "Fantasy", "Horror", "Mystery", "Romance", "Sci-Fi",
    "Thriller", "Western", "Musical", "War", "Historical", "Biography"]

  // ---------------------------------------------------------------------------
  // Favourite genres
  // ---------------------------------------------------------------------------

  /**
   * `toggleGenre(genre)`: a selected genre is removed (every occurrence);
   * an unselected one is appended at the end.
   */
  function ToggleGenre(selected: seq<string>, genre: string): (r: seq<string>)
    ensures genre in selected ==> genre !in r
    ensures genre !in selected ==> genre in r && r[..|r| - 1] == selected && r[|r| - 1] == genre
    ensures forall g :: g != genre ==> (g in r <==> g in selected)
  {
    if genre in selected then Filter(selected, (g: string) => g != genre) else selected + [genre]
  }

  /** Removing a genre keeps the other selections in their order. */
  lemma ToggleRemovesInOrder(selected: seq<string>, genre: string)
    requires genre in selected
    ensures IsSubsequence(ToggleGenre(selected, genre), selected)
  {
    FilterIsSubsequence(selected, (g: string) => g != genre);
  }

  /** Toggling a genre that was not selected twice gives back the original selection. */
  lemma ToggleTwice(selected: seq<string>, genre: string)
    requires genre !in selected
    ensures ToggleGenre(ToggleGenre(selected, genre), genre) == selected
  {
    var p := (g: string) => g != genre;
    FilterAppend(selected, [genre], p);
    FilterKeepsAll(selected, p);
  }

  /**
   * Toggling a selected genre twice moves it to the end (and drops its
   * duplicates), so the original selection comes back only when the genre
   * was already last and unique.
   */
  lemma ToggleTwiceSelected(selected: seq<string>, genre: string)
    requires genre in selected
    ensures ToggleGenre(ToggleGenre(selected, genre), genre)
         == Filter(selected, (g: string) => g != genre) + [genre]
  {
  }

  // ---------------------------------------------------------------------------
  // Saving
  // ---------------------------------------------------------------------------

  datatype Form = Form(bio: string, avatarUrl: string, location: string, favoriteGenres: seq<string>)

  const EmptyForm: Form := Form("", "", "", [])

  datatype Payload = Payload(
    bio: Option<string>,
    avatarUrl: Option<string>,
    location: Option<string>,
    favoriteGenres: Option<seq<string>>)

  /** `s.trim() || null`. */
  function TrimmedOrNull(s: string): (r: Option<string>)
    ensures r.None? <==> AllSpace(s)
    ensures r.Some? ==> r.value == Trim(s) && r.value != []
  {
    TrimEmptyIff(s);
    if Trim(s) == [] then None else Some(Trim(s))
  }

  /** The payload: trimmed texts with blanks as `null`, and the genre list as `null` when empty. */
  function BuildPayload(f: Form): (p: Payload)
    ensures p.bio == TrimmedOrNull(f.bio)
    ensures p.avatarUrl == TrimmedOrNull(f.avatarUrl)
    ensures p.location == TrimmedOrNull(f.location)
    ensures p.favoriteGenres.None? <==> f.favoriteGenres == []
    ensures p.favoriteGenres.Some? ==> p.favoriteGenres.value == f.favoriteGenres
  {
    Payload(
      TrimmedOrNull(f.bio),
      TrimmedOrNull(f.avatarUrl),
      TrimmedOrNull(f.location),
      if |f.favoriteGenres| > 0 then Some(f.favoriteGenres) else None)
  }

  datatype StoredProfile = StoredProfile(
    id: int,
    bio: Option<string>,
    avatarUrl: Option<string>,
    location: Option<string>,
    favoriteGenres: Option<seq<string>>)

  datatype Request = Put(profileId: int, body: Payload) | Post(body: Payload)

  /** The save step: update the loaded profile by id, or create one when none exists. */
  function SaveRequest(profile: Option<StoredProfile>, f: Form): (r: Request)
    ensures r.Put? <==> profile.Some?
    ensures r.Put? ==> r.profileId == profile.value.id
    ensures r.body == BuildPayload(f)
  {
    match profile
    case Some(p) => Put(p.id, BuildPayload(f))
    case None => Post(BuildPayload(f))
  }

  // ---------------------------------------------------------------------------
  // Loading
  // ---------------------------------------------------------------------------

  /** `value || ""`: a missing text reads as empty. */
  function TextOrEmpty(v: Option<string>): string {
    v.GetOr([])
  }

  /**
   * The form filled from a stored profile; a missing genre list (null or
   * empty text) loads as no genres.
   */
  function LoadForm(p: StoredProfile): (f: Form)
    ensures p.favoriteGenres.None? ==> f.favoriteGenres == []
    ensures p.bio.None? ==> f.bio == []
    ensures p.avatarUrl.None? ==> f.avatarUrl == []
    ensures p.location.None? ==> f.location == []
    ensures p.favoriteGenres.Some? ==> f.favoriteGenres == p.favoriteGenres.value
    ensures p.bio.Some? ==> f.bio == p.bio.value
    ensures p.avatarUrl.Some? ==> f.avatarUrl == p.avatarUrl.value
    ensures p.location.Some? ==> f.location == p.location.value
  {
    Form(
      TextOrEmpty(p.bio),
      TextOrEmpty(p.avatarUrl),
      TextOrEmpty(p.location),
      match p.favoriteGenres
      case None => []
      case Some(gs) => gs)
  }

  /** The outcome of fetching the user's profile. */
  datatype Fetched = Found(p: StoredProfile) | NotFound | FetchFailed

  /** `fetchProfile`: a found profile fills the form; 404 clears the profile; other failures change nothing. */
  function AfterFetch(r: Fetched, profile: Option<StoredProfile>, form: Form): (s: (Option<StoredProfile>, Form))
    ensures r.Found? ==> s == (Some(r.p), LoadForm(r.p))
    ensures r.NotFound? ==> s == (None, form)
    ensures r.FetchFailed? ==> s == (profile, form)
  {
    match r
    case Found(p) => (Some(p), LoadForm(p))
    case NotFound => (None, form)
    case FetchFailed => (profile, form)
  }

  /** The profile a server keeps after storing `body` under `id`, field for field. */
  function Stored(id: int, body: Payload): StoredProfile {
    StoredProfile(id, body.bio, body.avatarUrl, body.location, body.favoriteGenres)
  }

  /** Saving a form and loading it back gives the form with its texts trimmed. */
  lemma SaveThenLoad(id: int, f: Form)
    ensures LoadForm(Stored(id, BuildPayload(f)))
         == Form(Trim(f.bio), Trim(f.avatarUrl), Trim(f.location), f.favoriteGenres)
  {
  }

  /** Saving again what was loaded sends the same payload: the save is idempotent. */
  lemma SaveIdempotent(id: int, f: Form)
    ensures BuildPayload(LoadForm(Stored(id, BuildPayload(f)))) == BuildPayload(f)
  {
    var p := BuildPayload(f);
    var g := LoadForm(Stored(id, p));
    assert g.bio == TextOrEmpty(p.bio) && g.avatarUrl == TextOrEmpty(p.avatarUrl) && g.location == TextOrEmpty(p.location);
    FieldRoundTrip(f.bio);
    FieldRoundTrip(f.avatarUrl);
    FieldRoundTrip(f.location);
  }

  /** A text field survives a save and a reload unchanged, as far as the next save can tell. */
  lemma FieldRoundTrip(s: string)
    ensures TrimmedOrNull(TextOrEmpty(TrimmedOrNull(s))) == TrimmedOrNull(s)
  {
    if TrimmedOrNull(s).Some? {
      TrimmedOrNullOfTrim(s);
    }
  }

  lemma TrimmedOrNullOfTrim(s: string)
    ensures TrimmedOrNull(Trim(s)) == TrimmedOrNull(s)
  {
    TrimIdempotent(s);
    TrimEmptyIff(s);
    TrimEmptyIff(Trim(s));
  }
}

=== FILE: ranking.dfy ===
/**
 * The final stage of `GET /api/recommendations`: every candidate gets a
 * weighted score from its match score, rating, recency, popularity and vote
 * count; the candidates are sorted by it, cut to the requested limit and
 * summarised (average confidence, per-type distribution, strategies used).
 * The current year is a parameter (the server's clock).
 */
module Ranking {
  import opened Wrappers
  import opened Text
  import opened Seqs
  import opened OrderedMaps
  import opened Recommender
  import opened JsMath

  // ---------------------------------------------------------------------------
  // Component scores
  // ---------------------------------------------------------------------------

  /** The recency score for a movie released `diff` years before the current year. */
  function YearScore(diff: int): (score: int)
    ensures 20 <= score <= 100
    ensures diff <= 0 <==> score == 100
    ensures diff > 20 <==> score == 20
  {
    if diff <= 0 then 100
    else if diff <= 1 then 95
    else if diff <= 2 then 85
    else if diff <= 3 then 75
    else if diff <= 5 then 65
    else if diff <= 10 then 50
    else if diff <= 20 then 35
    else 20
  }

  /** Newer movies never score lower for recency than older ones. */
  lemma YearScoreMonotone(a: int, b: int)
    requires a <= b
    ensures YearScore(b) <= YearScore(a)
  {
  }

  /**
   * `getRecencyScore(release_date)`: 50 without a date; a date that does not
   * parse gives a NaN year difference, which fails every comparison and so
   * lands on the last branch, 20.
   */
  function RecencyScore(releaseDate: string, releaseYear: Option<int>, currentYear: int): (score: int)
    ensures 20 <= score <= 100
    ensures releaseDate == [] ==> score == 50
    ensures releaseDate != [] && releaseYear.None? ==> score == 20
    ensures releaseDate != [] && releaseYear.Some? ==> score == YearScore(currentYear - releaseYear.value)
  {
    if releaseDate == [] then 50
    else match releaseYear
      case None => 20
      case Some(y) => YearScore(currentYear - y)
  }

  /** `Math.min(100, (popularity / 100) * 100)`. */
  function PopularityScore(popularity: real): (s: real)
    ensures s <= 100.0
    ensures popularity <= 100.0 ==> s == popularity
  {
    MinReal(100.0, popularity / 100.0 * 100.0)
  }

  /** `(vote_average / 10) * 100`. */
  function RatingScore(voteAverage: real): (s: real)
    ensures 0.0 <= voteAverage <= 10.0 ==> 0.0 <= s <= 100.0
  {
    voteAverage / 10.0 * 100.0
  }

  /** `vote_count ? Math.min(100, (vote_count / 5000) * 100) : 50`: a missing or zero count scores 50. */
  function VoteCountScore(voteCount: Option<int>): (s: real)
    ensures s <= 100.0
    ensures voteCount.None? || voteCount.value == 0 ==> s == 50.0
    ensures voteCount.Some? && voteCount.value >= 5000 ==> s == 100.0
  {
    match voteCount
    case Some(v) => if v == 0 then 50.0 else MinReal(100.0, v as real / 5000.0 * 100.0)
    case None => 50.0
  }

  /** The weighted blend: 35% match, 25% rating, 15% recency, 15% popularity, 10% vote count. */
  function FinalScore(c: Candidate, currentYear: int): real {
    c.matchScore * 0.35
      + RatingScore(c.movie.voteAverage) * 0.25
      + RecencyScore(c.movie.releaseDate, c.movie.releaseYear, currentYear) as real * 0.15
      + PopularityScore(c.movie.popularity) * 0.15
      + VoteCountScore(c.movie.voteCount) * 0.10
  }

  /** Each extra point of match score adds 0.35 to the final score, whatever else the movie has. */
  lemma FinalScoreMatchWeight(c: Candidate, d: real, currentYear: int)
    ensures FinalScore(c.(matchScore := c.matchScore + d), currentYear) == FinalScore(c, currentYear) + 0.35 * d
  {
  }

  /** The weights sum to one: with every component in [0, 100] so is the blend. */
  lemma FinalScoreBounded(c: Candidate, currentYear: int)
    requires 0.0 <= c.matchScore <= 100.0
    requires 0.0 <= c.movie.voteAverage <= 10.0
    requires 0.0 <= c.movie.popularity
    requires c.movie.voteCount.None? || c.movie.voteCount.value >= 0
    ensures 0.0 <= FinalScore(c, currentYear) <= 100.0
  {
    var rec := RecencyScore(c.movie.releaseDate, c.movie.releaseYear, currentYear);
    var pop := PopularityScore(c.movie.popularity);
    assert 0.0 <= pop;
    var votes := VoteCountScore(c.movie.voteCount);
    assert 0.0 <= votes;
  }

  // ---------------------------------------------------------------------------
  // The ranked list
  // ---------------------------------------------------------------------------

  /** A candidate as it leaves the server: scores rounded, the blend attached. */
  datatype Ranked = Ranked(
    movie: MovieResult,
    finalScore: real,
    matchScore: int,
    confidence: int,
    reasons: seq<string>,
    recType: RecType)

  function ToRanked(c: Candidate, currentYear: int): (r: Ranked)
    ensures r.movie == c.movie && r.reasons == c.reasons && r.recType == c.recType
    ensures r.finalScore == FinalScore(c, currentYear)
    ensures c.matchScore - 0.5 < r.matchScore as real <= c.matchScore + 0.5
    ensures c.confidence - 0.5 < r.confidence as real <= c.confidence + 0.5
  {
    Ranked(c.movie, FinalScore(c, currentYear), Round(c.matchScore), Round(c.confidence), c.reasons, c.recType)
  }

  function FinalKey(x: Ranked): real {
    x.finalScore
  }

  function MovieId(x: Ranked): int {
    x.movie.id
  }

  /** The pool's candidates in insertion order, each scored. */
  function Scored(p: Pool, currentYear: int): (s: seq<Ranked>)
    requires WellFormed(p)
    ensures |s| == Size(p)
    ensures forall i :: 0 <= i < |s| ==> s[i] == ToRanked(p.entries[p.keys[i]], currentYear)
    ensures DistinctBy(s, MovieId)
  {
    var vs := Values(p);
    var s := seq(|vs|, i requires 0 <= i < |vs| => ToRanked(vs[i], currentYear));
    assert forall i :: 0 <= i < |s| ==> MovieId(s[i]) == p.keys[i] by {
      forall i | 0 <= i < |s|
        ensures MovieId(s[i]) == p.keys[i]
      {
        assert GoodEntry(p.keys[i], p.entries[p.keys[i]]);
      }
    }
    s
  }

  /** Every element of the scored list is a pool candidate, scored, stored under its movie id. */
  lemma ScoredMember(p: Pool, currentYear: int, x: Ranked)
    requires WellFormed(p) && x in Scored(p, currentYear)
    ensures x.movie.id in p.entries && x == ToRanked(p.entries[x.movie.id], currentYear)
  {
    var s := Scored(p, currentYear);
    var j :| 0 <= j < |s| && s[j] == x;
    assert GoodEntry(p.keys[j], p.entries[p.keys[j]]);
  }

  /** Every ranked movie is the scored form of the pool entry with its id. */
  ghost predicate DrawnFrom(p: Pool, r: seq<Ranked>, currentYear: int) {
    forall i :: 0 <= i < |r| ==> r[i].movie.id in p.entries && r[i] == ToRanked(p.entries[r[i].movie.id], currentYear)
  }

  /** No pool entry left out of `r` scores higher than one kept. */
  ghost predicate NoneBetterLeftOut(p: Pool, r: seq<Ranked>, currentYear: int) {
    forall k :: k in p.entries && ToRanked(p.entries[k], currentYear) !in r ==>
      forall i :: 0 <= i < |r| ==> FinalScore(p.entries[k], currentYear) <= r[i].finalScore
  }

  /** Every pool entry appears in `r`. */
  ghost predicate AllKept(p: Pool, r: seq<Ranked>, currentYear: int) {
    forall k :: k in p.entries ==> ToRanked(p.entries[k], currentYear) in r
  }

  /**
   * `Array.from(recommendations.values()).map(…).sort((a, b) => b.final_score - a.final_score).slice(0, limit)`.
   * The result holds the `limit` best candidates, best first, each movie once;
   * a candidate left out scores no higher than any that was kept.
   */
  function Rank(p: Pool, limit: int, currentYear: int): (r: seq<Ranked>)
    requires WellFormed(p)
    ensures |r| == SliceEnd(Size(p), limit)
    ensures SortedDesc(r, FinalKey)
    ensures DistinctBy(r, MovieId)
    ensures DrawnFrom(p, r, currentYear)
    ensures NoneBetterLeftOut(p, r, currentYear)
    ensures |r| == Size(p) ==> AllKept(p, r, currentYear)
  {
    var sorted := SortedPool(p, currentYear);
    var r := Take(sorted, limit);
    PrefixKeepsOrder(sorted, r);
    RankMembers(p, currentYear, sorted, r);
    RankTop(p, currentYear, sorted, r);
    r
  }

  /** The scored pool, best first. */
  function SortedPool(p: Pool, currentYear: int): (sorted: seq<Ranked>)
    requires WellFormed(p)
    ensures multiset(sorted) == multiset(Scored(p, currentYear))
    ensures |sorted| == Size(p)
    ensures SortedDesc(sorted, FinalKey) && DistinctBy(sorted, MovieId)
  {
    var s := Scored(p, currentYear);
    var sorted := SortDesc(s, FinalKey);
    PermutationKeepsDistinct(s, sorted, MovieId);
    assert |sorted| == |multiset(sorted)| == |multiset(s)| == |s|;
    sorted
  }

  lemma PrefixKeepsOrder(sorted: seq<Ranked>, r: seq<Ranked>)
    requires SortedDesc(sorted, FinalKey) && DistinctBy(sorted, MovieId)
    requires |r| <= |sorted| && r == sorted[..|r|]
    ensures SortedDesc(r, FinalKey) && DistinctBy(r, MovieId)
  {
    forall i, j | 0 <= i < j < |r|
      ensures FinalKey(r[i]) >= FinalKey(r[j]) && MovieId(r[i]) != MovieId(r[j])
    {
      assert r[i] == sorted[i] && r[j] == sorted[j];
    }
  }

  lemma RankMembers(p: Pool, currentYear: int, sorted: seq<Ranked>, r: seq<Ranked>)
    requires WellFormed(p)
    requires multiset(sorted) == multiset(Scored(p, currentYear))
    requires |r| <= |sorted| && r == sorted[..|r|]
    ensures DrawnFrom(p, r, currentYear)
  {
    forall i | 0 <= i < |r|
      ensures r[i].movie.id in p.entries && r[i] == ToRanked(p.entries[r[i].movie.id], currentYear)
    {
      assert r[i] == sorted[i];
      assert r[i] in multiset(Scored(p, currentYear));
      ScoredMember(p, currentYear, r[i]);
    }
  }

  lemma RankTop(p: Pool, currentYear: int, sorted: seq<Ranked>, r: seq<Ranked>)
    requires WellFormed(p)
    requires multiset(sorted) == multiset(Scored(p, currentYear)) && SortedDesc(sorted, FinalKey)
    requires |r| <= |sorted| && r == sorted[..|r|]
    ensures NoneBetterLeftOut(p, r, currentYear)
    ensures |r| == Size(p) ==> AllKept(p, r, currentYear)
  {
    var s := Scored(p, currentYear);
    forall k | k in p.entries
      ensures ToRanked(p.entries[k], currentYear) in sorted
    {
      var j :| 0 <= j < |p.keys| && p.keys[j] == k;
      assert s[j] == ToRanked(p.entries[k], currentYear);
      assert s[j] in multiset(sorted);
    }
    forall k | k in p.entries && ToRanked(p.entries[k], currentYear) !in r
      ensures forall i :: 0 <= i < |r| ==> FinalScore(p.entries[k], currentYear) <= r[i].finalScore
    {
      var x := ToRanked(p.entries[k], currentYear);
      var pos :| 0 <= pos < |sorted| && sorted[pos] == x;
      forall i | 0 <= i < |r|
        ensures FinalScore(p.entries[k], currentYear) <= r[i].finalScore
      {
        assert r[i] == sorted[i];
        assert FinalKey(sorted[i]) >= FinalKey(sorted[pos]);
      }
    }
    assert |sorted| == |multiset(sorted)| == |multiset(s)| == |s|;
  }

  // ---------------------------------------------------------------------------
  // The response
  // ---------------------------------------------------------------------------

  /** `parseInt(searchParams.get('limit') || '24')`, as the end index `slice` sees (NaN reads as 0). */
  function SliceLimit(raw: string): int {
    match ParseInt(if raw == [] then "24" else raw)
    case None => 0
    case Some(n) => n
  }

  /** Without a `limit` parameter at most 24 recommendations are returned. */
  lemma DefaultLimit()
    ensures SliceLimit("") == 24
  {
    assert NatToDecimal(24) == "24";
    ParseIntDecimal(24);
  }

  /**
   * A `limit` that is given but is no number (no digit after the whitespace
   * and the sign: blank, "abc", "-x") gives an empty list.
   */
  lemma NonNumericLimit(raw: string)
    requires raw != [] && NoNumberAhead(raw)
    ensures SliceLimit(raw) == 0
  {
    ParseIntNoNumber(raw);
  }

  function SumConfidence(rs: seq<Ranked>): int {
    if rs == [] then 0 else SumConfidence(rs[..|rs| - 1]) + rs[|rs| - 1].confidence
  }

  /** `Math.round(sum / length)`; for an empty list that is NaN, which the JSON carries as null (None). */
  function AvgConfidence(rs: seq<Ranked>): (avg: Option<int>)
    ensures avg.None? <==> rs == []
  {
    if rs == [] then None else Some(Round(SumConfidence(rs) as real / |rs| as real))
  }

  lemma {:induction false} SumBetween(rs: seq<Ranked>, lo: int, hi: int)
    requires forall i :: 0 <= i < |rs| ==> lo <= rs[i].confidence <= hi
    ensures lo * |rs| <= SumConfidence(rs) <= hi * |rs|
  {
    if rs != [] {
      SumBetween(rs[..|rs| - 1], lo, hi);
    }
  }

  /** The average lies between the smallest and the largest confidence. */
  lemma AvgBetween(rs: seq<Ranked>, lo: int, hi: int)
    requires rs != []
    requires forall i :: 0 <= i < |rs| ==> lo <= rs[i].confidence <= hi
    ensures lo <= AvgConfidence(rs).value <= hi
  {
    SumBetween(rs, lo, hi);
    MeanBetween(SumConfidence(rs) as real, |rs| as real, lo as real, hi as real);
  }

  lemma MeanBetween(sum: real, n: real, lo: real, hi: real)
    requires n > 0.0 && lo * n <= sum <= hi * n
    ensures lo <= sum / n <= hi
  {
    var mean := sum / n;
    assert mean * n == sum;
  }

  /** How many ranked movies carry type `t`. */
  function CountOfType(rs: seq<Ranked>, t: RecType): (n: nat)
    ensures n <= |rs|
  {
    if rs == [] then 0
    else CountOfType(rs[..|rs| - 1], t) + (if rs[|rs| - 1].recType == t then 1 else 0)
  }

  /** The six types partition the list. */
  lemma {:induction false} CountOfTypeTotal(rs: seq<Ranked>)
    ensures CountOfType(rs, Similar) + CountOfType(rs, Genre) + CountOfType(rs, Director)
          + CountOfType(rs, HiddenGem) + CountOfType(rs, Trending) + CountOfType(rs, Diverse) == |rs|
  {
    if rs != [] {
      CountOfTypeTotal(rs[..|rs| - 1]);
    }
  }

  /**
   * `strategy_distribution`: for each type that occurs, its tag and how many
   * ranked movies carry it.  Types that do not occur have no entry.
   */
  function Distribution(rs: seq<Ranked>): (d: map<string, nat>)
    ensures forall t :: TypeName(t) in d <==> CountOfType(rs, t) > 0
    ensures forall t :: TypeName(t) in d ==> d[TypeName(t)] == CountOfType(rs, t)
    ensures forall name :: name in d ==> exists t :: name == TypeName(t)
  {
    if rs == [] then map[]
    else
      var d := Distribution(rs[..|rs| - 1]);
      var t := rs[|rs| - 1].recType;
      var name := TypeName(t);
      var r := d[name := (if name in d then d[name] else 0) + 1];
      assert forall u :: TypeName(u) == name <==> u == t by {
        forall u
          ensures TypeName(u) == name <==> u == t
        {
          TypeNameInjective(u, t);
        }
      }
      r
  }

  /** The count the distribution holds for type `t`, 0 when it has no entry. */
  function CountIn(d: map<string, nat>, t: RecType): nat {
    if TypeName(t) in d then d[TypeName(t)] else 0
  }

  /** The sum of a distribution's counts over the six types. */
  function DistributionTotal(d: map<string, nat>): nat {
    CountIn(d, Similar) + CountIn(d, Genre) + CountIn(d, Director)
    + CountIn(d, HiddenGem) + CountIn(d, Trending) + CountIn(d, Diverse)
  }

  /** The distribution's counts add up to `total`: every ranked movie is counted under its type once. */
  lemma DistributionSumsToTotal(rs: seq<Ranked>)
    ensures DistributionTotal(Distribution(rs)) == |rs|
  {
    CountInDistribution(rs, Similar);
    CountInDistribution(rs, Genre);
    CountInDistribution(rs, Director);
    CountInDistribution(rs, HiddenGem);
    CountInDistribution(rs, Trending);
    CountInDistribution(rs, Diverse);
    CountOfTypeTotal(rs);
  }

  /** The distribution holds each type's count, 0 standing for a missing entry. */
  lemma CountInDistribution(rs: seq<Ranked>, t: RecType)
    ensures CountIn(Distribution(rs), t) == CountOfType(rs, t)
  {
  }

  /** The name `strategies_used` reports for the strategy that inserts candidates of type `t`. */
  function StrategyName(t: RecType): string {
    match t
    case Similar => "collaborative-filtering"
    case Genre => "content-based-filtering"
    case Director => "director-actor-matching"
    case HiddenGem => "hidden-gems-discovery"
    case Trending => "trending-boost"
    case Diverse => "diversity-injection"
  }

  /** `strategies_used`: the strategies that ran, in pipeline order, ranking last. */
  function StrategiesUsed(q: Query): (names: seq<string>)
    ensures forall t :: t in Ran(q) ==> StrategyName(t) in names
    ensures "semantic-search-matching" in names <==> q.searchHistory != []
    ensures names[|names| - 1] == "multi-factor-ml-ranking"
    ensures |names| == 3 + (if q.likedMovies != [] then 2 else 0) + (if q.genres != [] then 2 else 0)
                        + (if q.searchHistory != [] then 1 else 0)
  {
    (if q.likedMovies != [] then ["collaborative-filtering"] else [])
      + (if q.genres != [] then ["content-based-filtering"] else [])
      + (if q.likedMovies != [] then ["director-actor-matching"] else [])
      + ["hidden-gems-discovery", "trending-boost"]
      + (if q.searchHistory != [] then ["semantic-search-matching"] else [])
      + (if q.genres != [] then ["diversity-injection"] else [])
      + ["multi-factor-ml-ranking"]
  }

  datatype Response = Response(
    recommendations: seq<Ranked>,
    total: nat,
    algorithm: string,
    avgConfidence: Option<int>,
    distribution: map<string, nat>,
    strategiesUsed: seq<string>)

  /**
   * The successful reply of `GET /api/recommendations`: the ranked list cut
   * to the limit, each movie once, best first, each with its reasons, and a
   * summary consistent with the list.
   */
  function Recommend(q: Query, g: Gateway, currentYear: int): (resp: Response)
    ensures var rs := resp.recommendations;
      && resp.total == |rs|
      && SortedDesc(rs, FinalKey)
      && DistinctBy(rs, MovieId)
      && (q.limit == [] ==> |rs| <= 24)
      && (forall i :: 0 <= i < |rs| ==> rs[i].reasons != [] && multiset(rs[i].reasons)[MultipleLikedReason] <= 1)
      && (forall i :: 0 <= i < |rs| ==> StrategyName(rs[i].recType) in resp.strategiesUsed)
      && (resp.avgConfidence.None? <==> rs == [])
      && (forall t :: TypeName(t) in resp.distribution <==> Occurs(rs, t))
    ensures AllFail(g) ==> resp.recommendations == [] && resp.distribution == map[]
    ensures resp.recommendations == Rank(Candidates(q, g), SliceLimit(q.limit), currentYear)
    ensures resp.strategiesUsed == StrategiesUsed(q)
    ensures resp.distribution == Distribution(resp.recommendations)
    ensures resp.avgConfidence == AvgConfidence(resp.recommendations)
    ensures DistributionTotal(resp.distribution) == resp.total
  {
    Reply(Candidates(q, g), q, currentYear)
  }

  /** The reply built from a candidate pool: ranked, cut to the limit and summarised. */
  function Reply(pool: Pool, q: Query, currentYear: int): (resp: Response)
    requires WellFormed(pool) && TypesIn(pool, Ran(q))
    ensures var rs := resp.recommendations;
      && resp.total == |rs|
      && SortedDesc(rs, FinalKey)
      && DistinctBy(rs, MovieId)
      && (q.limit == [] ==> |rs| <= 24)
      && (forall i :: 0 <= i < |rs| ==> rs[i].reasons != [] && multiset(rs[i].reasons)[MultipleLikedReason] <= 1)
      && (forall i :: 0 <= i < |rs| ==> StrategyName(rs[i].recType) in resp.strategiesUsed)
      && (resp.avgConfidence.None? <==> rs == [])
      && (forall t :: TypeName(t) in resp.distribution <==> Occurs(rs, t))
    ensures pool == Empty() ==> resp.recommendations == [] && resp.distribution == map[]
    ensures resp.recommendations == Rank(pool, SliceLimit(q.limit), currentYear)
    ensures resp.strategiesUsed == StrategiesUsed(q)
    ensures resp.distribution == Distribution(resp.recommendations)
    ensures resp.avgConfidence == AvgConfidence(resp.recommendations)
    ensures DistributionTotal(resp.distribution) == resp.total
  {
    var rs := Rank(pool, SliceLimit(q.limit), currentYear);
    DefaultLimit();
    RankedFacts(pool, q, rs, currentYear);
    Summarize(q, rs)
  }

  const Algorithm: string := "advanced-hybrid-ml-v2"

  /** The reply around a ranked list: its size, average confidence, type counts and the strategies that ran. */
  function Summarize(q: Query, rs: seq<Ranked>): (resp: Response)
    ensures resp.recommendations == rs && resp.total == |rs|
    ensures resp.strategiesUsed == StrategiesUsed(q)
    ensures resp.avgConfidence.None? <==> rs == []
    ensures forall t :: TypeName(t) in resp.distribution <==> Occurs(rs, t)
    ensures rs == [] ==> resp.distribution == map[]
    ensures resp.distribution == Distribution(rs) && resp.avgConfidence == AvgConfidence(rs)
    ensures DistributionTotal(resp.distribution) == resp.total
  {
    forall t
      ensures CountOfType(rs, t) > 0 <==> Occurs(rs, t)
    {
      CountOfTypePositive(rs, t);
    }
    DistributionSumsToTotal(rs);
    Response(rs, |rs|, Algorithm, AvgConfidence(rs), Distribution(rs), StrategiesUsed(q))
  }

  /** What each ranked movie inherits from the pool it was drawn from. */
  lemma RankedFacts(pool: Pool, q: Query, rs: seq<Ranked>, currentYear: int)
    requires WellFormed(pool) && TypesIn(pool, Ran(q))
    requires DrawnFrom(pool, rs, currentYear)
    ensures forall i :: 0 <= i < |rs| ==> rs[i].reasons != [] && multiset(rs[i].reasons)[MultipleLikedReason] <= 1
    ensures forall i :: 0 <= i < |rs| ==> StrategyName(rs[i].recType) in StrategiesUsed(q)
  {
    forall i | 0 <= i < |rs|
      ensures rs[i].reasons != [] && multiset(rs[i].reasons)[MultipleLikedReason] <= 1
      ensures StrategyName(rs[i].recType) in StrategiesUsed(q)
    {
      RankedAt(pool, q, rs[i], currentYear);
    }
  }

  /** One ranked movie: its reasons and its type come from its pool entry. */
  lemma RankedAt(pool: Pool, q: Query, r: Ranked, currentYear: int)
    requires WellFormed(pool) && TypesIn(pool, Ran(q))
    requires r.movie.id in pool.entries && r == ToRanked(pool.entries[r.movie.id], currentYear)
    ensures r.reasons != [] && multiset(r.reasons)[MultipleLikedReason] <= 1
    ensures StrategyName(r.recType) in StrategiesUsed(q)
  {
    var c := pool.entries[r.movie.id];
    assert GoodEntry(r.movie.id, c);
    assert c.recType in Ran(q);
  }

  /** Some movie of the list has type `t`. */
  predicate Occurs(rs: seq<Ranked>, t: RecType) {
    exists i :: 0 <= i < |rs| && rs[i].recType == t
  }

  lemma {:induction false} CountOfTypePositive(rs: seq<Ranked>, t: RecType)
    ensures CountOfType(rs, t) > 0 <==> Occurs(rs, t)
  {
    if rs != [] {
      var init := rs[..|rs| - 1];
      CountOfTypePositive(init, t);
      if exists i :: 0 <= i < |init| && init[i].recType == t {
        var i :| 0 <= i < |init| && init[i].recType == t;
        assert rs[i] == init[i];
      }
      if exists i :: 0 <= i < |rs| && rs[i].recType == t {
        var i :| 0 <= i < |rs| && rs[i].recType == t;
        if i < |init| {
          assert init[i] == rs[i];
        }
      }
    }
  }
}

=== FILE: recommendations_page.dfy ===
/**
 * The recommendations page's derived views of a response: the type filter
 * and its option list with per-type counts, the genre label of a card, and
 * the query string the page sends to the recommendations route.
 */
module RecommendationsPage {
  import opened Wrappers
  import opened Seqs
  import opened Recommender
  import opened Uri
  import opened Ranking

  // ---------------------------------------------------------------------------
  // The type filter
  // ---------------------------------------------------------------------------

  const All: string := "all"

  /** `m.recommendation_type === tag`. */
  predicate Tagged(m: Ranked, tag: string) {
    TypeName(m.recType) == tag
  }

  /**
   * The filter effect: "all" shows every recommendation; any other selection
   * shows exactly the recommendations whose type tag it is.
   */
  function ShowFiltered(recs: seq<Ranked>, selected: string): (r: seq<Ranked>)
    ensures selected == All ==> r == recs
    ensures selected != All ==> forall i :: 0 <= i < |recs| ==> (recs[i] in r <==> Tagged(recs[i], selected))
    ensures selected != All ==> forall i :: 0 <= i < |r| ==> Tagged(r[i], selected)
    ensures forall i :: 0 <= i < |r| ==> r[i] in recs
  {
    if selected == All then recs else Filter(recs, (m: Ranked) => Tagged(m, selected))
  }

  /** The filtered list keeps the order of the response. */
  lemma ShowFilteredKeepsOrder(recs: seq<Ranked>, selected: string)
    ensures IsSubsequence(ShowFiltered(recs, selected), recs)
  {
    if selected == All {
      SubsequenceReflexive(recs);
    } else {
      FilterIsSubsequence(recs, (m: Ranked) => Tagged(m, selected));
    }
  }

  /** A selection that is neither "all" nor a type tag shows nothing. */
  lemma ShowFilteredUnknown(recs: seq<Ranked>, selected: string)
    requires selected != All && forall t :: TypeName(t) != selected
    ensures ShowFiltered(recs, selected) == []
  {
  }

  /** Selecting a type shows as many movies as the response's distribution reports for it. */
  lemma ShowFilteredCount(recs: seq<Ranked>, t: RecType)
    ensures |ShowFiltered(recs, TypeName(t))| == CountOfType(recs, t)
  {
    TagCountIsCountOfType(recs, t);
  }

  /** The page's `filter(...).length` for a type agrees with the route's count of that type. */
  lemma {:induction false} TagCountIsCountOfType(recs: seq<Ranked>, t: RecType)
    ensures Count(recs, (m: Ranked) => Tagged(m, TypeName(t))) == CountOfType(recs, t)
  {
    if recs != [] {
      var f := (m: Ranked) => Tagged(m, TypeName(t));
      var init := recs[..|recs| - 1];
      var last := recs[|recs| - 1];
      TagCountIsCountOfType(init, t);
      SplitLast(recs);
      CountAppend(init, [last], f);
      assert [last][1..] == [];
      TypeNameInjective(last.recType, t);
      assert Count([last], f) == if last.recType == t then 1 else 0;
    }
  }

  // ---------------------------------------------------------------------------
  // The filter options
  // ---------------------------------------------------------------------------

  /** An option's `id`: "all" or one type tag. */
  datatype OptionId = AllTypes | OfType(t: RecType)

  /** The `id` string the option carries, which is what selecting it sets the filter to. */
  function OptionKey(id: OptionId): string {
    match id
    case AllTypes => All
    case OfType(t) => TypeName(t)
  }

  datatype FilterOption = FilterOption(id: OptionId, caption: string, count: nat)

  /** The types in the order the options list them. */
  const OptionTypes: seq<RecType> := [Similar, Genre, Director, HiddenGem, Trending, Diverse]

  function OptionLabel(t: RecType): string {
    match t
    case Similar => "Similar to Liked"
    case Genre => "Genre Matches"
    case Director => "Same Directors"
    case HiddenGem => "Hidden Gems"
    case Trending => "Trending"
    case Diverse => "Explore New"
  }

  function AllOption(recs: seq<Ranked>): FilterOption {
    FilterOption(AllTypes, "All Recommendations", |recs|)
  }

  /** The option of type `t`, counted the way the page counts it. */
  function TypeOption(recs: seq<Ranked>, t: RecType): FilterOption {
    FilterOption(OfType(t), OptionLabel(t), Count(recs, (m: Ranked) => Tagged(m, TypeName(t))))
  }

  /** The seven candidate options before the empty ones are dropped. */
  function CandidateOptions(recs: seq<Ranked>): seq<FilterOption> {
    [ AllOption(recs),
      TypeOption(recs, Similar), TypeOption(recs, Genre), TypeOption(recs, Director),
      TypeOption(recs, HiddenGem), TypeOption(recs, Trending), TypeOption(recs, Diverse) ]
  }

  predicate Shown(f: FilterOption) {
    f.count > 0 || f.id == AllTypes
  }

  /**
   * `filterOptions`: "all" first and always, then each type whose count is
   * positive, in the fixed order, each carrying the count of its type.
   */
  function FilterOptions(recs: seq<Ranked>): (r: seq<FilterOption>)
    ensures |r| >= 1 && r[0] == AllOption(recs)
    ensures IsSubsequence(r, CandidateOptions(recs))
    ensures forall t :: TypeOption(recs, t) in r <==> CountOfType(recs, t) > 0
    ensures forall i :: 1 <= i < |r| ==> r[i].id.OfType? && r[i] == TypeOption(recs, r[i].id.t)
    ensures forall i :: 1 <= i < |r| ==> r[i].count == CountOfType(recs, r[i].id.t) > 0
  {
    var cands := CandidateOptions(recs);
    var r := Filter(cands, Shown);
    FilterIsSubsequence(cands, Shown);
    assert cands[0] == AllOption(recs);
    assert r == [cands[0]] + Filter(cands[1..], Shown);
    OptionsPresent(recs, cands, r);
    OptionsTyped(recs, cands, r);
    r
  }

  lemma OptionsPresent(recs: seq<Ranked>, cands: seq<FilterOption>, r: seq<FilterOption>)
    requires cands == CandidateOptions(recs) && r == Filter(cands, Shown)
    ensures forall t :: TypeOption(recs, t) in r <==> CountOfType(recs, t) > 0
  {
    forall t
      ensures TypeOption(recs, t) in r <==> CountOfType(recs, t) > 0
    {
      TagCountIsCountOfType(recs, t);
      CandidateAt(recs, OptionIndex(t));
    }
  }

  lemma OptionsTyped(recs: seq<Ranked>, cands: seq<FilterOption>, r: seq<FilterOption>)
    requires cands == CandidateOptions(recs) && r == [cands[0]] + Filter(cands[1..], Shown)
    ensures forall i :: 1 <= i < |r| ==> r[i].id.OfType? && r[i] == TypeOption(recs, r[i].id.t)
    ensures forall i :: 1 <= i < |r| ==> r[i].count == CountOfType(recs, r[i].id.t) > 0
  {
    var rest := Filter(cands[1..], Shown);
    forall i | 1 <= i < |r|
      ensures r[i].id.OfType? && r[i] == TypeOption(recs, r[i].id.t)
      ensures r[i].count == CountOfType(recs, r[i].id.t) > 0
    {
      TypedAt(recs, cands[1..], rest, r, i);
    }
  }

  lemma TypedAt(recs: seq<Ranked>, tail: seq<FilterOption>, rest: seq<FilterOption>, r: seq<FilterOption>, i: nat)
    requires tail == CandidateOptions(recs)[1..] && rest == Filter(tail, Shown)
    requires |r| == |rest| + 1 && r[1..] == rest && 1 <= i < |r|
    ensures r[i].id.OfType? && r[i] == TypeOption(recs, r[i].id.t)
    ensures r[i].count == CountOfType(recs, r[i].id.t) > 0
  {
    assert r[i] == rest[i - 1];
    OptionIsTyped(recs, tail, rest, r[i]);
  }

  /** The candidate after "all" at position `k` is the option of the `k`-th type. */
  lemma CandidateAt(recs: seq<Ranked>, k: nat)
    requires k < |OptionTypes|
    ensures |CandidateOptions(recs)| == |OptionTypes| + 1
    ensures CandidateOptions(recs)[k + 1] == TypeOption(recs, OptionTypes[k])
  {
  }

  lemma OptionIsTyped(recs: seq<Ranked>, tail: seq<FilterOption>, rest: seq<FilterOption>, x: FilterOption)
    requires tail == CandidateOptions(recs)[1..] && rest == Filter(tail, Shown)
    requires x in rest
    ensures x.id.OfType? && x == TypeOption(recs, x.id.t)
    ensures x.count == CountOfType(recs, x.id.t) > 0
  {
    assert x in tail && Shown(x);
    var j :| 0 <= j < |tail| && tail[j] == x;
    CandidateAt(recs, j);
    TagCountIsCountOfType(recs, OptionTypes[j]);
  }

  /** Where type `t` sits in the option order. */
  function OptionIndex(t: RecType): (k: nat)
    ensures k < |OptionTypes| && OptionTypes[k] == t
  {
    match t
    case Similar => 0
    case Genre => 1
    case Director => 2
    case HiddenGem => 3
    case Trending => 4
    case Diverse => 5
  }

  // ---------------------------------------------------------------------------
  // Card labels
  // ---------------------------------------------------------------------------

  datatype GenreEntry = GenreEntry(id: int, name: string)

  /** `genres.find((g) => g.id === id)`, as the index of the first match. */
  function FindGenre(genres: seq<GenreEntry>, id: int): (k: Option<nat>)
    ensures k.None? <==> forall j :: 0 <= j < |genres| ==> genres[j].id != id
    ensures k.Some? ==> k.value < |genres| && genres[k.value].id == id
    ensures k.Some? ==> forall j :: 0 <= j < k.value ==> genres[j].id != id
  {
    if genres == [] then None
    else if genres[0].id == id then Some(0)
    else
      match FindGenre(genres[1..], id)
      case None => None
      case Some(k) => Some(k + 1)
  }

  const Fallback: string := "Movie"

  /** `k` is the position of the first genre with id `id`. */
  predicate FirstWithId(genres: seq<GenreEntry>, id: int, k: int) {
    0 <= k < |genres| && genres[k].id == id && forall j :: 0 <= j < k ==> genres[j].id != id
  }

  /**
   * `getGenreName(genreIds)`: the name of the first genre in the table whose
   * id is the movie's first genre id; "Movie" when either list is empty, the
   * id is unknown or the name is empty.
   */
  function GenreName(genreIds: seq<int>, genres: seq<GenreEntry>): (name: string)
    ensures name != []
    ensures genreIds == [] || genres == [] ==> name == Fallback
    ensures genreIds != [] && (forall j :: 0 <= j < |genres| ==> genres[j].id != genreIds[0]) ==> name == Fallback
    ensures genreIds != [] ==> forall k :: FirstWithId(genres, genreIds[0], k) ==>
              name == (if genres[k].name == [] then Fallback else genres[k].name)
  {
    if genreIds == [] || genres == [] then Fallback
    else
      match FindGenre(genres, genreIds[0])
      case None => Fallback
      case Some(k) => if genres[k].name == [] then Fallback else genres[k].name
  }

  // ---------------------------------------------------------------------------
  // The request
  // ---------------------------------------------------------------------------

  datatype Preferences = Preferences(likedMovies: string, genres: string, searchHistory: string)

  /** The page always asks for 24 recommendations. */
  const PageLimit: string := "24"

  /** One optional parameter: present exactly when its value is non-empty. */
  function Slot(key: string, value: string): seq<Param> {
    if value != [] then [Param(key, value)] else []
  }

  /** The query built by `loadRecommendations`: each preference only when non-empty, then the limit. */
  function QueryParams(prefs: Preferences): (ps: seq<Param>)
    ensures |ps| >= 1 && ps[|ps| - 1] == Param(LimitKey, PageLimit)
  {
    Slot(LikedKey, prefs.likedMovies) + Slot(GenresKey, prefs.genres) + Slot(HistoryKey, prefs.searchHistory)
    + [Param(LimitKey, PageLimit)]
  }

  /** Each preference is sent, under its own name, exactly when it is non-empty; no value sent is empty. */
  lemma QueryParamsPresence(prefs: Preferences)
    ensures Param(LikedKey, prefs.likedMovies) in QueryParams(prefs) <==> prefs.likedMovies != []
    ensures Param(GenresKey, prefs.genres) in QueryParams(prefs) <==> prefs.genres != []
    ensures Param(HistoryKey, prefs.searchHistory) in QueryParams(prefs) <==> prefs.searchHistory != []
    ensures forall i :: 0 <= i < |QueryParams(prefs)| ==> QueryParams(prefs)[i].value != []
  {
  }

  /** The route reads the page's query back as exactly the preferences, with the page's limit. */
  lemma QueryParamsReadBack(prefs: Preferences)
    ensures ReadQuery(QueryParams(prefs)) == Query(prefs.likedMovies, prefs.genres, prefs.searchHistory, PageLimit)
  {
    ReadsLiked(prefs);
    ReadsGenres(prefs);
    ReadsHistory(prefs);
    ReadsLimit(prefs);
  }

  lemma ReadsLiked(prefs: Preferences)
    ensures GetParam(QueryParams(prefs), LikedKey).GetOr([]) == prefs.likedMovies
  {
    var l := Slot(LikedKey, prefs.likedMovies);
    var g := Slot(GenresKey, prefs.genres);
    var h := Slot(HistoryKey, prefs.searchHistory);
    var z := [Param(LimitKey, PageLimit)];
    assert |LikedKey| == 12 && |GenresKey| == 6 && |HistoryKey| == 14 && |LimitKey| == 5;
    assert QueryParams(prefs) == [] + l + (g + h + z);
    ReadBackAt(l, [], g + h + z, LikedKey, prefs.likedMovies);
  }

  lemma ReadsGenres(prefs: Preferences)
    ensures GetParam(QueryParams(prefs), GenresKey).GetOr([]) == prefs.genres
  {
    var l := Slot(LikedKey, prefs.likedMovies);
    var g := Slot(GenresKey, prefs.genres);
    var h := Slot(HistoryKey, prefs.searchHistory);
    var z := [Param(LimitKey, PageLimit)];
    assert |LikedKey| == 12 && |GenresKey| == 6 && |HistoryKey| == 14 && |LimitKey| == 5;
    assert QueryParams(prefs) == l + g + (h + z);
    ReadBackAt(g, l, h + z, GenresKey, prefs.genres);
  }

  lemma ReadsHistory(prefs: Preferences)
    ensures GetParam(QueryParams(prefs), HistoryKey).GetOr([]) == prefs.searchHistory
  {
    var l := Slot(LikedKey, prefs.likedMovies);
    var g := Slot(GenresKey, prefs.genres);
    var h := Slot(HistoryKey, prefs.searchHistory);
    var z := [Param(LimitKey, PageLimit)];
    assert |LikedKey| == 12 && |GenresKey| == 6 && |HistoryKey| == 14 && |LimitKey| == 5;
    ReadBackAt(h, l + g, z, HistoryKey, prefs.searchHistory);
  }

  lemma ReadsLimit(prefs: Preferences)
    ensures GetParam(QueryParams(prefs), LimitKey).GetOr([]) == PageLimit
  {
    var l := Slot(LikedKey, prefs.likedMovies);
    var g := Slot(GenresKey, prefs.genres);
    var h := Slot(HistoryKey, prefs.searchHistory);
    var z := [Param(LimitKey, PageLimit)];
    assert |LikedKey| == 12 && |GenresKey| == 6 && |HistoryKey| == 14 && |LimitKey| == 5;
    ReadBackAt(z, l + g + h, [], LimitKey, PageLimit);
    assert QueryParams(prefs) == l + g + h + z + [];
  }

  /** No parameter of `ps` has key `key`. */
  predicate NoKey(ps: seq<Param>, key: string) {
    forall i :: 0 <= i < |ps| ==> ps[i].key != key
  }

  lemma NoKeyAppend(a: seq<Param>, b: seq<Param>, key: string)
    requires NoKey(a, key) && NoKey(b, key)
    ensures NoKey(a + b, key)
  {
  }

  /** The parameter in slot `mid` is read back when no other slot uses its key. */
  lemma ReadBackAt(mid: seq<Param>, before: seq<Param>, after: seq<Param>, key: string, value: string)
    requires mid == Slot(key, value)
    requires NoKey(before, key) && NoKey(after, key)
    ensures GetParam(before + mid + after, key).GetOr([]) == value
  {
    GetParamSkip(before, mid + after, key);
    assert before + mid + after == before + (mid + after);
    ReadOne(mid, after, key, value);
  }

  /** A slot read before the parameters with other keys gives back its value, or '' when absent. */
  lemma ReadOne(slot: seq<Param>, rest: seq<Param>, key: string, value: string)
    requires slot == Slot(key, value)
    requires NoKey(rest, key)
    ensures GetParam(slot + rest, key).GetOr([]) == value
  {
    if value == [] {
      assert slot + rest == rest;
    } else {
      assert (slot + rest)[0] == Param(key, value);
    }
  }

  /** Pairs with other keys in front of a key do not change what `get` finds. */
  lemma {:induction false} GetParamSkip(ps: seq<Param>, qs: seq<Param>, key: string)
    requires NoKey(ps, key)
    ensures GetParam(ps + qs, key) == GetParam(qs, key)
  {
    if ps != [] {
      GetParamSkip(ps[1..], qs, key);
      assert (ps + qs)[0] == ps[0];
      assert (ps + qs)[1..] == ps[1..] + qs;
    } else {
      assert ps + qs == qs;
    }
  }
}

=== FILE: recommender.dfy ===
/**
 * The recommendation blender behind `GET /api/recommendations`.
 *
 * A request-local map from movie id to candidate is filled by a fixed
 * pipeline of strategy passes (similar, genre, director, hidden gem,
 * trending, diversity), boosted by the search history, then ranked by a
 * weighted blend of scores, sorted and cut to the requested limit.  The
 * catalogue service is a parameter (`Gateway`): every list it returns is an
 * input, and a request that fails contributes nothing.
 */
module Recommender {
  import opened Wrappers
  import opened Text
  import opened Seqs
  import opened OrderedMaps
  import opened JsMath
  import opened Uri

  // ---------------------------------------------------------------------------
  // Data model
  // ---------------------------------------------------------------------------

  /** A movie as the catalogue lists it. */
  datatype MovieResult = MovieResult(
    id: int,
    title: string,
    releaseDate: string,
    releaseYear: Option<int>,   // the year read from `releaseDate`; None when the date does not parse (NaN)
    voteAverage: real,
    genreIds: seq<int>,
    posterPath: Option<string>,
    overview: string,
    popularity: real,
    voteCount: Option<int>)

  datatype RecType = Similar | Genre | Trending | HiddenGem | Director | Diverse

  /** The `recommendation_type` tag as it appears in the response. */
  function TypeName(t: RecType): string {
    match t
    case Similar => "similar"
    case Genre => "genre"
    case Trending => "trending"
    case HiddenGem => "hidden-gem"
    case Director => "director"
    case Diverse => "diverse"
  }

  lemma TypeNameInjective(a: RecType, b: RecType)
    ensures TypeName(a) == TypeName(b) <==> a == b
  {
  }

  /** A movie under consideration with its accumulated score, confidence and reasons. */
  datatype Candidate = Candidate(
    movie: MovieResult,
    matchScore: real,
    confidence: real,
    reasons: seq<string>,
    recType: RecType)

  /** The request-local `Map<number, EnhancedMovie>`. */
  type Pool = OrderedMap<int, Candidate>

  const MultipleLikedReason: string := "Similar to multiple liked movies"

  /**
   * The pool's invariant: keys listed once in insertion order, every candidate
   * stored under its own movie id, at least one reason per candidate, and the
   * "multiple liked movies" reason at most once per candidate.
   */
  ghost predicate WellFormed(p: Pool) {
    && Valid(p)
    && forall k :: k in p.entries ==> GoodEntry(k, p.entries[k])
  }

  ghost predicate GoodEntry(k: int, c: Candidate) {
    && c.movie.id == k
    && c.reasons != []
    && multiset(c.reasons)[MultipleLikedReason] <= 1
  }

  /**
   * `r` grows out of `p`: old keys keep their places at the front, and each old
   * candidate keeps its movie, its type and its reasons so far.
   */
  ghost predicate Extends(p: Pool, r: Pool) {
    && |p.keys| <= |r.keys|
    && r.keys[..|p.keys|] == p.keys
    && forall k :: k in p.entries ==> k in r.entries && Grows(p.entries[k], r.entries[k])
  }

  /** `c2` is `c` with possibly more score, another confidence and more reasons appended. */
  ghost predicate Grows(c: Candidate, c2: Candidate) {
    && c2.movie == c.movie
    && c2.recType == c.recType
    && |c.reasons| <= |c2.reasons|
    && c2.reasons[..|c.reasons|] == c.reasons
  }

  /** Every candidate of `p` is still in `r`, unchanged. */
  ghost predicate Untouched(p: Pool, r: Pool) {
    forall k :: k in p.entries ==> k in r.entries && r.entries[k] == p.entries[k]
  }

  /** Every candidate of `p` is still in `r` with the same confidence. */
  ghost predicate SameConfidence(p: Pool, r: Pool) {
    forall k :: k in p.entries ==> k in r.entries && r.entries[k].confidence == p.entries[k].confidence
  }

  /**
   * A candidate's confidence either stays as it was or is raised with the
   * cap: it ends at most 99 and never below `min(99, c)`.
   */
  ghost predicate CappedRaise(p: Pool, r: Pool) {
    forall k :: k in p.entries && k in r.entries ==>
      var c, c2 := p.entries[k].confidence, r.entries[k].confidence;
      MinReal(99.0, c) <= c2 && (c2 == c || c2 <= 99.0)
  }

  /** Every candidate `r` holds beyond those of `p` carries the type `s`. */
  ghost predicate NewOfType(p: Pool, r: Pool, s: RecType) {
    forall k :: k in r.entries && k !in p.entries ==> r.entries[k].recType == s
  }

  /**
   * Every movie among the first `cap` of a fetched list is a candidate of
   * `p`; a failed fetch (None) asks for nothing.
   */
  ghost predicate Listed(p: Pool, list: Option<seq<MovieResult>>, cap: nat) {
    list.Some? ==> forall j :: 0 <= j < |list.value| && j < cap ==> list.value[j].id in p.entries
  }

  /** A pool that grows keeps every list it already holds. */
  lemma ListedMono(p: Pool, r: Pool, list: Option<seq<MovieResult>>, cap: nat)
    requires Extends(p, r) && Listed(p, list, cap)
    ensures Listed(r, list, cap)
  {
  }

  // ---------------------------------------------------------------------------
  // Strategy constants
  // ---------------------------------------------------------------------------

  /** The score of a movie at position `index` of a strategy's list. */
  function BaseScore(s: RecType, index: nat): real {
    match s
    case Similar => 100.0 - 5.0 * index as real
    case Genre => 80.0 - 4.0 * index as real
    case Director => 75.0
    case HiddenGem => 70.0
    case Trending => 65.0
    case Diverse => 55.0
  }

  /** The confidence a strategy gives a movie it inserts. */
  function FreshConfidence(s: RecType, m: MovieResult): real {
    match s
    case Similar => 85.0 + m.voteAverage / 10.0 * 15.0
    case Genre => 75.0 + m.voteAverage / 10.0 * 15.0
    case Director => 82.0
    case HiddenGem => 78.0
    case Trending => 70.0
    case Diverse => 65.0
  }

  function FreshReason(s: RecType): string {
    match s
    case Similar => "Similar to movies you liked"
    case Genre => "Matches your genre preferences"
    case Director => "Same director as movies you loved"
    case HiddenGem => "Hidden gem - highly rated but underrated"
    case Trending => "Trending now"
    case Diverse => "Expand your horizons - different genre"
  }

  /** The candidate a strategy inserts for a movie it finds first. */
  function Fresh(s: RecType, m: MovieResult, index: nat): Candidate {
    Candidate(m, BaseScore(s, index), FreshConfidence(s, m), [FreshReason(s)], s)
  }

  /** There is no overall cap: a similar movie rated 10 enters with confidence 100. */
  lemma FreshSimilarConfidence(m: MovieResult, index: nat)
    ensures Fresh(Similar, m, index).confidence == 85.0 + 1.5 * m.voteAverage
    ensures m.voteAverage == 10.0 ==> Fresh(Similar, m, index).confidence == 100.0
  {
  }

  /**
   * How a strategy merges into a candidate it finds already present: add
   * `fraction` of its base score, raise the confidence by `raise` (capped at
   * 99) when given, and append `reason` (only if absent when `appendOnce`).
   */
  datatype MergeRule = MergeRule(fraction: real, raise: Option<real>, reason: string, appendOnce: bool)

  /** The hidden-gem and diversity passes only insert movies that are absent. */
  predicate InsertOnly(s: RecType) {
    s == HiddenGem || s == Diverse
  }

  /** The passes that never change the confidence of a candidate already present. */
  predicate KeepsConfidence(s: RecType) {
    InsertOnly(s) || s == Trending
  }

  /** None: the strategy only inserts absent movies and never merges. */
  function MergeRuleOf(s: RecType): (r: Option<MergeRule>)
    ensures r.None? <==> InsertOnly(s)
    ensures r.Some? ==> (r.value.raise.None? <==> s == Trending)
    ensures r.Some? ==> (r.value.reason == MultipleLikedReason <==> s == Similar)
    ensures r.Some? && r.value.raise.Some? ==> r.value.raise.value >= 0.0
    ensures r.Some? && r.value.reason == MultipleLikedReason ==> r.value.appendOnce
  {
    match s
    case Similar => Some(MergeRule(0.5, Some(5.0), MultipleLikedReason, true))
    case Genre => Some(MergeRule(0.6, Some(8.0), "Perfect genre match", false))
    case Director => Some(MergeRule(0.7, Some(10.0), "Same acclaimed director", false))
    case Trending => Some(MergeRule(0.3, None, "Also trending", false))
    case HiddenGem => None
    case Diverse => None
  }

  /** `Math.min(99, c + k)`. */
  function RaiseConfidence(c: real, k: real): (r: real)
    ensures r <= 99.0 && r <= c + k
    ensures r == c + k || r == 99.0
    ensures 0.0 <= k ==> MinReal(99.0, c) <= r
  {
    MinReal(99.0, c + k)
  }

  /**
   * The merge of a strategy into a candidate already present: `fraction` of
   * the strategy's base score is added, the confidence is raised (capped at
   * 99) when the rule raises it, and the reason is appended.
   */
  function Merge(c: Candidate, rule: MergeRule, base: real): (r: Candidate)
    ensures r.movie == c.movie && r.recType == c.recType
    ensures r.matchScore == c.matchScore + rule.fraction * base
    ensures rule.raise.Some? ==> r.confidence == RaiseConfidence(c.confidence, rule.raise.value)
    ensures |c.reasons| <= |r.reasons| <= |c.reasons| + 1
    ensures r.reasons[..|c.reasons|] == c.reasons
    ensures rule.reason in r.reasons
    ensures rule.appendOnce && rule.reason in c.reasons ==> r.reasons == c.reasons
    ensures rule.raise.None? ==> r.confidence == c.confidence
  {
    c.(matchScore := c.matchScore + rule.fraction * base,
       confidence := match rule.raise
                     case None => c.confidence
                     case Some(k) => RaiseConfidence(c.confidence, k),
       reasons := if rule.appendOnce && rule.reason in c.reasons then c.reasons
                  else c.reasons + [rule.reason])
  }

  // ---------------------------------------------------------------------------
  // Strategy passes
  // ---------------------------------------------------------------------------

  /** Storing a well-formed candidate that grows out of the one it replaces keeps the invariant. */
  lemma PutGood(p: Pool, k: int, c: Candidate)
    requires WellFormed(p) && GoodEntry(k, c)
    requires k in p.entries ==> Grows(p.entries[k], c)
    ensures WellFormed(Put(p, k, c)) && Extends(p, Put(p, k, c))
    ensures Put(p, k, c).entries.Keys == p.entries.Keys + {k}
    ensures forall j :: j in p.entries && j != k ==> Put(p, k, c).entries[j] == p.entries[j]
  {
    PutWellFormed(p, k, c);
    PutExtends(p, k, c);
  }

  lemma PutWellFormed(p: Pool, k: int, c: Candidate)
    requires WellFormed(p) && GoodEntry(k, c)
    ensures WellFormed(Put(p, k, c))
  {
    var r := Put(p, k, c);
    forall j | j in r.entries
      ensures GoodEntry(j, r.entries[j])
    {
      if j != k {
        assert r.entries[j] == p.entries[j];
      }
    }
  }

  lemma PutExtends(p: Pool, k: int, c: Candidate)
    requires Valid(p)
    requires k in p.entries ==> Grows(p.entries[k], c)
    ensures Extends(p, Put(p, k, c))
  {
    var r := Put(p, k, c);
    assert r.keys[..|p.keys|] == p.keys;
    forall j | j in p.entries
      ensures j in r.entries && Grows(p.entries[j], r.entries[j])
    {
      if j != k {
        var d := p.entries[j];
        assert r.entries[j] == d;
        assert d.reasons[..|d.reasons|] == d.reasons;
      }
    }
  }

  /** One `forEach` step of a pass: insert a movie not seen yet, or merge into its candidate. */
  function Absorb(p: Pool, s: RecType, m: MovieResult, index: nat): (r: Pool)
    requires WellFormed(p)
    ensures WellFormed(r) && PassFacts(p, r, s)
    ensures r.entries.Keys == p.entries.Keys + {m.id}
    ensures forall k :: k in p.entries && k != m.id ==> r.entries[k] == p.entries[k]
    ensures m.id !in p.entries ==> r.entries[m.id] == Fresh(s, m, index)
    ensures m.id in p.entries && MergeRuleOf(s).Some? ==>
              r.entries[m.id] == Merge(p.entries[m.id], MergeRuleOf(s).value, BaseScore(s, index))
    ensures m.id in p.entries && MergeRuleOf(s).None? ==> r == p
  {
    if m.id !in p.entries then
      var c := Fresh(s, m, index);
      InsertFacts(p, s, c);
      Put(p, m.id, c)
    else
      match MergeRuleOf(s)
      case None =>
        PassFactsReflexive(p, s);
        p
      case Some(rule) =>
        var c := p.entries[m.id];
        var c' := Merge(c, rule, BaseScore(s, index));
        assert multiset(c'.reasons)[MultipleLikedReason] <= 1 by {
          if c'.reasons != c.reasons {
            assert c'.reasons == c.reasons + [rule.reason];
          }
        }
        MergeFacts(p, s, c', rule);
        Put(p, m.id, c')
  }

  /** Inserting a fresh candidate of type `s` under a new key is a step of pass `s`. */
  lemma InsertFacts(p: Pool, s: RecType, c: Candidate)
    requires WellFormed(p) && GoodEntry(c.movie.id, c) && c.movie.id !in p.entries && c.recType == s
    ensures WellFormed(Put(p, c.movie.id, c)) && PassFacts(p, Put(p, c.movie.id, c), s)
    ensures Put(p, c.movie.id, c).entries.Keys == p.entries.Keys + {c.movie.id}
    ensures forall j :: j in p.entries && j != c.movie.id ==> Put(p, c.movie.id, c).entries[j] == p.entries[j]
  {
    PutGood(p, c.movie.id, c);
  }

  /** Replacing a candidate by its merge under rule `rule` of pass `s` is a step of that pass. */
  lemma MergeFacts(p: Pool, s: RecType, c: Candidate, rule: MergeRule)
    requires WellFormed(p) && GoodEntry(c.movie.id, c) && c.movie.id in p.entries
    requires MergeRuleOf(s) == Some(rule) && Grows(p.entries[c.movie.id], c)
    requires rule.raise.None? ==> c.confidence == p.entries[c.movie.id].confidence
    requires rule.raise.Some? ==> c.confidence == RaiseConfidence(p.entries[c.movie.id].confidence, rule.raise.value)
    ensures WellFormed(Put(p, c.movie.id, c)) && PassFacts(p, Put(p, c.movie.id, c), s)
    ensures Put(p, c.movie.id, c).entries.Keys == p.entries.Keys + {c.movie.id}
    ensures forall j :: j in p.entries && j != c.movie.id ==> Put(p, c.movie.id, c).entries[j] == p.entries[j]
  {
    PutGood(p, c.movie.id, c);
  }

  /** The facts a pass of strategy `s` establishes between the pool before it and after it. */
  ghost predicate PassFacts(p: Pool, r: Pool, s: RecType) {
    && Extends(p, r)
    && NewOfType(p, r, s)
    && (InsertOnly(s) ==> Untouched(p, r))
    && (KeepsConfidence(s) ==> SameConfidence(p, r))
    && CappedRaise(p, r)
  }

  lemma PassFactsReflexive(p: Pool, s: RecType)
    ensures PassFacts(p, p, s)
  {
    assert p.keys[..|p.keys|] == p.keys;
    forall k | k in p.entries
      ensures Grows(p.entries[k], p.entries[k])
    {
      assert p.entries[k].reasons[..|p.entries[k].reasons|] == p.entries[k].reasons;
    }
  }

  lemma PassFactsTransitive(p: Pool, q: Pool, r: Pool, s: RecType)
    requires PassFacts(p, q, s) && PassFacts(q, r, s)
    ensures PassFacts(p, r, s)
  {
    ExtendsTransitive(p, q, r);
  }

  /** `movies.forEach((movie, index) => …)` for a pass, positions counted from `index`. */
  function AbsorbList(p: Pool, s: RecType, movies: seq<MovieResult>, index: nat): (r: Pool)
    requires WellFormed(p)
    ensures WellFormed(r) && PassFacts(p, r, s)
    ensures forall i :: 0 <= i < |movies| ==> movies[i].id in r.entries
    decreases |movies|
  {
    if movies == [] then
      PassFactsReflexive(p, s);
      p
    else
      var p' := Absorb(p, s, movies[0], index);
      var r := AbsorbList(p', s, movies[1..], index + 1);
      AbsorbListStep(p, p', r, s, movies);
      r
  }

  lemma AbsorbListStep(p: Pool, p': Pool, r: Pool, s: RecType, movies: seq<MovieResult>)
    requires movies != [] && movies[0].id in p'.entries
    requires PassFacts(p, p', s) && PassFacts(p', r, s)
    requires forall i :: 0 <= i < |movies[1..]| ==> movies[1..][i].id in r.entries
    ensures PassFacts(p, r, s)
    ensures forall i :: 0 <= i < |movies| ==> movies[i].id in r.entries
  {
    PassFactsTransitive(p, p', r, s);
    forall i | 0 <= i < |movies|
      ensures movies[i].id in r.entries
    {
      if i > 0 {
        assert movies[i] == movies[1..][i - 1];
      }
    }
  }

  /** One pass over several fetched lists, each cut to `cap`; a failed fetch (None) adds nothing. */
  function AbsorbEach(p: Pool, s: RecType, lists: seq<Option<seq<MovieResult>>>, cap: nat): (r: Pool)
    requires WellFormed(p)
    ensures WellFormed(r) && PassFacts(p, r, s)
    ensures (forall i :: 0 <= i < |lists| ==> lists[i].None?) ==> r == p
    ensures forall i :: 0 <= i < |lists| ==> Listed(r, lists[i], cap)
    decreases |lists|
  {
    if lists == [] then
      PassFactsReflexive(p, s);
      p
    else
      AbsorbHead(p, s, lists[0], cap);
      var p' := if lists[0].None? then PassFactsReflexive(p, s); p
                else AbsorbList(p, s, Take(lists[0].value, cap), 0);
      var r := AbsorbEach(p', s, lists[1..], cap);
      PassFactsTransitive(p, p', r, s);
      ListedEach(p', r, lists, cap);
      r
  }

  /** Absorbing the first `cap` movies of a list makes every one of them a candidate. */
  lemma AbsorbHead(p: Pool, s: RecType, list: Option<seq<MovieResult>>, cap: nat)
    requires WellFormed(p)
    ensures list.Some? ==> Listed(AbsorbList(p, s, Take(list.value, cap), 0), list, cap)
  {
    if list.Some? {
      var t := Take(list.value, cap);
      forall j | 0 <= j < |list.value| && j < cap
        ensures list.value[j].id in AbsorbList(p, s, t, 0).entries
      {
        assert t[j] == list.value[j];
      }
    }
  }

  /** The first list held before the rest were absorbed is still held after. */
  lemma ListedEach(p: Pool, r: Pool, lists: seq<Option<seq<MovieResult>>>, cap: nat)
    requires lists != [] && Extends(p, r) && Listed(p, lists[0], cap)
    requires forall i :: 0 <= i < |lists[1..]| ==> Listed(r, lists[1..][i], cap)
    ensures forall i :: 0 <= i < |lists| ==> Listed(r, lists[i], cap)
  {
    forall i | 0 <= i < |lists|
      ensures Listed(r, lists[i], cap)
    {
      if i == 0 {
        ListedMono(p, r, lists[0], cap);
      } else {
        assert lists[i] == lists[1..][i - 1];
      }
    }
  }

  /** `Extends` composes. */
  lemma ExtendsTransitive(p: Pool, q: Pool, r: Pool)
    requires Extends(p, q) && Extends(q, r)
    ensures Extends(p, r)
  {
    assert r.keys[..|p.keys|] == r.keys[..|q.keys|][..|p.keys|];
    forall k | k in p.entries
      ensures Grows(p.entries[k], r.entries[k])
    {
      var a := p.entries[k].reasons;
      var b := q.entries[k].reasons;
      assert r.entries[k].reasons[..|a|] == r.entries[k].reasons[..|b|][..|a|];
    }
  }

  // ---------------------------------------------------------------------------
  // The catalogue service
  // ---------------------------------------------------------------------------

  datatype CrewMember = CrewMember(id: int, name: string, job: string)

  datatype CastMember = CastMember(id: int, name: string)

  datatype Credits = Credits(cast: seq<CastMember>, crew: seq<CrewMember>)

  /** A liked movie's own record, fetched with its credits appended. */
  datatype MovieDetails = MovieDetails(credits: Option<Credits>)

  /** The two requests made for one liked movie; None marks a request that failed. */
  datatype LikedReply = LikedReply(related: Option<seq<MovieResult>>, details: Option<MovieDetails>)

  /**
   * What the catalogue returns for each request the blender makes.  None marks
   * a request that failed (not ok, or thrown): the pass skips it.
   */
  datatype Gateway = Gateway(
    liked: string -> LikedReply,                          // /movie/{id}/recommendations and /movie/{id}
    topInGenre: string -> Option<seq<MovieResult>>,       // discover, with_genres, vote_count >= 500
    byDirector: int -> Option<seq<MovieResult>>,          // discover, with_crew, vote_count >= 200
    hiddenGems: Option<seq<MovieResult>>,                 // discover, 300 <= vote_count <= 3000, rating >= 7.5
    trending: Option<seq<MovieResult>>,                   // trending this week
    acclaimedInGenre: int -> Option<seq<MovieResult>>)    // discover, with_genres, vote_count >= 1000

  /** Every request to the catalogue fails. */
  ghost predicate AllFail(g: Gateway) {
    && (forall id :: g.liked(id).related.None?)
    && (forall id :: g.topInGenre(id).None?)
    && (forall id :: g.byDirector(id).None?)
    && g.hiddenGems.None?
    && g.trending.None?
    && (forall id :: g.acclaimedInGenre(id).None?)
  }

  /** The details cache, keyed by `parseInt(movieId)` (None for NaN). */
  type DetailsCache = OrderedMap<Option<int>, MovieDetails>

  datatype Stage = Stage(pool: Pool, cache: DetailsCache)

  /** A piece that is not all whitespace: `id.trim()` is truthy. */
  predicate NonBlank(id: string) {
    Trim(id) != []
  }

  /**
   * `param.split(',').filter(id => id.trim())`: the pieces that are not
   * blank, each once per occurrence and in their order in the parameter.
   */
  function IdList(param: string): (ids: seq<string>)
    ensures forall i :: 0 <= i < |ids| ==> NonBlank(ids[i])
    ensures forall piece :: piece in Split(param, ',') && NonBlank(piece) ==> piece in ids
    ensures |ids| == Count(Split(param, ','), NonBlank)
    ensures IsSubsequence(ids, Split(param, ','))
  {
    FilterIsSubsequence(Split(param, ','), NonBlank);
    Filter(Split(param, ','), NonBlank)
  }

  // ---------------------------------------------------------------------------
  // The pipeline
  // ---------------------------------------------------------------------------

  /** Strategy 1: for each liked id, merge its related list (first 8) and cache its details. */
  function SimilarPass(st: Stage, ids: seq<string>, g: Gateway): (r: Stage)
    requires WellFormed(st.pool) && Valid(st.cache)
    ensures WellFormed(r.pool) && Valid(r.cache)
    ensures Extends(st.pool, r.pool) && NewOfType(st.pool, r.pool, Similar)
    ensures (forall i :: 0 <= i < |ids| ==> g.liked(ids[i]).related.None?) ==> r == st
    ensures forall i :: 0 <= i < |ids| ==> Listed(r.pool, g.liked(ids[i]).related, 8)
    ensures st.cache.entries.Keys <= r.cache.entries.Keys
    ensures forall i :: 0 <= i < |ids| && g.liked(ids[i]).related.Some? && g.liked(ids[i]).details.Some? ==>
              ParseInt(ids[i]) in r.cache.entries
    decreases |ids|
  {
    if ids == [] then st
    else
      var reply := g.liked(ids[0]);
      AbsorbHead(st.pool, Similar, reply.related, 8);
      var st' := match reply.related
                 case None => st
                 case Some(results) =>
                   var cache := match reply.details
                                case None => st.cache
                                case Some(d) => Put(st.cache, ParseInt(ids[0]), d);
                   Stage(AbsorbList(st.pool, Similar, Take(results, 8), 0), cache);
      var r := SimilarPass(st', ids[1..], g);
      ExtendsTransitive(st.pool, st'.pool, r.pool);
      SimilarStep(st', r, ids, g);
      r
  }

  /** The first liked id's list and cached record, held after its pass step, are still held at the end. */
  lemma SimilarStep(st: Stage, r: Stage, ids: seq<string>, g: Gateway)
    requires ids != [] && Extends(st.pool, r.pool) && st.cache.entries.Keys <= r.cache.entries.Keys
    requires Listed(st.pool, g.liked(ids[0]).related, 8)
    requires g.liked(ids[0]).related.Some? && g.liked(ids[0]).details.Some? ==> ParseInt(ids[0]) in st.cache.entries
    requires forall i :: 0 <= i < |ids[1..]| ==> Listed(r.pool, g.liked(ids[1..][i]).related, 8)
    requires forall i :: 0 <= i < |ids[1..]| && g.liked(ids[1..][i]).related.Some? && g.liked(ids[1..][i]).details.Some? ==>
               ParseInt(ids[1..][i]) in r.cache.entries
    ensures forall i :: 0 <= i < |ids| ==> Listed(r.pool, g.liked(ids[i]).related, 8)
    ensures forall i :: 0 <= i < |ids| && g.liked(ids[i]).related.Some? && g.liked(ids[i]).details.Some? ==>
              ParseInt(ids[i]) in r.cache.entries
  {
    forall i | 0 <= i < |ids|
      ensures Listed(r.pool, g.liked(ids[i]).related, 8)
      ensures g.liked(ids[i]).related.Some? && g.liked(ids[i]).details.Some? ==> ParseInt(ids[i]) in r.cache.entries
    {
      if i == 0 {
        ListedMono(st.pool, r.pool, g.liked(ids[0]).related, 8);
      } else {
        assert ids[i] == ids[1..][i - 1];
      }
    }
  }

  predicate IsDirector(p: CrewMember) {
    p.job == "Director"
  }

  /** The ids of the crew members with job "Director" in one movie's credits, in order. */
  function DirectorsOf(d: MovieDetails): (ids: seq<int>)
    ensures forall x :: x in ids <==> d.credits.Some? && exists p :: p in d.credits.value.crew && IsDirector(p) && p.id == x
  {
    match d.credits
    case None => []
    case Some(c) =>
      var directors := Filter(c.crew, IsDirector);
      var ids := seq(|directors|, k requires 0 <= k < |directors| => directors[k].id);
      forall x
        ensures x in ids <==> exists p :: p in c.crew && IsDirector(p) && p.id == x
      {
        if x in ids {
          var k :| 0 <= k < |ids| && ids[k] == x;
          assert directors[k] in c.crew && IsDirector(directors[k]);
        }
        if exists p :: p in c.crew && IsDirector(p) && p.id == x {
          var p :| p in c.crew && IsDirector(p) && p.id == x;
          var i :| 0 <= i < |c.crew| && c.crew[i] == p;
          var k :| 0 <= k < |directors| && directors[k] == p;
          assert ids[k] == x;
        }
      }
      ids
  }

  /** The director ids of every cached record, in cache order. */
  function DirectorIds(details: seq<MovieDetails>): (ids: seq<int>)
    ensures forall x :: x in ids <==> exists i :: 0 <= i < |details| && x in DirectorsOf(details[i])
  {
    if details == [] then []
    else
      var rest := DirectorIds(details[1..]);
      forall x
        ensures (exists i :: 0 <= i < |details| && x in DirectorsOf(details[i]))
            <==> x in DirectorsOf(details[0]) || x in rest
      {
        if exists i :: 0 <= i < |details| && x in DirectorsOf(details[i]) {
          var i :| 0 <= i < |details| && x in DirectorsOf(details[i]);
          if i > 0 {
            assert details[1..][i - 1] == details[i];
          }
        }
        if x in rest {
          var i :| 0 <= i < |details[1..]| && x in DirectorsOf(details[1..][i]);
          assert details[1..][i] == details[i + 1];
        }
      }
      DirectorsOf(details[0]) + rest
  }

  /** The position of the first `x` in `xs`. */
  function IndexOf(xs: seq<int>, x: int): (k: nat)
    requires x in xs
    ensures k < |xs| && xs[k] == x
    ensures forall i :: 0 <= i < k ==> xs[i] != x
  {
    if xs[0] == x then 0 else 1 + IndexOf(xs[1..], x)
  }

  /** Appending an element moves no first occurrence already present. */
  lemma IndexOfSnoc(init: seq<int>, last: int, y: int)
    requires y in init
    ensures IndexOf(init + [last], y) == IndexOf(init, y)
  {
    var xs := init + [last];
    var a, b := IndexOf(xs, y), IndexOf(init, y);
    assert xs[b] == init[b];
  }

  /**
   * The distinct values of `xs` in order of first appearance (a JavaScript
   * `Set`): each once, exactly the values of `xs`, ordered by where each
   * first appears.
   */
  function Distinct(xs: seq<int>): (r: seq<int>)
    ensures forall i, j :: 0 <= i < j < |r| ==> r[i] != r[j]
    ensures forall x :: x in r <==> x in xs
    ensures forall i, j :: 0 <= i < j < |r| ==> IndexOf(xs, r[i]) < IndexOf(xs, r[j])
  {
    if xs == [] then []
    else
      var init := xs[..|xs| - 1];
      var d := Distinct(init);
      var last := xs[|xs| - 1];
      assert xs == init + [last];
      var r := if last in d then d else d + [last];
      forall i, j | 0 <= i < j < |r|
        ensures IndexOf(xs, r[i]) < IndexOf(xs, r[j])
      {
        IndexOfSnoc(init, last, r[i]);
        if j < |d| {
          IndexOfSnoc(init, last, r[j]);
        } else {
          assert r[j] == last && last !in init;
          assert IndexOf(xs, last) == |xs| - 1;
        }
      }
      r
  }

  /**
   * `Array.from(directors).slice(0, 2)`: the first two distinct director ids
   * of the cached credits, in order of first appearance.
   */
  function TopDirectors(cache: DetailsCache): (ids: seq<int>)
    requires Valid(cache)
    ensures |ids| == Min(2, |Distinct(DirectorIds(Values(cache)))|)
    ensures ids == Distinct(DirectorIds(Values(cache)))[..|ids|]
    ensures forall i, j :: 0 <= i < j < |ids| ==> ids[i] != ids[j]
  {
    Take(Distinct(DirectorIds(Values(cache))), 2)
  }

  /** `genres.split(',').slice(0, 3)` after dropping blank pieces: the genres strategy 2 asks about. */
  function LeadingGenres(genres: string): (ids: seq<string>)
    ensures |ids| == Min(3, |IdList(genres)|) && ids == IdList(genres)[..|ids|]
  {
    var all := IdList(genres);
    var ids := Take(all, 3);
    assert |ids| == SliceEnd(|all|, 3) == Min(3, |all|);
    ids
  }

  /** Strategy 2: the top-rated lists (first 6) of the first three preferred genres. */
  function GenrePass(p: Pool, genres: string, g: Gateway): (r: Pool)
    requires WellFormed(p)
    ensures WellFormed(r) && PassFacts(p, r, Genre)
    ensures AllFail(g) ==> r == p
    ensures forall i :: 0 <= i < |LeadingGenres(genres)| ==> Listed(r, g.topInGenre(LeadingGenres(genres)[i]), 6)
  {
    TopInGenres(p, LeadingGenres(genres), g)
  }

  /** The genre pass over a given list of genre ids. */
  function TopInGenres(p: Pool, ids: seq<string>, g: Gateway): (r: Pool)
    requires WellFormed(p)
    ensures WellFormed(r) && PassFacts(p, r, Genre)
    ensures AllFail(g) ==> r == p
    ensures forall i :: 0 <= i < |ids| ==> Listed(r, g.topInGenre(ids[i]), 6)
  {
    var lists := seq(|ids|, i requires 0 <= i < |ids| => g.topInGenre(ids[i]));
    var r := AbsorbEach(p, Genre, lists, 6);
    ListedFetched(r, ids, g.topInGenre, lists, 6);
    r
  }

  /** The lists fetched for `ids`, one per id, are all held once the pass holds each of them. */
  lemma ListedFetched<X>(r: Pool, ids: seq<X>, fetch: X -> Option<seq<MovieResult>>, lists: seq<Option<seq<MovieResult>>>, cap: nat)
    requires |lists| == |ids| && forall i :: 0 <= i < |ids| ==> lists[i] == fetch(ids[i])
    requires forall i :: 0 <= i < |lists| ==> Listed(r, lists[i], cap)
    ensures forall i :: 0 <= i < |ids| ==> Listed(r, fetch(ids[i]), cap)
  {
  }

  /** Strategy 3: the lists (first 4) of the first two directors found in the cached credits. */
  function DirectorPass(p: Pool, cache: DetailsCache, g: Gateway): (r: Pool)
    requires WellFormed(p) && Valid(cache)
    ensures WellFormed(r) && PassFacts(p, r, Director)
    ensures AllFail(g) ==> r == p
    ensures forall i :: 0 <= i < |TopDirectors(cache)| ==> Listed(r, g.byDirector(TopDirectors(cache)[i]), 4)
  {
    ByDirectors(p, TopDirectors(cache), g)
  }

  /** The director pass over a given list of director ids. */
  function ByDirectors(p: Pool, ids: seq<int>, g: Gateway): (r: Pool)
    requires WellFormed(p)
    ensures WellFormed(r) && PassFacts(p, r, Director)
    ensures AllFail(g) ==> r == p
    ensures forall i :: 0 <= i < |ids| ==> Listed(r, g.byDirector(ids[i]), 4)
  {
    var lists := seq(|ids|, i requires 0 <= i < |ids| => g.byDirector(ids[i]));
    DirectorListsFail(ids, g);
    var r := AbsorbEach(p, Director, lists, 4);
    ListedFetched(r, ids, g.byDirector, lists, 4);
    r
  }

  lemma DirectorListsFail(ids: seq<int>, g: Gateway)
    ensures AllFail(g) ==> forall i :: 0 <= i < |ids| ==> g.byDirector(ids[i]).None?
  {
    if AllFail(g) {
      forall i | 0 <= i < |ids|
        ensures g.byDirector(ids[i]).None?
      {
        var id := ids[i];
        assert g.byDirector(id).None?;
      }
    }
  }

  /** Strategy 4: hidden gems (first 8), inserted only when absent. */
  function HiddenGemPass(p: Pool, g: Gateway): (r: Pool)
    requires WellFormed(p)
    ensures WellFormed(r) && PassFacts(p, r, HiddenGem)
    ensures g.hiddenGems.None? ==> r == p
    ensures Listed(r, g.hiddenGems, 8)
  {
    AbsorbEach(p, HiddenGem, [g.hiddenGems], 8)
  }

  /** Strategy 5: trending movies (first 12), fetched only while fewer than 15 candidates exist. */
  function TrendingPass(p: Pool, g: Gateway): (r: Pool)
    requires WellFormed(p)
    ensures WellFormed(r) && PassFacts(p, r, Trending)
    ensures g.trending.None? ==> r == p
    ensures Size(p) >= 15 ==> r == p
    ensures Size(p) < 15 ==> Listed(r, g.trending, 12)
  {
    if Size(p) < 15 then AbsorbEach(p, Trending, [g.trending], 12) else PassFactsReflexive(p, Trending); p
  }

  /** The genre palette of the diversity pass: Action, Sci-Fi, Drama, Comedy, Horror, Romance, Fantasy, Thriller. */
  const DiversePalette: seq<int> := [28, 878, 18, 35, 27, 10749, 14, 53]

  /** `new Set(genres.split(',').map(id => parseInt(id)))`, as a sequence; None stands for NaN. */
  function PreferredGenreIds(genres: string): seq<Option<int>> {
    var pieces := Split(genres, ',');
    seq(|pieces|, i requires 0 <= i < |pieces| => ParseInt(pieces[i]))
  }

  /** The palette genres that are not among the preferred ones, in palette order. */
  function UnusedPalette(genres: string): (u: seq<int>)
    ensures forall x :: x in u <==> x in DiversePalette && Some(x) !in PreferredGenreIds(genres)
    ensures IsSubsequence(u, DiversePalette)
  {
    var preferred := PreferredGenreIds(genres);
    FilterIsSubsequence(DiversePalette, (x: int) => Some(x) !in preferred);
    Filter(DiversePalette, (x: int) => Some(x) !in preferred)
  }

  /** The first two palette genres that are not among the preferred ones. */
  function UnusedGenres(genres: string): (r: seq<int>)
    ensures |r| == Min(2, |UnusedPalette(genres)|) && r == UnusedPalette(genres)[..|r|]
    ensures forall i :: 0 <= i < |r| ==> r[i] in DiversePalette && Some(r[i]) !in PreferredGenreIds(genres)
  {
    var u := UnusedPalette(genres);
    var r := Take(u, 2);
    assert |r| == SliceEnd(|u|, 2) == Min(2, |u|);
    forall i | 0 <= i < |r|
      ensures r[i] in u
    {
      assert r[i] == u[i];
    }
    r
  }

  /** Strategy 6: well-rated movies (first 3) of two genres the user did not pick, inserted only when absent. */
  function DiversityPass(p: Pool, genres: string, g: Gateway): (r: Pool)
    requires WellFormed(p)
    ensures WellFormed(r) && PassFacts(p, r, Diverse)
    ensures AllFail(g) ==> r == p
    ensures forall i :: 0 <= i < |UnusedGenres(genres)| ==> Listed(r, g.acclaimedInGenre(UnusedGenres(genres)[i]), 3)
  {
    AcclaimedIn(p, UnusedGenres(genres), g)
  }

  /** The diversity pass over a given list of genre ids. */
  function AcclaimedIn(p: Pool, ids: seq<int>, g: Gateway): (r: Pool)
    requires WellFormed(p)
    ensures WellFormed(r) && PassFacts(p, r, Diverse)
    ensures AllFail(g) ==> r == p
    ensures forall i :: 0 <= i < |ids| ==> Listed(r, g.acclaimedInGenre(ids[i]), 3)
  {
    var lists := seq(|ids|, i requires 0 <= i < |ids| => g.acclaimedInGenre(ids[i]));
    AcclaimedListsFail(ids, g);
    var r := AbsorbEach(p, Diverse, lists, 3);
    ListedFetched(r, ids, g.acclaimedInGenre, lists, 3);
    r
  }

  lemma AcclaimedListsFail(ids: seq<int>, g: Gateway)
    ensures AllFail(g) ==> forall i :: 0 <= i < |ids| ==> g.acclaimedInGenre(ids[i]).None?
  {
    if AllFail(g) {
      forall i | 0 <= i < |ids|
        ensures g.acclaimedInGenre(ids[i]).None?
      {
        var id := ids[i];
        assert g.acclaimedInGenre(id).None?;
      }
    }
  }

  // ---------------------------------------------------------------------------
  // Search-history boost
  // ---------------------------------------------------------------------------

  /** `searchHistory.toLowerCase().split(',').map(t => t.trim())`. */
  function SearchTerms(history: string): (terms: seq<string>)
    ensures |terms| >= 1
    ensures |terms| == |Split(Lower(history), ',')|
    ensures forall i :: 0 <= i < |terms| ==> terms[i] == Trim(Split(Lower(history), ',')[i])
    ensures forall i :: 0 <= i < |terms| ==> Trim(terms[i]) == terms[i]
  {
    var pieces := Split(Lower(history), ',');
    var terms := seq(|pieces|, i requires 0 <= i < |pieces| => Trim(pieces[i]));
    assert forall i :: 0 <= i < |terms| ==> Trim(terms[i]) == terms[i] by {
      forall i | 0 <= i < |terms|
        ensures Trim(terms[i]) == terms[i]
      {
        TrimIdempotent(pieces[i]);
      }
    }
    terms
  }

  /** The lower-cased `${title} ${overview}` the terms are looked up in. */
  function MovieText(m: MovieResult): string {
    Lower(m.title + " " + m.overview)
  }

  /** `matchCount`: how many terms (repeats included) occur in `text`. */
  function MatchCount(text: string, terms: seq<string>): (n: nat)
    ensures n <= |terms|
  {
    if terms == [] then 0
    else (if Contains(text, terms[0]) then 1 else 0) + MatchCount(text, terms[1..])
  }

  /** `matchedTerms`: the terms that occur in `text`, in order. */
  function MatchedTerms(text: string, terms: seq<string>): (r: seq<string>)
    ensures forall i :: 0 <= i < |r| ==> r[i] in terms && Contains(text, r[i])
    ensures forall i :: 0 <= i < |terms| && Contains(text, terms[i]) ==> terms[i] in r
    ensures IsSubsequence(r, terms)
  {
    if terms == [] then []
    else
      var rest := MatchedTerms(text, terms[1..]);
      SubsequenceCons(rest, terms[1..], terms[0]);
      assert [terms[0]] + terms[1..] == terms;
      if Contains(text, terms[0]) then [terms[0]] + rest
      else rest
  }

  /** The counter and the list of matched terms always agree. */
  lemma {:induction false} MatchCountIsLength(text: string, terms: seq<string>)
    ensures MatchCount(text, terms) == |MatchedTerms(text, terms)|
  {
    if terms != [] {
      MatchCountIsLength(text, terms[1..]);
    }
  }

  /** Some term matches exactly when the counter is positive. */
  lemma {:induction false} MatchCountPositive(text: string, terms: seq<string>)
    ensures MatchCount(text, terms) > 0 <==> exists i :: 0 <= i < |terms| && Contains(text, terms[i])
  {
    if terms != [] {
      MatchCountPositive(text, terms[1..]);
      if Contains(text, terms[0]) {
        assert Contains(text, terms[0]);
      } else if exists i :: 0 <= i < |terms| && Contains(text, terms[i]) {
        var i :| 0 <= i < |terms| && Contains(text, terms[i]);
        assert terms[1..][i - 1] == terms[i];
      }
    }
  }

  const InterestPrefix: string := "Matches your interest in: "

  /**
   * The boost for one candidate: per matched term +15 score and +5 confidence
   * (capped at 99), and one reason listing the matched terms.
   */
  function Boost(c: Candidate, terms: seq<string>): (r: Candidate)
    ensures Grows(c, r)
    ensures MatchCount(MovieText(c.movie), terms) == 0 <==> r == c
    ensures MatchCount(MovieText(c.movie), terms) > 0 ==>
              && r.matchScore == c.matchScore + 15.0 * MatchCount(MovieText(c.movie), terms) as real
              && r.confidence == MinReal(99.0, c.confidence + 5.0 * MatchCount(MovieText(c.movie), terms) as real)
              && r.reasons == c.reasons + [InterestPrefix + Join(MatchedTerms(MovieText(c.movie), terms), ", ")]
  {
    var text := MovieText(c.movie);
    var n := MatchCount(text, terms);
    if n > 0 then
      var r := c.(matchScore := c.matchScore + 15.0 * n as real,
                  confidence := RaiseConfidence(c.confidence, 5.0 * n as real),
                  reasons := c.reasons + [InterestPrefix + Join(MatchedTerms(text, terms), ", ")]);
      assert r.reasons[..|c.reasons|] == c.reasons;
      assert |r.reasons| != |c.reasons|;
      r
    else
      assert c.reasons[..|c.reasons|] == c.reasons;
      c
  }

  /** A blank term (say from a trailing comma) occurs in every text, so it boosts every candidate. */
  lemma BlankTermMatchesAll(c: Candidate, terms: seq<string>)
    requires "" in terms
    ensures Boost(c, terms).matchScore >= c.matchScore + 15.0
    ensures |Boost(c, terms).reasons| == |c.reasons| + 1
  {
    var text := MovieText(c.movie);
    var i :| 0 <= i < |terms| && terms[i] == "";
    ContainsEmpty(text);
    MatchCountPositive(text, terms);
  }

  /** `recommendations.forEach(movie => …)` with the boost: same keys, same order, each candidate boosted. */
  function BoostAll(p: Pool, terms: seq<string>): (r: Pool)
    requires WellFormed(p)
    ensures WellFormed(r) && Extends(p, r)
    ensures r.keys == p.keys
    ensures forall k :: k in p.entries ==> r.entries[k] == Boost(p.entries[k], terms)
  {
    var r := OrderedMap(p.keys, map k | k in p.entries :: Boost(p.entries[k], terms));
    assert r.entries.Keys == p.entries.Keys;
    forall k | k in r.entries
      ensures GoodEntry(k, r.entries[k])
    {
      BoostGood(k, p.entries[k], terms);
    }
    assert r.keys[..|p.keys|] == p.keys;
    r
  }

  lemma BoostGood(k: int, c: Candidate, terms: seq<string>)
    requires GoodEntry(k, c)
    ensures GoodEntry(k, Boost(c, terms))
  {
    var r := Boost(c, terms);
    if r != c {
      var extra := InterestPrefix + Join(MatchedTerms(MovieText(c.movie), terms), ", ");
      assert extra[0] == 'M' && MultipleLikedReason[0] == 'S';
      assert r.reasons == c.reasons + [extra];
    }
  }

  // ---------------------------------------------------------------------------
  // The whole pipeline
  // ---------------------------------------------------------------------------

  /** The query parameters; a missing parameter reads as the empty string. */
  datatype Query = Query(likedMovies: string, genres: string, searchHistory: string, limit: string)

  const LikedKey: string := "liked_movies"
  const GenresKey: string := "genres"
  const HistoryKey: string := "search_history"
  const LimitKey: string := "limit"

  /** How the route reads its parameters: `searchParams.get(name) || ''` for each. */
  function ReadQuery(ps: seq<Param>): Query {
    Query(
      GetParam(ps, LikedKey).GetOr([]),
      GetParam(ps, GenresKey).GetOr([]),
      GetParam(ps, HistoryKey).GetOr([]),
      GetParam(ps, LimitKey).GetOr([]))
  }

  /** The candidate types the strategies that run for `q` can insert. */
  function Ran(q: Query): (ts: set<RecType>)
    ensures HiddenGem in ts && Trending in ts
    ensures Similar in ts <==> q.likedMovies != []
    ensures Director in ts <==> q.likedMovies != []
    ensures Genre in ts <==> q.genres != []
    ensures Diverse in ts <==> q.genres != []
  {
    {HiddenGem, Trending}
      + (if q.likedMovies != [] then {Similar, Director} else {})
      + (if q.genres != [] then {Genre, Diverse} else {})
  }

  /** Every candidate of `p` carries one of the types in `ts`. */
  ghost predicate TypesIn(p: Pool, ts: set<RecType>) {
    forall k :: k in p.entries ==> p.entries[k].recType in ts
  }

  lemma PassTypes(p: Pool, r: Pool, s: RecType, ts: set<RecType>)
    requires PassFacts(p, r, s) && TypesIn(p, ts) && s in ts
    ensures TypesIn(r, ts)
  {
    forall k | k in r.entries
      ensures r.entries[k].recType in ts
    {
      if k in p.entries {
        assert Grows(p.entries[k], r.entries[k]);
      }
    }
  }

  /** `likedMovies.slice(0, 5)`: the first five non-blank liked ids. */
  function LikedIds(q: Query): (ids: seq<string>)
    ensures |ids| == Min(5, |IdList(q.likedMovies)|) && ids == IdList(q.likedMovies)[..|ids|]
  {
    var all := IdList(q.likedMovies);
    var ids := Take(all, 5);
    assert |ids| == SliceEnd(|all|, 5) == Min(5, |all|);
    ids
  }

  /** Strategy 1, run when liked movies are given: the first five non-blank ids. */
  function LikedStage(q: Query, g: Gateway): (st: Stage)
    ensures WellFormed(st.pool) && Valid(st.cache) && TypesIn(st.pool, Ran(q))
    ensures AllFail(g) ==> st.pool == Empty()
    ensures q.likedMovies != [] ==> forall i :: 0 <= i < |LikedIds(q)| ==> Listed(st.pool, g.liked(LikedIds(q)[i]).related, 8)
  {
    var st0 := Stage(Empty(), Empty());
    if q.likedMovies == [] then st0
    else
      var st := SimilarPass(st0, LikedIds(q), g);
      PassTypes(st0.pool, st.pool, Similar, Ran(q));
      st
  }

  /** Strategy 2, run when preferred genres are given. */
  function GenreStage(p: Pool, q: Query, g: Gateway): (r: Pool)
    requires WellFormed(p) && TypesIn(p, Ran(q))
    ensures WellFormed(r) && TypesIn(r, Ran(q)) && Extends(p, r)
    ensures AllFail(g) ==> r == p
    ensures q.genres != [] ==> forall i :: 0 <= i < |LeadingGenres(q.genres)| ==> Listed(r, g.topInGenre(LeadingGenres(q.genres)[i]), 6)
  {
    if q.genres == [] then p
    else
      var r := GenrePass(p, q.genres, g);
      PassTypes(p, r, Genre, Ran(q));
      r
  }

  /** Strategy 3, run when liked movies are given. */
  function DirectorStage(p: Pool, cache: DetailsCache, q: Query, g: Gateway): (r: Pool)
    requires WellFormed(p) && Valid(cache) && TypesIn(p, Ran(q))
    ensures WellFormed(r) && TypesIn(r, Ran(q)) && Extends(p, r)
    ensures AllFail(g) ==> r == p
    ensures q.likedMovies != [] ==> forall i :: 0 <= i < |TopDirectors(cache)| ==> Listed(r, g.byDirector(TopDirectors(cache)[i]), 4)
  {
    if q.likedMovies == [] then p
    else
      var r := DirectorPass(p, cache, g);
      PassTypes(p, r, Director, Ran(q));
      r
  }

  /** Strategies 4 and 5, which always run. */
  function DiscoveryStage(p: Pool, q: Query, g: Gateway): (r: Pool)
    requires WellFormed(p) && TypesIn(p, Ran(q))
    ensures WellFormed(r) && TypesIn(r, Ran(q)) && Extends(p, r)
    ensures AllFail(g) ==> r == p
    ensures Listed(r, g.hiddenGems, 8)
    ensures Size(r) < 15 ==> Listed(r, g.trending, 12)
  {
    var p4 := HiddenGemPass(p, g);
    PassTypes(p, p4, HiddenGem, Ran(q));
    var p5 := TrendingPass(p4, g);
    PassTypes(p4, p5, Trending, Ran(q));
    ExtendsTransitive(p, p4, p5);
    ListedMono(p4, p5, g.hiddenGems, 8);
    p5
  }

  /** Strategy 6, run when preferred genres are given. */
  function DiversityStage(p: Pool, q: Query, g: Gateway): (r: Pool)
    requires WellFormed(p) && TypesIn(p, Ran(q))
    ensures WellFormed(r) && TypesIn(r, Ran(q)) && Extends(p, r)
    ensures AllFail(g) ==> r == p
    ensures q.genres != [] ==> forall i :: 0 <= i < |UnusedGenres(q.genres)| ==> Listed(r, g.acclaimedInGenre(UnusedGenres(q.genres)[i]), 3)
  {
    if q.genres == [] then p
    else
      var r := DiversityPass(p, q.genres, g);
      PassTypes(p, r, Diverse, Ran(q));
      r
  }

  /** Strategy 7, run when a search history is given. */
  function BoostStage(p: Pool, q: Query): (r: Pool)
    requires WellFormed(p) && TypesIn(p, Ran(q))
    ensures WellFormed(r) && TypesIn(r, Ran(q)) && Extends(p, r)
    ensures p == Empty() ==> r == p
  {
    if q.searchHistory == [] then p
    else
      var r := BoostAll(p, SearchTerms(q.searchHistory));
      assert forall k :: k in p.entries ==> Grows(p.entries[k], r.entries[k]);
      r
  }

  /**
   * Every strategy in order: the pool of candidates the ranking sees.  A
   * candidate's type always belongs to a strategy that ran for this query,
   * and every movie a strategy that ran fetched (up to its cap) is in the
   * pool; trending movies are fetched only while the pool is small, so a
   * final pool of fewer than 15 holds them too.
   */
  function Candidates(q: Query, g: Gateway): (p: Pool)
    ensures WellFormed(p) && TypesIn(p, Ran(q))
    ensures AllFail(g) ==> p == Empty()
    ensures q.likedMovies != [] ==> forall i :: 0 <= i < |LikedIds(q)| ==> Listed(p, g.liked(LikedIds(q)[i]).related, 8)
    ensures q.genres != [] ==> forall i :: 0 <= i < |LeadingGenres(q.genres)| ==> Listed(p, g.topInGenre(LeadingGenres(q.genres)[i]), 6)
    ensures q.likedMovies != [] ==> var ds := TopDirectors(LikedStage(q, g).cache);
              forall i :: 0 <= i < |ds| ==> Listed(p, g.byDirector(ds[i]), 4)
    ensures Listed(p, g.hiddenGems, 8)
    ensures Size(p) < 15 ==> Listed(p, g.trending, 12)
    ensures q.genres != [] ==> forall i :: 0 <= i < |UnusedGenres(q.genres)| ==> Listed(p, g.acclaimedInGenre(UnusedGenres(q.genres)[i]), 3)
  {
    var st := LikedStage(q, g);
    var p2 := GenreStage(st.pool, q, g);
    var p3 := DirectorStage(p2, st.cache, q, g);
    var p5 := DiscoveryStage(p3, q, g);
    var p6 := DiversityStage(p5, q, g);
    var p7 := BoostStage(p6, q);
    CandidatesListed(q, g, st.pool, p2, p3, p5, p6, p7);
    p7
  }

  /** The lists each stage holds survive the stages after it. */
  lemma CandidatesListed(q: Query, g: Gateway, p1: Pool, p2: Pool, p3: Pool, p5: Pool, p6: Pool, p7: Pool)
    requires Extends(p1, p2) && Extends(p2, p3) && Extends(p3, p5) && Extends(p5, p6) && Extends(p6, p7)
    requires q.likedMovies != [] ==> forall i :: 0 <= i < |LikedIds(q)| ==> Listed(p1, g.liked(LikedIds(q)[i]).related, 8)
    requires q.genres != [] ==> forall i :: 0 <= i < |LeadingGenres(q.genres)| ==> Listed(p2, g.topInGenre(LeadingGenres(q.genres)[i]), 6)
    requires q.likedMovies != [] ==> var ds := TopDirectors(LikedStage(q, g).cache);
               forall i :: 0 <= i < |ds| ==> Listed(p3, g.byDirector(ds[i]), 4)
    requires Listed(p5, g.hiddenGems, 8)
    requires Size(p5) < 15 ==> Listed(p5, g.trending, 12)
    requires q.genres != [] ==> forall i :: 0 <= i < |UnusedGenres(q.genres)| ==> Listed(p6, g.acclaimedInGenre(UnusedGenres(q.genres)[i]), 3)
    ensures q.likedMovies != [] ==> forall i :: 0 <= i < |LikedIds(q)| ==> Listed(p7, g.liked(LikedIds(q)[i]).related, 8)
    ensures q.genres != [] ==> forall i :: 0 <= i < |LeadingGenres(q.genres)| ==> Listed(p7, g.topInGenre(LeadingGenres(q.genres)[i]), 6)
    ensures q.likedMovies != [] ==> var ds := TopDirectors(LikedStage(q, g).cache);
              forall i :: 0 <= i < |ds| ==> Listed(p7, g.byDirector(ds[i]), 4)
    ensures Listed(p7, g.hiddenGems, 8)
    ensures Size(p7) < 15 ==> Listed(p7, g.trending, 12)
    ensures q.genres != [] ==> forall i :: 0 <= i < |UnusedGenres(q.genres)| ==> Listed(p7, g.acclaimedInGenre(UnusedGenres(q.genres)[i]), 3)
  {
    ExtendsTransitive(p5, p6, p7);
    ExtendsTransitive(p3, p5, p7);
    ExtendsTransitive(p2, p3, p7);
    ExtendsTransitive(p1, p2, p7);
  }
}

=== FILE: register.dfy ===
/**
 * The registration page: the two checks on the form, what a sign-up reply
 * turns into, and the two links back to the login page, each of which
 * carries the page's `redirect` parameter unless it is the home page.
 */
module Register {
  import opened Wrappers
  import opened Uri

  datatype Form = Form(name: string, email: string, password: string, confirmPassword: string)

  // ---------------------------------------------------------------------------
  // Validation
  // ---------------------------------------------------------------------------

  const MinPasswordLength: nat := 8
  const MismatchError: string := "Passwords do not match"
  const ShortError: string := "Password must be at least 8 characters long"

  /**
   * The `length` of a JavaScript string: its UTF-16 code units, two for a
   * character beyond the Basic Multilingual Plane.
   */
  function Utf16Length(s: string): (n: nat)
    ensures |s| <= n <= 2 * |s|
  {
    if s == [] then 0 else (if s[0] as int >= 0x1_0000 then 2 else 1) + Utf16Length(s[1..])
  }

  /** The length counts characters exactly when none lies beyond the Basic Multilingual Plane. */
  lemma {:induction false} Utf16LengthOfBmp(s: string)
    ensures Utf16Length(s) == |s| <==> forall i :: 0 <= i < |s| ==> s[i] as int < 0x1_0000
  {
    if s != [] {
      Utf16LengthOfBmp(s[1..]);
      if s[0] as int < 0x1_0000 && Utf16Length(s) == |s| {
        forall i | 0 <= i < |s|
          ensures s[i] as int < 0x1_0000
        {
          if i > 0 {
            assert s[i] == s[1..][i - 1];
          }
        }
      }
      if forall i :: 0 <= i < |s| ==> s[i] as int < 0x1_0000 {
        assert forall i :: 0 <= i < |s[1..]| ==> s[1..][i] == s[i + 1];
      }
    }
  }

  /** The checks of the submit handler, in order: the confirmation first, then the length. */
  function ValidationError(f: Form): (e: Option<string>)
    ensures e == Some(MismatchError) <==> f.password != f.confirmPassword
    ensures e == Some(ShortError) <==> f.password == f.confirmPassword && Utf16Length(f.password) < MinPasswordLength
    ensures e.None? <==> f.password == f.confirmPassword && Utf16Length(f.password) >= MinPasswordLength
  {
    if f.password != f.confirmPassword then Some(MismatchError)
    else if Utf16Length(f.password) < MinPasswordLength then Some(ShortError)
    else None
  }

  // ---------------------------------------------------------------------------
  // Submitting
  // ---------------------------------------------------------------------------

  /** What the sign-up call answers: success, an error (with or without a code), or an exception. */
  datatype SignUpReply = SignedUp | Rejected(code: Option<string>) | Threw

  const ExistsCode: string := "USER_ALREADY_EXISTS"
  const ExistsMessage: string := "An account with this email already exists. Please login instead."
  const GenericMessage: string := "Registration failed. Please try again."
  const UnexpectedMessage: string := "An unexpected error occurred. Please try again."

  /** The message for an error code: the known code has its own, every other one the generic message. */
  function ErrorMessage(code: string): (msg: string)
    ensures msg == ExistsMessage <==> code == ExistsCode
    ensures msg == GenericMessage <==> code != ExistsCode
  {
    if code == ExistsCode then ExistsMessage else GenericMessage
  }

  /** `error?.code` is truthy: a code that is present and not empty. */
  predicate HasCode(reply: SignUpReply) {
    reply.Rejected? && reply.code.Some? && reply.code.value != []
  }

  /** The end of a submission: an error shown before or after the sign-up call, or the page to go to. */
  datatype Outcome = Invalid(message: string) | Failed(message: string) | Registered(next: string)

  /**
   * The submit handler.  `reply` is what the sign-up call would answer; it
   * is consulted only when the form passes both checks.
   */
  function Submit(f: Form, redirect: string, reply: SignUpReply): (o: Outcome)
    ensures o.Invalid? <==> ValidationError(f).Some?
    ensures o.Invalid? ==> o.message == ValidationError(f).value
    ensures o.Registered? <==> ValidationError(f).None? && (reply.SignedUp? || (reply.Rejected? && !HasCode(reply)))
    ensures o.Registered? ==> o.next == LoginAfterRegister(redirect)
    ensures ValidationError(f).None? && HasCode(reply) ==> o == Failed(ErrorMessage(reply.code.value))
    ensures ValidationError(f).None? && reply.Threw? ==> o == Failed(UnexpectedMessage)
  {
    match ValidationError(f)
    case Some(message) => Invalid(message)
    case None =>
      if reply.Threw? then Failed(UnexpectedMessage)
      else if HasCode(reply) then Failed(ErrorMessage(reply.code.value))
      else Registered(LoginAfterRegister(redirect))
  }

  /** A form that fails a check never reaches the sign-up call: the reply makes no difference. */
  lemma InvalidIgnoresReply(f: Form, redirect: string, a: SignUpReply, b: SignUpReply)
    requires ValidationError(f).Some?
    ensures Submit(f, redirect, a) == Submit(f, redirect, b)
  {
  }

  /** Registration succeeds only for a form that passes both checks. */
  lemma RegisteredOnlyWhenValid(f: Form, redirect: string, reply: SignUpReply)
    requires Submit(f, redirect, reply).Registered?
    ensures f.password == f.confirmPassword && Utf16Length(f.password) >= MinPasswordLength
  {
  }

  /** A short password that also differs from its confirmation reports the mismatch. */
  lemma MismatchReportedFirst(f: Form, redirect: string, reply: SignUpReply)
    requires f.password != f.confirmPassword && Utf16Length(f.password) < MinPasswordLength
    ensures Submit(f, redirect, reply) == Invalid(MismatchError)
  {
  }

  /** An error reply without a code, or with an empty one, is taken for success. */
  lemma CodelessRejectionRegisters(f: Form, redirect: string, code: Option<string>)
    requires ValidationError(f).None? && (code.None? || code.value == [])
    ensures Submit(f, redirect, Rejected(code)) == Registered(LoginAfterRegister(redirect))
  {
  }

  // ---------------------------------------------------------------------------
  // Redirects
  // ---------------------------------------------------------------------------

  const Home: string := "/"
  const LoginPath: string := "/login"
  const RedirectKey: string := "redirect"
  const RegisteredKey: string := "registered"

  /** `searchParams.get("redirect") || "/"`. */
  function RedirectOf(param: Option<string>): (r: string)
    ensures r != []
    ensures param.Some? && param.value != [] ==> r == param.value
    ensures param.None? || param.value == [] ==> r == Home
  {
    match param
    case Some(v) => if v != [] then v else Home
    case None => Home
  }

  /** Where a successful registration goes: the login page, told that the account exists and, unless it is home, where to go next. */
  function LoginAfterRegister(redirect: string): string {
    LoginPath + "?" + Pair(RegisteredKey, "true") + (if redirect != Home then "&" + Pair(RedirectKey, Encode(redirect)) else "")
  }

  /** The "Sign in" link: the login page, with the redirect unless it is home. */
  function SignInHref(redirect: string): string {
    LoginPath + (if redirect != Home then "?" + Pair(RedirectKey, Encode(redirect)) else "")
  }

  /** The login URL after registering names the login page, says `registered=true`, and carries the redirect exactly when it is not home. */
  lemma LoginAfterRegisterReads(redirect: string)
    ensures PathOf(LoginAfterRegister(redirect)) == LoginPath
    ensures GetParam(QueryOf(LoginAfterRegister(redirect)), RegisteredKey) == Some("true")
    ensures GetParam(QueryOf(LoginAfterRegister(redirect)), RedirectKey) == if redirect != Home then Some(redirect) else None
  {
    if redirect != Home {
      ReadsTwo(LoginPath, RegisteredKey, "true", RedirectKey, redirect);
    } else {
      var url := LoginPath + "?" + Pair(RegisteredKey, "true");
      assert LoginAfterRegister(redirect) == url + "";
      assert url + "" == url;
      ReadsPlain(LoginPath, RegisteredKey, "true", RedirectKey);
    }
  }

  /** The "Sign in" link names the login page and carries the redirect exactly when it is not home. */
  lemma SignInHrefReads(redirect: string)
    ensures PathOf(SignInHref(redirect)) == LoginPath
    ensures GetParam(QueryOf(SignInHref(redirect)), RedirectKey) == if redirect != Home then Some(redirect) else None
  {
    if redirect != Home {
      assert SignInHref(redirect) == LoginPath + ("?" + Pair(RedirectKey, Encode(redirect)));
      assert LoginPath + ("?" + Pair(RedirectKey, Encode(redirect))) == LoginPath + "?" + Pair(RedirectKey, Encode(redirect));
      ReadsEncoded(LoginPath, RedirectKey, redirect);
    } else {
      assert SignInHref(redirect) == LoginPath + "";
      assert LoginPath + "" == LoginPath;
    }
  }

  /**
   * Read back the way this page reads its own parameter, either login link
   * leads on to the same place: the redirect survives the trip.
   */
  lemma RedirectSurvives(param: Option<string>)
    ensures RedirectOf(GetParam(QueryOf(LoginAfterRegister(RedirectOf(param))), RedirectKey)) == RedirectOf(param)
    ensures RedirectOf(GetParam(QueryOf(SignInHref(RedirectOf(param))), RedirectKey)) == RedirectOf(param)
  {
    LoginAfterRegisterReads(RedirectOf(param));
    SignInHrefReads(RedirectOf(param));
  }
}

=== FILE: reviews_page.dfy ===
/**
 * The reviews page's derived views: the summary statistics, the search,
 * rating filter and sort of the review list, and the small display helpers
 * (poster URL, rating colour, distribution percentage).  Review timestamps
 * are integers (milliseconds since the epoch).
 */
module ReviewsPage {
  import opened Wrappers
  import opened Text
  import opened Seqs
  import opened JsMath
  import opened Posters

  datatype Review = Review(
    id: int,
    movieId: int,
    movieTitle: string,
    moviePoster: Option<string>,
    userName: string,
    rating: int,
    reviewText: Option<string>,
    createdAt: int)

  // ---------------------------------------------------------------------------
  // Statistics
  // ---------------------------------------------------------------------------

  datatype Stats = Stats(total: nat, avgRating: real, distribution: map<int, nat>)

  const NoStats: Stats := Stats(0, 0.0, map[])

  /** How many reviews carry exactly `rating`. */
  function CountRating(reviews: seq<Review>, rating: int): (n: nat)
    ensures n <= |reviews|
  {
    if reviews == [] then 0
    else (if reviews[0].rating == rating then 1 else 0) + CountRating(reviews[1..], rating)
  }

  function SumRatings(reviews: seq<Review>): int {
    if reviews == [] then 0 else reviews[0].rating + SumRatings(reviews[1..])
  }

  /**
   * The statistics effect: for a non-empty list the total, the mean rating
   * and the count of each rating 1..10; an empty list leaves the previous
   * statistics in place.
   */
  function ComputeStats(reviews: seq<Review>, previous: Stats): (s: Stats)
    ensures reviews == [] ==> s == previous
    ensures reviews != [] ==> s.total == |reviews|
    ensures reviews != [] ==> forall i :: i in s.distribution <==> 1 <= i <= 10
    ensures reviews != [] ==> forall i :: 1 <= i <= 10 ==> s.distribution[i] == CountRating(reviews, i)
    ensures reviews != [] ==> s.avgRating * |reviews| as real == SumRatings(reviews) as real
  {
    if reviews == [] then previous
    else
      var total := |reviews|;
      Stats(total, SumRatings(reviews) as real / total as real, map i | 1 <= i <= 10 :: CountRating(reviews, i))
  }

  /** The counts of the ratings `lo..hi`, summed. */
  function CountRange(reviews: seq<Review>, lo: int, hi: int): nat
    decreases hi - lo
  {
    if hi < lo then 0 else CountRating(reviews, lo) + CountRange(reviews, lo + 1, hi)
  }

  predicate RatingsInRange(reviews: seq<Review>) {
    forall i :: 0 <= i < |reviews| ==> 1 <= reviews[i].rating <= 10
  }

  /** With every rating in 1..10, the sum of the ratings lies between one and ten times their number. */
  lemma {:induction false} SumRatingsBounds(reviews: seq<Review>)
    requires RatingsInRange(reviews)
    ensures |reviews| <= SumRatings(reviews) <= 10 * |reviews|
  {
    if reviews != [] {
      assert RatingsInRange(reviews[1..]) by {
        forall i | 0 <= i < |reviews[1..]|
          ensures 1 <= reviews[1..][i].rating <= 10
        {
          assert reviews[1..][i] == reviews[i + 1];
        }
      }
      SumRatingsBounds(reviews[1..]);
    }
  }

  /** A quotient of a sum between `lo * n` and `hi * n` by a positive `n` lies between `lo` and `hi`. */
  lemma QuotientBounds(sum: real, n: real, lo: real, hi: real)
    requires 0.0 < n && lo * n <= sum <= hi * n
    ensures lo <= sum / n <= hi
  {
  }

  /** With every rating in 1..10, the mean rating shown is in 1..10 too. */
  lemma AvgRatingInRange(reviews: seq<Review>, previous: Stats)
    requires reviews != [] && RatingsInRange(reviews)
    ensures 1.0 <= ComputeStats(reviews, previous).avgRating <= 10.0
  {
    SumRatingsBounds(reviews);
    var n := |reviews| as real;
    QuotientBounds(SumRatings(reviews) as real, n, 1.0, 10.0);
  }

  /** With every rating in 1..10 (as the form enforces), the ten counts add up to the total. */
  lemma {:induction false} DistributionSumsToTotal(reviews: seq<Review>)
    requires RatingsInRange(reviews)
    ensures CountRange(reviews, 1, 10) == |reviews|
  {
    if reviews != [] {
      assert RatingsInRange(reviews[1..]) by {
        forall i | 0 <= i < |reviews[1..]|
          ensures 1 <= reviews[1..][i].rating <= 10
        {
          assert reviews[1..][i] == reviews[i + 1];
        }
      }
      DistributionSumsToTotal(reviews[1..]);
      CountRangeSplit(reviews, 1, 10);
    }
  }

  /** Splitting off the first review: it adds one to the range exactly when its rating lies in it. */
  lemma {:induction false} CountRangeSplit(reviews: seq<Review>, lo: int, hi: int)
    requires reviews != []
    ensures CountRange(reviews, lo, hi)
         == CountRange(reviews[1..], lo, hi) + (if lo <= reviews[0].rating <= hi then 1 else 0)
    decreases hi - lo
  {
    if lo <= hi {
      CountRangeSplit(reviews, lo + 1, hi);
    }
  }

  /** `getDistributionPercentage(count)`: 0 for no reviews, else `Math.round(count / total * 100)`. */
  function DistributionPercentage(count: nat, total: nat): (pct: int)
    ensures total == 0 ==> pct == 0
    ensures count <= total ==> 0 <= pct <= 100
  {
    if total == 0 then 0
    else
      var pct := Round(count as real / total as real * 100.0);
      assert count <= total ==> count as real / total as real <= 1.0 by {
        if count <= total {
          QuotientAtMostOne(count as real, total as real);
        }
      }
      pct
  }

  lemma QuotientAtMostOne(a: real, b: real)
    requires 0.0 <= a <= b && b > 0.0
    ensures 0.0 <= a / b <= 1.0
  {
    assert a / b * b == a;
  }

  /** In integers: the percentage is `(200 * count + total) div (2 * total)`. */
  lemma PercentageInIntegers(count: nat, total: nat)
    requires total > 0
    ensures DistributionPercentage(count, total) == (200 * count + total) / (2 * total)
  {
    var c := count as real;
    var t := total as real;
    var q := c / t;
    assert q * t == c;
    var u := q * 100.0 + 0.5;
    var v := (200 * count + total) as real / (2 * total) as real;
    assert v * (2.0 * t) == 200.0 * c + t;
    assert u * (2.0 * t) == 200.0 * (q * t) + t;
    CancelFactor(u, v, 2.0 * t);
    FloorOfQuotient(200 * count + total, 2 * total);
  }

  lemma CancelFactor(u: real, v: real, d: real)
    requires d > 0.0 && u * d == v * d
    ensures u == v
  {
  }

  // ---------------------------------------------------------------------------
  // Display helpers
  // ---------------------------------------------------------------------------

  const PosterBase: string := "https://image.tmdb.org/t/p/w200"

  /** `getImageUrl(path)`: the placeholder for no path, a full URL as it is, else the small TMDB size. */
  function ImageUrl(path: Option<string>): (url: string)
    ensures path.None? || path.value == [] ==> url == Placeholder
    ensures path.Some? && path.value != [] && StartsWith(path.value, "http") ==> url == path.value
    ensures path.Some? && path.value != [] && !StartsWith(path.value, "http") ==> url == PosterBase + path.value
  {
    match path
    case None => Placeholder
    case Some(p) =>
      if p == [] then Placeholder
      else if StartsWith(p, "http") then p
      else PosterBase + p
  }

  datatype RatingColor = Green | Yellow | Red

  /** `getRatingColor(rating)`: green from 8, yellow from 6, red below. */
  function ColorOf(rating: int): (c: RatingColor)
    ensures c == Green <==> rating >= 8
    ensures c == Yellow <==> 6 <= rating < 8
    ensures c == Red <==> rating < 6
  {
    if rating >= 8 then Green else if rating >= 6 then Yellow else Red
  }

  /** The class name the page uses for each colour. */
  function ColorClass(c: RatingColor): string {
    match c
    case Green => "text-green-500"
    case Yellow => "text-yellow-500"
    case Red => "text-red-500"
  }

  // ---------------------------------------------------------------------------
  // Search, filter and sort
  // ---------------------------------------------------------------------------

  /** The lower-cased title, review text (when present) or author contains the lower-cased query. */
  predicate MatchesQuery(r: Review, q: string) {
    || Contains(Lower(r.movieTitle), Lower(q))
    || (r.reviewText.Some? && Contains(Lower(r.reviewText.value), Lower(q)))
    || Contains(Lower(r.userName), Lower(q))
  }

  /** `MatchesQuery` with the query fixed, as the predicate the search filter applies. */
  function QueryMatcher(query: string): Review -> bool {
    (r: Review) => MatchesQuery(r, query)
  }

  /**
   * The search filter, applied only for a non-empty query: each matching
   * review once per occurrence, in list order.
   */
  function SearchFilter(reviews: seq<Review>, query: string): (r: seq<Review>)
    ensures query == [] ==> r == reviews
    ensures query != [] ==> forall i :: 0 <= i < |reviews| ==> (reviews[i] in r <==> MatchesQuery(reviews[i], query))
    ensures forall i :: 0 <= i < |r| ==> r[i] in reviews
    ensures query != [] ==> |r| == Count(reviews, QueryMatcher(query))
    ensures IsSubsequence(r, reviews)
  {
    if query == [] then
      SubsequenceReflexive(reviews);
      reviews
    else
      FilterIsSubsequence(reviews, QueryMatcher(query));
      Filter(reviews, QueryMatcher(query))
  }

  /** An empty query matches every review, since every text contains the empty string. */
  lemma EmptyQueryMatches(r: Review)
    ensures MatchesQuery(r, "")
  {
    ContainsEmpty(Lower(r.movieTitle));
  }

  /** The predicate the rating filter applies for a selected rating `v`. */
  function RatingIs(v: int): Review -> bool {
    (r: Review) => r.rating == v
  }

  /**
   * The rating filter, applied only when a rating is selected: each review
   * with that rating once per occurrence, in list order.
   */
  function RatingFilter(reviews: seq<Review>, rating: Option<int>): (r: seq<Review>)
    ensures rating.None? ==> r == reviews
    ensures rating.Some? ==> forall i :: 0 <= i < |reviews| ==> (reviews[i] in r <==> reviews[i].rating == rating.value)
    ensures rating.Some? ==> forall i :: 0 <= i < |r| ==> r[i].rating == rating.value
    ensures forall i :: 0 <= i < |r| ==> r[i] in reviews
    ensures rating.Some? ==> |r| == Count(reviews, RatingIs(rating.value))
    ensures IsSubsequence(r, reviews)
  {
    match rating
    case None =>
      SubsequenceReflexive(reviews);
      reviews
    case Some(v) =>
      FilterIsSubsequence(reviews, RatingIs(v));
      Filter(reviews, RatingIs(v))
  }

  datatype SortBy = Newest | Oldest | Highest | Lowest

  /** The comparator of each order, as a key sorted largest first (ascending orders negate the key). */
  function SortKey(order: SortBy): Review -> real {
    match order
    case Newest => (r: Review) => r.createdAt as real
    case Oldest => (r: Review) => -(r.createdAt as real)
    case Highest => (r: Review) => r.rating as real
    case Lowest => (r: Review) => -(r.rating as real)
  }

  /** The sort step: a stable rearrangement in the selected order. */
  function SortReviews(reviews: seq<Review>, order: SortBy): (r: seq<Review>)
    ensures multiset(r) == multiset(reviews)
    ensures order == Highest ==> forall i, j :: 0 <= i < j < |r| ==> r[i].rating >= r[j].rating
    ensures order == Lowest ==> forall i, j :: 0 <= i < j < |r| ==> r[i].rating <= r[j].rating
    ensures order == Newest ==> forall i, j :: 0 <= i < j < |r| ==> r[i].createdAt >= r[j].createdAt
    ensures order == Oldest ==> forall i, j :: 0 <= i < j < |r| ==> r[i].createdAt <= r[j].createdAt
  {
    var key := SortKey(order);
    var r := SortDesc(reviews, key);
    assert forall i, j :: 0 <= i < j < |r| ==> key(r[i]) >= key(r[j]);
    r
  }

  /** The filter-and-sort effect: search, then rating, then sort. */
  function Visible(reviews: seq<Review>, query: string, rating: Option<int>, order: SortBy): (r: seq<Review>)
    ensures forall x :: x in r <==> x in reviews && (query == [] || MatchesQuery(x, query)) && (rating.None? || x.rating == rating.value)
    ensures multiset(r) == multiset(RatingFilter(SearchFilter(reviews, query), rating))
  {
    var filtered := RatingFilter(SearchFilter(reviews, query), rating);
    var r := SortReviews(filtered, order);
    SameMembers(r, filtered);
    FilteredMembers(reviews, query, rating);
    r
  }

  /** The members the two filters keep: those matching the query (if any) and carrying the rating (if any). */
  lemma FilteredMembers(reviews: seq<Review>, query: string, rating: Option<int>)
    ensures forall x :: x in RatingFilter(SearchFilter(reviews, query), rating) <==>
              x in reviews && (query == [] || MatchesQuery(x, query)) && (rating.None? || x.rating == rating.value)
  {
    var searched := SearchFilter(reviews, query);
    var filtered := RatingFilter(searched, rating);
    forall x
      ensures x in filtered <==> x in reviews && (query == [] || MatchesQuery(x, query)) && (rating.None? || x.rating == rating.value)
    {
      if x in reviews {
        var i :| 0 <= i < |reviews| && reviews[i] == x;
        if x in searched {
          var j :| 0 <= j < |searched| && searched[j] == x;
        }
      }
      if x in filtered {
        var j :| 0 <= j < |filtered| && filtered[j] == x;
        var i :| 0 <= i < |searched| && searched[i] == x;
      }
    }
  }
}

=== FILE: seqs.dfy ===
/**
 * The array operations the application uses: `slice(0, n)`, `filter`, counting
 * by a predicate, and the stable comparator sort of `Array.prototype.sort`
 * (ECMAScript 2019 and later require `sort` to be stable).
 */
module Seqs {

  function Min(a: int, b: int): int {
    if a <= b then a else b
  }

  function Max(a: int, b: int): int {
    if a <= b then b else a
  }

  // ---------------------------------------------------------------------------
  // slice(0, end)
  // ---------------------------------------------------------------------------

  /**
   * The end index `slice(0, end)` uses on an array of `len` elements: a
   * negative `end` counts back from the end, and the index is clamped to
   * `[0, len]`.
   */
  function SliceEnd(len: nat, end: int): (k: nat)
    ensures k <= len
    ensures 0 <= end ==> k == Min(end, len)
    ensures end < 0 ==> k == Max(0, len + end)
  {
    if end < 0 then (if len + end < 0 then 0 else len + end)
    else if end < len then end
    else len
  }

  /** `s.slice(0, end)`. */
  function Take<T>(s: seq<T>, end: int): (r: seq<T>)
    ensures |r| == SliceEnd(|s|, end)
    ensures r == s[..|r|]
  {
    s[..SliceEnd(|s|, end)]
  }

  // ---------------------------------------------------------------------------
  // filter and count
  // ---------------------------------------------------------------------------

  /** `a` occurs in `b` in order, possibly with gaps (greedy matching decides it). */
  ghost predicate IsSubsequence<T>(a: seq<T>, b: seq<T>)
    decreases |b|
  {
    if a == [] then true
    else if b == [] then false
    else if a[0] == b[0] then IsSubsequence(a[1..], b[1..])
    else IsSubsequence(a, b[1..])
  }

  /** Every sequence is a subsequence of itself. */
  lemma {:induction false} SubsequenceReflexive<T>(s: seq<T>)
    ensures IsSubsequence(s, s)
  {
    if s != [] {
      SubsequenceReflexive(s[1..]);
    }
  }

  /** A subsequence of `b` stays one when an element is put in front of `b`. */
  lemma {:induction false} SubsequenceCons<T>(a: seq<T>, b: seq<T>, x: T)
    requires IsSubsequence(a, b)
    ensures IsSubsequence(a, [x] + b)
    decreases |b|, 1
  {
    assert ([x] + b)[1..] == b;
    if a != [] && a[0] == x {
      SubsequenceDropHead(a, b);
    }
  }

  /** Dropping the first element of a subsequence leaves a subsequence. */
  lemma {:induction false} SubsequenceDropHead<T>(a: seq<T>, b: seq<T>)
    requires a != [] && IsSubsequence(a, b)
    ensures IsSubsequence(a[1..], b)
    decreases |b|, 0
  {
    if a[0] == b[0] {
      if a[1..] != [] {
        SubsequenceCons(a[1..], b[1..], b[0]);
      }
      assert [b[0]] + b[1..] == b;
    } else {
      SubsequenceDropHead(a, b[1..]);
      if a[1..] != [] {
        SubsequenceCons(a[1..], b[1..], b[0]);
      }
      assert [b[0]] + b[1..] == b;
    }
  }

  /** `s.filter(p)`: exactly the elements satisfying `p`. */
  function Filter<T>(s: seq<T>, p: T -> bool): (r: seq<T>)
    ensures |r| <= |s|
    ensures forall i :: 0 <= i < |r| ==> r[i] in s && p(r[i])
    ensures forall i :: 0 <= i < |s| && p(s[i]) ==> s[i] in r
    ensures |r| == Count(s, p)
  {
    if s == [] then []
    else if p(s[0]) then [s[0]] + Filter(s[1..], p)
    else Filter(s[1..], p)
  }

  /** Filtering keeps the survivors in their original order. */
  lemma {:induction false} FilterIsSubsequence<T>(s: seq<T>, p: T -> bool)
    ensures IsSubsequence(Filter(s, p), s)
  {
    if s != [] {
      FilterIsSubsequence(s[1..], p);
      var r := Filter(s, p);
      if p(s[0]) {
        assert r[1..] == Filter(s[1..], p);
      } else if r != [] {
        assert r[0] in Filter(s[1..], p);
      }
    }
  }

  lemma {:induction false} FilterAppend<T>(a: seq<T>, b: seq<T>, p: T -> bool)
    ensures Filter(a + b, p) == Filter(a, p) + Filter(b, p)
  {
    if a == [] {
      assert a + b == b;
    } else {
      var s := a + b;
      assert s[0] == a[0] && s[1..] == a[1..] + b;
      FilterAppend(a[1..], b, p);
      if p(a[0]) {
        assert Filter(s, p) == [a[0]] + Filter(a[1..] + b, p);
        assert Filter(a, p) == [a[0]] + Filter(a[1..], p);
        assert [a[0]] + (Filter(a[1..], p) + Filter(b, p)) == [a[0]] + Filter(a[1..], p) + Filter(b, p);
      } else {
        assert Filter(s, p) == Filter(a[1..] + b, p);
      }
    }
  }

  /** A subsequence takes each element at most as often as the sequence holds it. */
  lemma {:induction false} SubsequenceMultiset<T>(a: seq<T>, b: seq<T>)
    requires IsSubsequence(a, b)
    ensures multiset(a) <= multiset(b)
    decreases |b|
  {
    if a != [] {
      assert b == [b[0]] + b[1..];
      if a[0] == b[0] {
        SubsequenceMultiset(a[1..], b[1..]);
        assert a == [a[0]] + a[1..];
      } else {
        SubsequenceMultiset(a, b[1..]);
      }
    }
  }

  /** Two filters in a row keep what passes both: `s.filter(p).filter(q)` is `s.filter(pq)`. */
  lemma {:induction false} FilterFilter<T>(s: seq<T>, p: T -> bool, q: T -> bool, pq: T -> bool)
    requires forall x :: pq(x) == (p(x) && q(x))
    ensures Filter(Filter(s, p), q) == Filter(s, pq)
  {
    if s != [] {
      FilterFilter(s[1..], p, q, pq);
      if p(s[0]) {
        assert Filter(s, p)[1..] == Filter(s[1..], p);
      }
    }
  }

  /** A filter every element passes changes nothing. */
  lemma {:induction false} FilterKeepsAll<T>(s: seq<T>, p: T -> bool)
    requires forall i :: 0 <= i < |s| ==> p(s[i])
    ensures Filter(s, p) == s
  {
    if s != [] {
      FilterKeepsAll(s[1..], p);
    }
  }

  /** `s.filter(p).length`. */
  function Count<T>(s: seq<T>, p: T -> bool): (n: nat)
    ensures n <= |s|
  {
    if s == [] then 0 else (if p(s[0]) then 1 else 0) + Count(s[1..], p)
  }

  lemma {:induction false} CountAppend<T>(a: seq<T>, b: seq<T>, p: T -> bool)
    ensures Count(a + b, p) == Count(a, p) + Count(b, p)
  {
    if a == [] {
      assert a + b == b;
    } else {
      CountAppend(a[1..], b, p);
      assert (a + b)[0] == a[0];
      assert (a + b)[1..] == a[1..] + b;
    }
  }

  /** An element that satisfies `p` is counted. */
  lemma {:induction false} CountPositive<T>(s: seq<T>, p: T -> bool, i: nat)
    requires i < |s| && p(s[i])
    ensures Count(s, p) > 0
  {
    if i > 0 {
      CountPositive(s[1..], p, i - 1);
    }
  }

  /** With no element satisfying `p`, the count is zero. */
  lemma {:induction false} CountZero<T>(s: seq<T>, p: T -> bool)
    requires forall i :: 0 <= i < |s| ==> !p(s[i])
    ensures Count(s, p) == 0
  {
    if s != [] {
      CountZero(s[1..], p);
    }
  }

  // ---------------------------------------------------------------------------
  // Stable sort by a real-valued key, largest first
  // ---------------------------------------------------------------------------

  ghost predicate SortedDesc<T>(s: seq<T>, key: T -> real) {
    forall i, j :: 0 <= i < j < |s| ==> key(s[i]) >= key(s[j])
  }

  /** Put `x` in front of the first element whose key does not exceed its own. */
  function InsertDesc<T>(x: T, s: seq<T>, key: T -> real): (r: seq<T>)
    ensures multiset(r) == multiset(s) + multiset{x}
    ensures SortedDesc(s, key) ==> SortedDesc(r, key)
  {
    if s == [] || key(s[0]) <= key(x) then [x] + s
    else
      var rest := InsertDesc(x, s[1..], key);
      assert s == [s[0]] + s[1..];
      HeadDominates(s[0], x, s[1..], rest, key);
      [s[0]] + rest
  }

  /** A head that outranks both `x` and a sorted tail outranks any arrangement of the two. */
  lemma HeadDominates<T>(h: T, x: T, tail: seq<T>, rest: seq<T>, key: T -> real)
    requires key(h) > key(x)
    requires multiset(rest) == multiset(tail) + multiset{x}
    ensures SortedDesc([h] + tail, key) ==> forall j :: 0 <= j < |rest| ==> key(h) >= key(rest[j])
  {
    if SortedDesc([h] + tail, key) {
      forall j | 0 <= j < |rest|
        ensures key(h) >= key(rest[j])
      {
        assert rest[j] in multiset(rest);
        if rest[j] != x {
          assert rest[j] in multiset(tail);
          var k :| 0 <= k < |tail| && tail[k] == rest[j];
          assert ([h] + tail)[0] == h && ([h] + tail)[k + 1] == tail[k];
        }
      }
    }
  }

  /**
   * `s.sort((a, b) => key(b) - key(a))`: a permutation of `s` in non-increasing
   * key order.  Elements with equal keys keep their relative order (see
   * `SortDescStable`).
   */
  function SortDesc<T>(s: seq<T>, key: T -> real): (r: seq<T>)
    ensures multiset(r) == multiset(s)
    ensures SortedDesc(r, key)
  {
    if s == [] then []
    else
      assert s == [s[0]] + s[1..];
      InsertDesc(s[0], SortDesc(s[1..], key), key)
  }

  /** The elements of `s` whose key is `v`, in order. */
  function WithKey<T>(s: seq<T>, key: T -> real, v: real): seq<T> {
    if s == [] then []
    else if key(s[0]) == v then [s[0]] + WithKey(s[1..], key, v)
    else WithKey(s[1..], key, v)
  }

  lemma {:induction false} InsertDescWithKey<T>(x: T, s: seq<T>, key: T -> real, v: real)
    ensures WithKey(InsertDesc(x, s, key), key, v)
         == (if key(x) == v then [x] + WithKey(s, key, v) else WithKey(s, key, v))
  {
    if s == [] || key(s[0]) <= key(x) {
      assert ([x] + s)[1..] == s;
    } else {
      InsertDescWithKey(x, s[1..], key, v);
      var rest := InsertDesc(x, s[1..], key);
      assert ([s[0]] + rest)[1..] == rest;
    }
  }

  /** Stability: among elements with one and the same key, sorting keeps the original order. */
  lemma {:induction false} SortDescStable<T>(s: seq<T>, key: T -> real, v: real)
    ensures WithKey(SortDesc(s, key), key, v) == WithKey(s, key, v)
  {
    if s != [] {
      SortDescStable(s[1..], key, v);
      InsertDescWithKey(s[0], SortDesc(s[1..], key), key, v);
    }
  }

  // ---------------------------------------------------------------------------
  // Distinctness by a key
  // ---------------------------------------------------------------------------

  /** No two positions of `s` share an `f` value. */
  ghost predicate DistinctBy<T, U>(s: seq<T>, f: T -> U) {
    forall i, j :: 0 <= i < j < |s| ==> f(s[i]) != f(s[j])
  }

  /** With distinct keys, no element occurs twice. */
  lemma {:induction false} DistinctByOnce<T, U>(s: seq<T>, f: T -> U, x: T)
    requires DistinctBy(s, f)
    ensures multiset(s)[x] <= 1
  {
    if s != [] {
      var tail := s[1..];
      assert DistinctBy(tail, f) by {
        forall i, j | 0 <= i < j < |tail|
          ensures f(tail[i]) != f(tail[j])
        {
          assert tail[i] == s[i + 1] && tail[j] == s[j + 1];
        }
      }
      DistinctByOnce(tail, f, x);
      assert s == [s[0]] + tail;
    }
  }

  /** A non-empty sequence is its front followed by its last element. */
  lemma SplitLast<T>(s: seq<T>)
    requires s != []
    ensures s == s[..|s| - 1] + [s[|s| - 1]]
  {
    var init := s[..|s| - 1];
    assert forall i :: 0 <= i < |init| ==> (init + [s[|s| - 1]])[i] == s[i];
  }

  /** Two rearrangements of each other hold the same members. */
  lemma SameMembers<T>(a: seq<T>, b: seq<T>)
    requires multiset(a) == multiset(b)
    ensures forall x :: x in a <==> x in b
  {
    forall x
      ensures x in a <==> x in b
    {
      assert x in a <==> x in multiset(a);
      assert x in b <==> x in multiset(b);
    }
  }

  /** Rearranging a sequence keeps its keys distinct. */
  lemma PermutationKeepsDistinct<T, U>(s: seq<T>, r: seq<T>, f: T -> U)
    requires multiset(r) == multiset(s) && DistinctBy(s, f)
    ensures DistinctBy(r, f)
  {
    forall i, j | 0 <= i < j < |r|
      ensures f(r[i]) != f(r[j])
    {
      if r[i] == r[j] {
        assert r == r[..j] + r[j..];
        assert r[..j][i] == r[i] && r[j..][0] == r[j];
        assert multiset(r)[r[i]] == multiset(r[..j])[r[i]] + multiset(r[j..])[r[i]];
        DistinctByOnce(s, f, r[i]);
      } else {
        assert r[i] in multiset(s) && r[j] in multiset(s);
        var a :| 0 <= a < |s| && s[a] == r[i];
        var b :| 0 <= b < |s| && s[b] == r[j];
        assert a != b;
        if a < b {
          assert f(s[a]) != f(s[b]);
        } else {
          assert f(s[b]) != f(s[a]);
        }
      }
    }
  }
}

=== FILE: text.dfy ===
/**
 * The JavaScript string operations the application leans on: `trim`,
 * `toLowerCase`, `includes`, `startsWith`, `split`, `join`, number-to-string
 * conversion and `parseInt`.  Strings are sequences of Unicode scalar values;
 * case mapping covers ASCII letters only.
 */
module Text {
  import opened Wrappers

  // ---------------------------------------------------------------------------
  // Whitespace and trimming
  // ---------------------------------------------------------------------------

  /** The ECMAScript WhiteSpace and LineTerminator code points, which `trim` strips. */
  predicate IsJsSpace(c: char) {
    || c == '\t' || c == '\n' || c == '\U{000B}' || c == '\U{000C}' || c == '\r'
    || c == ' ' || c == '\U{00A0}' || c == '\U{1680}'
    || ('\U{2000}' <= c <= '\U{200A}')
    || c == '\U{2028}' || c == '\U{2029}' || c == '\U{202F}' || c == '\U{205F}'
    || c == '\U{3000}' || c == '\U{FEFF}'
  }

  predicate AllSpace(s: string) {
    forall i :: 0 <= i < |s| ==> IsJsSpace(s[i])
  }

  /** `s.trimStart()`: the longest suffix of `s` that does not begin with whitespace. */
  function TrimStart(s: string): (r: string)
    ensures |r| <= |s| && r == s[|s| - |r|..]
    ensures AllSpace(s[..|s| - |r|])
    ensures r == [] || !IsJsSpace(r[0])
  {
    if s == [] || !IsJsSpace(s[0]) then s else TrimStart(s[1..])
  }

  /** `s.trimEnd()`: the longest prefix of `s` that does not end with whitespace. */
  function TrimEnd(s: string): (r: string)
    ensures |r| <= |s| && r == s[..|r|]
    ensures AllSpace(s[|r|..])
    ensures r == [] || !IsJsSpace(r[|r| - 1])
  {
    if s == [] || !IsJsSpace(s[|s| - 1]) then s else TrimEnd(s[..|s| - 1])
  }

  /** `s.trim()`. */
  function Trim(s: string): (r: string)
    ensures |r| <= |s|
    ensures r == [] || (!IsJsSpace(r[0]) && !IsJsSpace(r[|r| - 1]))
  {
    TrimEnd(TrimStart(s))
  }

  /** Trimming the start leaves nothing exactly when the string is all whitespace. */
  lemma TrimStartEmptyIff(s: string)
    ensures TrimStart(s) == [] <==> AllSpace(s)
  {
    var t := TrimStart(s);
    if t == [] {
      assert s[..|s|] == s;
    } else {
      assert t[0] == s[|s| - |t|];
    }
  }

  /** Trimming the end leaves nothing exactly when the string is all whitespace. */
  lemma TrimEndEmptyIff(s: string)
    ensures TrimEnd(s) == [] <==> AllSpace(s)
  {
    var r := TrimEnd(s);
    if r == [] {
      assert s[0..] == s;
    } else {
      assert r[|r| - 1] == s[|r| - 1];
    }
  }

  /** A string is empty after trimming exactly when it consists of whitespace only. */
  lemma TrimEmptyIff(s: string)
    ensures Trim(s) == [] <==> AllSpace(s)
  {
    var t := TrimStart(s);
    TrimStartEmptyIff(s);
    TrimEndEmptyIff(t);
    assert t != [] ==> !AllSpace(t);
  }

  /** Trimming twice is trimming once. */
  lemma TrimIdempotent(s: string)
    ensures Trim(Trim(s)) == Trim(s)
  {
    var r := Trim(s);
    assert TrimStart(r) == r;
    assert TrimEnd(r) == r;
  }

  // ---------------------------------------------------------------------------
  // Case mapping
  // ---------------------------------------------------------------------------

  function LowerChar(c: char): char {
    if 'A' <= c <= 'Z' then (c as int + 32) as char else c
  }

  /** `s.toLowerCase()` restricted to ASCII letters; every other character is kept. */
  function Lower(s: string): (r: string)
    ensures |r| == |s|
    ensures forall i :: 0 <= i < |s| ==> r[i] == LowerChar(s[i])
  {
    seq(|s|, i requires 0 <= i < |s| => LowerChar(s[i]))
  }

  lemma LowerAppend(a: string, b: string)
    ensures Lower(a + b) == Lower(a) + Lower(b)
  {
  }

  // ---------------------------------------------------------------------------
  // Searching
  // ---------------------------------------------------------------------------

  predicate OccursAt(hay: string, needle: string, i: int) {
    0 <= i && i + |needle| <= |hay| && hay[i..i + |needle|] == needle
  }

  /** `hay.includes(needle)`. */
  predicate Contains(hay: string, needle: string) {
    exists i | 0 <= i <= |hay| - |needle| :: OccursAt(hay, needle, i)
  }

  /** Every string includes the empty string. */
  lemma ContainsEmpty(hay: string)
    ensures Contains(hay, "")
  {
    assert OccursAt(hay, "", 0);
  }

  /** `s.startsWith(prefix)`. */
  predicate StartsWith(s: string, prefix: string) {
    |prefix| <= |s| && s[..|prefix|] == prefix
  }

  // ---------------------------------------------------------------------------
  // Splitting and joining
  // ---------------------------------------------------------------------------

  /** `s.split(sep)` for a one-character separator: never empty, and no piece holds `sep`. */
  function Split(s: string, sep: char): (r: seq<string>)
    ensures |r| >= 1
    ensures forall k :: 0 <= k < |r| ==> sep !in r[k]
  {
    if s == [] then [[]]
    else if s[0] == sep then [[]] + Split(s[1..], sep)
    else
      var rest := Split(s[1..], sep);
      [[s[0]] + rest[0]] + rest[1..]
  }

  /** `parts.join(sep)`. */
  function Join(parts: seq<string>, sep: string): string {
    if parts == [] then []
    else if |parts| == 1 then parts[0]
    else parts[0] + sep + Join(parts[1..], sep)
  }

  /** Splitting at a separator and joining with it again gives back the original string. */
  lemma {:induction false} JoinSplit(s: string, sep: char)
    ensures Join(Split(s, sep), [sep]) == s
  {
    if s == [] {
    } else if s[0] == sep {
      JoinSplit(s[1..], sep);
      assert Split(s, sep) == [[]] + Split(s[1..], sep);
      assert s == [sep] + s[1..];
    } else {
      JoinSplit(s[1..], sep);
      var rest := Split(s[1..], sep);
      var r := Split(s, sep);
      assert r == [[s[0]] + rest[0]] + rest[1..];
      if |rest| == 1 {
        assert s == [s[0]] + rest[0];
      } else {
        assert r[1..] == rest[1..];
        assert Join(rest, [sep]) == rest[0] + [sep] + Join(rest[1..], [sep]);
        assert s == [s[0]] + s[1..];
      }
    }
  }

  /** A piece free of the separator, followed by the separator, splits off as one piece. */
  lemma {:induction false} SplitPrefix(a: string, b: string, sep: char)
    requires sep !in a
    ensures Split(a + [sep] + b, sep) == [a] + Split(b, sep)
  {
    var s := a + [sep] + b;
    if a == [] {
      assert s == [sep] + b;
    } else {
      SplitPrefix(a[1..], b, sep);
      assert s[0] == a[0] && s[1..] == a[1..] + [sep] + b;
      assert a == [a[0]] + a[1..];
    }
  }

  /** A string free of the separator is one piece. */
  lemma {:induction false} SplitFree(a: string, sep: char)
    requires sep !in a
    ensures Split(a, sep) == [a]
  {
    if a != [] {
      SplitFree(a[1..], sep);
      assert a == [a[0]] + a[1..];
    }
  }

  /** `s` cut at its first `c`: the text before it, and the text after it when `c` occurs. */
  function CutAt(s: string, c: char): (r: (string, Option<string>))
    ensures c !in r.0
    ensures r.1.None? <==> c !in s
    ensures r.1.None? ==> r.0 == s
    ensures r.1.Some? ==> s == r.0 + [c] + r.1.value
  {
    if s == [] then ([], None)
    else if s[0] == c then ([], Some(s[1..]))
    else
      var r := CutAt(s[1..], c);
      ([s[0]] + r.0, r.1)
  }

  /** Cutting is undone by rejoining: a text free of `c`, then `c`, cuts into exactly those parts. */
  lemma {:induction false} CutAtFirst(a: string, b: string, c: char)
    requires c !in a
    ensures CutAt(a + [c] + b, c) == (a, Some(b))
  {
    var s := a + [c] + b;
    if a == [] {
      assert s[0] == c && s[1..] == b;
    } else {
      var tail := a[1..] + [c] + b;
      assert s[0] == a[0] && s[1..] == tail;
      CutAtFirst(a[1..], b, c);
      assert CutAt(tail, c) == (a[1..], Some(b));
      assert CutAt(s, c) == ([a[0]] + a[1..], Some(b));
      assert a == [a[0]] + a[1..];
    }
  }

  // ---------------------------------------------------------------------------
  // Numbers as text
  // ---------------------------------------------------------------------------

  predicate IsDecimalDigit(c: char) {
    '0' <= c <= '9'
  }

  /** The value of a digit in bases up to 36, or 36 for a character that is no digit at all. */
  function DigitValue(c: char): (d: nat)
    ensures d <= 36
    ensures IsDecimalDigit(c) <==> d < 10
  {
    if '0' <= c <= '9' then c as int - '0' as int
    else if 'a' <= c <= 'z' then c as int - 'a' as int + 10
    else if 'A' <= c <= 'Z' then c as int - 'A' as int + 10
    else 36
  }

  function DigitChar(d: nat): (c: char)
    requires d < 10
    ensures IsDecimalDigit(c) && DigitValue(c) == d
  {
    ('0' as int + d) as char
  }

  /** The number written by the digits of `s` in base `radix`. */
  function DigitsValue(s: string, radix: nat): nat
    requires forall i :: 0 <= i < |s| ==> DigitValue(s[i]) < radix
  {
    if s == [] then 0 else DigitsValue(s[..|s| - 1], radix) * radix + DigitValue(s[|s| - 1])
  }

  /** The number of leading characters of `s` that are digits in base `radix`. */
  function DigitRun(s: string, radix: nat): (n: nat)
    ensures n <= |s|
    ensures forall i :: 0 <= i < n ==> DigitValue(s[i]) < radix
    ensures n < |s| ==> DigitValue(s[n]) >= radix
  {
    if s == [] || DigitValue(s[0]) >= radix then 0 else 1 + DigitRun(s[1..], radix)
  }

  /** The digit run of a string of digits followed by a non-digit (or nothing) covers exactly those digits. */
  lemma {:induction false} DigitRunOfNumber(d: string, rest: string, radix: nat)
    requires forall i :: 0 <= i < |d| ==> DigitValue(d[i]) < radix
    requires rest == [] || DigitValue(rest[0]) >= radix
    ensures DigitRun(d + rest, radix) == |d|
  {
    if d == [] {
      assert d + rest == rest;
    } else {
      DigitRunOfNumber(d[1..], rest, radix);
      assert (d + rest)[1..] == d[1..] + rest;
    }
  }

  /** The decimal digits of `n` without leading zeros (JavaScript's `String(n)`). */
  function NatToDecimal(n: nat): (r: string)
    ensures |r| >= 1
    ensures forall i :: 0 <= i < |r| ==> IsDecimalDigit(r[i])
    ensures n > 0 ==> r[0] != '0'
  {
    if n < 10 then [DigitChar(n)] else NatToDecimal(n / 10) + [DigitChar(n % 10)]
  }

  /** `String(i)` / `${i}` for an integer. */
  function IntToDecimal(i: int): string {
    if i < 0 then "-" + NatToDecimal(-i) else NatToDecimal(i)
  }

  lemma {:induction false} DecimalValue(n: nat)
    ensures DigitsValue(NatToDecimal(n), 10) == n
  {
    if n >= 10 {
      var r := NatToDecimal(n);
      DecimalValue(n / 10);
      assert r[..|r| - 1] == NatToDecimal(n / 10);
    }
  }

  /** The longest leading run of base-`radix` digits of `v` read as a number; `None` when there is none. */
  function ParseDigits(v: string, radix: nat): Option<nat> {
    var n := DigitRun(v, radix);
    if n == 0 then None else Some(DigitsValue(v[..n], radix))
  }

  /** An unsigned `parseInt` body: base 16 after a `0x`/`0X` prefix, base 10 otherwise. */
  function ParseUnsigned(u: string): Option<nat> {
    if |u| >= 2 && u[0] == '0' && (u[1] == 'x' || u[1] == 'X') then ParseDigits(u[2..], 16)
    else ParseDigits(u, 10)
  }

  /**
   * `parseInt(s)` with no radix: skip leading whitespace, read an optional sign,
   * then an unsigned number.  `None` stands for `NaN` (no digit at all).
   */
  function ParseInt(s: string): Option<int> {
    var t := TrimStart(s);
    if t != [] && t[0] == '-' then
      match ParseUnsigned(t[1..])
      case None => None
      case Some(m) => Some(-(m as int))
    else if t != [] && t[0] == '+' then
      match ParseUnsigned(t[1..])
      case None => None
      case Some(m) => Some(m)
    else
      match ParseUnsigned(t)
      case None => None
      case Some(m) => Some(m)
  }

  lemma ParseDecimalDigits(n: nat)
    ensures ParseUnsigned(NatToDecimal(n)) == Some(n)
  {
    var d := NatToDecimal(n);
    DecimalValue(n);
    assert DigitRun(d, 10) == |d|;
    assert d[..|d|] == d;
  }

  lemma TrimStartKeeps(s: string)
    requires s != [] && !IsJsSpace(s[0])
    ensures TrimStart(s) == s
  {
  }

  lemma ParseIntUnsigned(d: string, m: nat)
    requires d != [] && IsDecimalDigit(d[0]) && ParseUnsigned(d) == Some(m)
    ensures ParseInt(d) == Some(m)
    ensures ParseInt("-" + d) == Some(-(m as int))
  {
    TrimStartKeeps(d);
    var s := "-" + d;
    TrimStartKeeps(s);
    assert s[1..] == d;
  }

  /** Reading back a written integer gives the integer. */
  lemma ParseIntDecimal(i: int)
    ensures ParseInt(IntToDecimal(i)) == Some(i)
  {
    var m: nat := if i < 0 then -i else i;
    ParseDecimalDigits(m);
    ParseIntUnsigned(NatToDecimal(m), m);
  }

  /**
   * After the leading whitespace and an optional sign, `s` has no decimal
   * digit to start a number with.
   */
  predicate NoNumberAhead(s: string) {
    var t := TrimStart(s);
    var u := if t != [] && (t[0] == '-' || t[0] == '+') then t[1..] else t;
    u == [] || !IsDecimalDigit(u[0])
  }

  /** `parseInt` of a text with no digit where the number should start is `NaN`. */
  lemma ParseIntNoNumber(s: string)
    requires NoNumberAhead(s)
    ensures ParseInt(s) == None
  {
    var t := TrimStart(s);
    var u := if t != [] && (t[0] == '-' || t[0] == '+') then t[1..] else t;
    assert u == [] || DigitValue(u[0]) >= 10;
    assert DigitRun(u, 10) == 0;
  }

  /** Whitespace alone has no number ahead. */
  lemma SpaceHasNoNumber(s: string)
    requires AllSpace(s)
    ensures NoNumberAhead(s)
  {
    TrimStartEmptyIff(s);
  }
}

=== FILE: uri.dfy ===
/**
 * `encodeURIComponent` over Unicode scalar values: the unreserved characters
 * stay as they are, every other character becomes the `%XX` escapes of its
 * UTF-8 bytes, with upper-case hexadecimal digits.
 */
module Uri {
  import opened Wrappers
  import opened Text

  /** The characters `encodeURIComponent` leaves alone. */
  predicate Unreserved(c: char) {
    || 'A' <= c <= 'Z' || 'a' <= c <= 'z' || '0' <= c <= '9'
    || c == '-' || c == '_' || c == '.' || c == '!' || c == '~' || c == '*' || c == '\'' || c == '(' || c == ')'
  }

  /** The UTF-8 bytes of a code point. */
  function Utf8(cp: nat): (bytes: seq<nat>)
    requires cp < 0x11_0000
    ensures 1 <= |bytes| <= 4
    ensures forall i :: 0 <= i < |bytes| ==> bytes[i] < 256
    ensures cp < 0x80 <==> |bytes| == 1
  {
    if cp < 0x80 then [cp]
    else if cp < 0x800 then [0xC0 + cp / 64, 0x80 + cp % 64]
    else if cp < 0x1_0000 then [0xE0 + cp / 4096, 0x80 + (cp / 64) % 64, 0x80 + cp % 64]
    else [0xF0 + cp / 262144, 0x80 + (cp / 4096) % 64, 0x80 + (cp / 64) % 64, 0x80 + cp % 64]
  }

  /** Reads a code point back from its UTF-8 bytes (the partner of `Utf8`). */
  function Utf8Value(bytes: seq<int>): int
    requires 1 <= |bytes| <= 4
  {
    if |bytes| == 1 then bytes[0]
    else if |bytes| == 2 then (bytes[0] - 0xC0) * 64 + (bytes[1] - 0x80)
    else if |bytes| == 3 then (bytes[0] - 0xE0) * 4096 + (bytes[1] - 0x80) * 64 + (bytes[2] - 0x80)
    else (bytes[0] - 0xF0) * 262144 + (bytes[1] - 0x80) * 4096 + (bytes[2] - 0x80) * 64 + (bytes[3] - 0x80)
  }

  /** Reading the bytes back gives the code point again. */
  lemma Utf8RoundTrip(cp: nat)
    requires cp < 0x11_0000
    ensures Utf8Value(Utf8(cp)) == cp
  {
    var a := cp / 64;
    var b := cp / 4096;
    assert cp == a * 64 + cp % 64;
    assert a == b * 64 + a % 64;
    assert (cp / 64) % 64 == a % 64;
    if cp >= 0x1_0000 {
      var c := cp / 262144;
      assert b == c * 64 + b % 64;
      assert cp / 4096 == b;
    }
  }

  function HexDigit(d: nat): (c: char)
    requires d < 16
    ensures '0' <= c <= '9' || 'A' <= c <= 'F'
  {
    if d < 10 then ('0' as int + d) as char else ('A' as int + d - 10) as char
  }

  /** `%XX` for each byte. */
  function Escapes(bytes: seq<nat>): (r: string)
    requires forall i :: 0 <= i < |bytes| ==> bytes[i] < 256
    ensures |r| == 3 * |bytes|
    ensures forall i :: 0 <= i < |r| ==> r[i] == '%' || '0' <= r[i] <= '9' || 'A' <= r[i] <= 'F'
  {
    if bytes == [] then []
    else ['%', HexDigit(bytes[0] / 16), HexDigit(bytes[0] % 16)] + Escapes(bytes[1..])
  }

  function EncodeChar(c: char): (r: string)
    ensures Unreserved(c) ==> r == [c]
    ensures !Unreserved(c) ==> |r| >= 3
    ensures forall i :: 0 <= i < |r| ==> Unreserved(r[i]) || r[i] == '%'
  {
    if Unreserved(c) then [c] else Escapes(Utf8(c as int))
  }

  /** `encodeURIComponent(s)`. */
  function Encode(s: string): (r: string)
    ensures |r| >= |s|
    ensures forall i :: 0 <= i < |r| ==> Unreserved(r[i]) || r[i] == '%'
  {
    if s == [] then [] else EncodeChar(s[0]) + Encode(s[1..])
  }

  /** A string of unreserved characters is its own encoding, and only such a string is. */
  lemma {:induction false} EncodeIdentity(s: string)
    ensures Encode(s) == s <==> forall i :: 0 <= i < |s| ==> Unreserved(s[i])
  {
    if s != [] {
      EncodeIdentity(s[1..]);
      if !Unreserved(s[0]) {
        assert |Encode(s)| > |s|;
      } else if Encode(s) == s {
        assert Encode(s[1..]) == s[1..];
      }
    }
  }

  /** The encoding never holds a query-string delimiter, so it stays one parameter value. */
  lemma EncodeHasNoDelimiters(s: string)
    ensures '&' !in Encode(s) && '=' !in Encode(s) && '?' !in Encode(s) && '#' !in Encode(s)
  {
    var e := Encode(s);
    forall i | 0 <= i < |e|
      ensures e[i] != '&' && e[i] != '=' && e[i] != '?' && e[i] != '#'
    {
      assert Unreserved(e[i]) || e[i] == '%';
    }
  }

  // ---------------------------------------------------------------------------
  // Decoding
  // ---------------------------------------------------------------------------

  function HexValue(c: char): (v: Option<nat>)
    ensures v.Some? ==> v.value < 16
  {
    if '0' <= c <= '9' then Some(c as int - '0' as int)
    else if 'A' <= c <= 'F' then Some(c as int - 'A' as int + 10)
    else if 'a' <= c <= 'f' then Some(c as int - 'a' as int + 10)
    else None
  }

  lemma HexValueOfDigit(d: nat)
    requires d < 16
    ensures HexValue(HexDigit(d)) == Some(d)
  {
  }

  /** The byte a `%XX` at the start of `s` stands for, when `s` starts with one. */
  function EscapedByte(s: string): (b: Option<nat>)
    ensures b.Some? ==> |s| >= 3 && b.value < 256
  {
    if |s| < 3 || s[0] != '%' then None
    else
      match (HexValue(s[1]), HexValue(s[2]))
      case (Some(hi), Some(lo)) => Some(16 * hi + lo)
      case _ => None
  }

  /** `k` escaped bytes in a row at the start of `s`. */
  function EscapedBytes(s: string, k: nat): (r: Option<seq<nat>>)
    ensures r.Some? ==> |r.value| == k && 3 * k <= |s|
  {
    if k == 0 then Some([])
    else
      match EscapedByte(s)
      case None => None
      case Some(b) =>
        match EscapedBytes(s[3..], k - 1)
        case None => None
        case Some(bs) => Some([b] + bs)
  }

  /** The length of the UTF-8 sequence a lead byte opens. */
  function SequenceLength(lead: nat): (k: nat)
    ensures 1 <= k <= 4
  {
    if lead < 0x80 then 1 else if lead < 0xE0 then 2 else if lead < 0xF0 then 3 else 4
  }

  /**
   * The character a run of escapes at the start of `s` stands for, and how
   * many characters of `s` the run takes.  Only the shortest UTF-8 of a
   * scalar value is accepted.
   */
  function DecodeEscape(s: string): (r: Option<(char, nat)>)
    ensures r.Some? ==> 3 <= r.value.1 <= |s|
  {
    match EscapedByte(s)
    case None => None
    case Some(lead) =>
      var k := SequenceLength(lead);
      match EscapedBytes(s, k)
      case None => None
      case Some(bytes) =>
        var v := Utf8Value(bytes);
        if (0 <= v < 0xD800 || 0xE000 <= v < 0x11_0000) && Utf8(v) == bytes then Some((v as char, 3 * k))
        else None
  }

  /** `decodeURIComponent(s)`, with `None` where it throws. */
  function Decode(s: string): (r: Option<string>)
    ensures r.Some? ==> |r.value| <= |s|
    decreases |s|
  {
    if s == [] then Some([])
    else if s[0] != '%' then
      match Decode(s[1..])
      case None => None
      case Some(t) => Some([s[0]] + t)
    else
      match DecodeEscape(s)
      case None => None
      case Some((c, n)) =>
        match Decode(s[n..])
        case None => None
        case Some(t) => Some([c] + t)
  }

  /** Text without a `%` decodes to itself. */
  lemma {:induction false} DecodePlain(s: string)
    requires '%' !in s
    ensures Decode(s) == Some(s)
  {
    if s != [] {
      DecodePlain(s[1..]);
      assert s == [s[0]] + s[1..];
    }
  }

  lemma {:induction false} EscapesRead(bytes: seq<nat>, rest: string)
    requires forall i :: 0 <= i < |bytes| ==> bytes[i] < 256
    ensures EscapedBytes(Escapes(bytes) + rest, |bytes|) == Some(bytes)
  {
    if bytes != [] {
      var s := Escapes(bytes) + rest;
      var b := bytes[0];
      HexValueOfDigit(b / 16);
      HexValueOfDigit(b % 16);
      assert s[0] == '%' && s[1] == HexDigit(b / 16) && s[2] == HexDigit(b % 16);
      assert EscapedByte(s) == Some(b);
      assert s[3..] == Escapes(bytes[1..]) + rest;
      EscapesRead(bytes[1..], rest);
      assert bytes == [b] + bytes[1..];
    }
  }

  /** The lead byte announces the length of the sequence it opens. */
  lemma Utf8Lead(cp: nat)
    requires cp < 0x11_0000
    ensures SequenceLength(Utf8(cp)[0]) == |Utf8(cp)|
  {
  }

  /** The escapes of a character decode to that character. */
  lemma EscapeRead(c: char, rest: string)
    ensures DecodeEscape(Escapes(Utf8(c as int)) + rest) == Some((c, 3 * |Utf8(c as int)|))
  {
    var bytes := Utf8(c as int);
    EscapesRead(bytes, rest);
    Utf8Lead(c as int);
    Utf8RoundTrip(c as int);
  }

  /** `decodeURIComponent(encodeURIComponent(s)) == s`. */
  lemma {:induction false} DecodeEncode(s: string)
    ensures Decode(Encode(s)) == Some(s)
  {
    if s != [] {
      DecodeEncode(s[1..]);
      DecodeEncodeChar(s[0], Encode(s[1..]), s[1..]);
      assert s == [s[0]] + s[1..];
    }
  }

  /** Decoding reads one encoded character off the front and carries on with the rest. */
  lemma DecodeEncodeChar(c: char, t: string, rest: string)
    requires Decode(t) == Some(rest)
    ensures Decode(EncodeChar(c) + t) == Some([c] + rest)
  {
    if Unreserved(c) {
      assert (EncodeChar(c) + t)[1..] == t;
    } else {
      var e := Escapes(Utf8(c as int));
      EscapeRead(c, t);
      assert (e + t)[|e|..] == t;
    }
  }

  /** Distinct texts have distinct encodings. */
  lemma EncodeInjective(a: string, b: string)
    requires Encode(a) == Encode(b)
    ensures a == b
  {
    DecodeEncode(a);
    DecodeEncode(b);
  }

  // ---------------------------------------------------------------------------
  // Query strings
  // ---------------------------------------------------------------------------

  /** One `key=value` pair of a URL query string, already decoded. */
  datatype Param = Param(key: string, value: string)

  /** `URLSearchParams.get(key)`: the value of the first pair with that key. */
  function GetParam(ps: seq<Param>, key: string): (v: Option<string>)
    ensures v.None? <==> forall i :: 0 <= i < |ps| ==> ps[i].key != key
    ensures v.Some? ==> exists i :: 0 <= i < |ps| && ps[i] == Param(key, v.value)
                          && forall j :: 0 <= j < i ==> ps[j].key != key
  {
    if ps == [] then None
    else if ps[0].key == key then Some(ps[0].value)
    else
      GetParam(ps[1..], key)
  }


  /** Percent-decoding that leaves text it cannot decode as it is. */
  function DecodeOr(s: string): string {
    Decode(s).GetOr(s)
  }

  /** One piece of a query string: a key, `=`, a value; a piece without `=` is a key with an empty value. */
  function ReadPair(piece: string): Param {
    var (k, v) := CutAt(piece, '=');
    Param(DecodeOr(k), DecodeOr(v.GetOr([])))
  }

  function ReadPairs(pieces: seq<string>): (ps: seq<Param>)
    ensures |ps| == |pieces|
  {
    if pieces == [] then [] else [ReadPair(pieces[0])] + ReadPairs(pieces[1..])
  }

  /** The path of a URL: the text before its first `?`. */
  function PathOf(url: string): string {
    CutAt(url, '?').0
  }

  /** The parameters of a URL: the text after its first `?`, split at `&`. */
  function QueryOf(url: string): seq<Param> {
    match CutAt(url, '?').1
    case None => []
    case Some(q) => ReadPairs(Split(q, '&'))
  }

  /** One `key=value` piece of a query string. */
  function Pair(key: string, value: string): string {
    key + "=" + value
  }

  /** A plain key with a plain value reads as that key and value. */
  lemma PlainPair(key: string, value: string)
    requires '=' !in key && '%' !in key && '%' !in value
    ensures ReadPair(Pair(key, value)) == Param(key, value)
  {
    CutAtFirst(key, value, '=');
    DecodePlain(key);
    DecodePlain(value);
  }

  /** A plain key with an encoded value reads as that key and the value. */
  lemma EncodedPair(key: string, value: string)
    requires '=' !in key && '%' !in key
    ensures ReadPair(Pair(key, Encode(value))) == Param(key, value)
  {
    CutAtFirst(key, Encode(value), '=');
    DecodePlain(key);
    DecodeEncode(value);
  }

  /** The parameters of a URL with one query piece. */
  lemma OnePiece(path: string, a: string)
    requires '?' !in path && '&' !in a
    ensures PathOf(path + "?" + a) == path
    ensures QueryOf(path + "?" + a) == [ReadPair(a)]
  {
    assert "?" == ['?'];
    CutAtFirst(path, a, '?');
    SplitFree(a, '&');
    assert [a][1..] == [];
  }

  /** The parameters of a URL with two query pieces. */
  lemma TwoPieces(path: string, a: string, b: string)
    requires '?' !in path && '&' !in a && '&' !in b
    ensures PathOf(path + "?" + a + ("&" + b)) == path
    ensures QueryOf(path + "?" + a + ("&" + b)) == [ReadPair(a), ReadPair(b)]
  {
    var query := a + ['&'] + b;
    assert "?" == ['?'] && "&" == ['&'];
    assert path + "?" + a + ("&" + b) == path + ['?'] + query;
    CutAtFirst(path, query, '?');
    SplitPrefix(a, b, '&');
    SplitFree(b, '&');
    assert Split(query, '&') == [a, b];
    assert [a, b][1..] == [b] && [b][1..] == [];
    var url := path + "?" + a + ("&" + b);
    assert CutAt(url, '?') == (path, Some(query));
    assert QueryOf(url) == ReadPairs(Split(query, '&'));
    assert ReadPairs([b]) == [ReadPair(b)];
    assert ReadPairs([a, b]) == [ReadPair(a), ReadPair(b)];
  }

  /** Looking a key up in one or two parameters. */
  lemma LookUp(p: Param, q: Param, key: string)
    ensures GetParam([p], key) == if p.key == key then Some(p.value) else None
    ensures GetParam([p, q], key) == if p.key == key then Some(p.value) else GetParam([q], key)
  {
    assert [p, q][1..] == [q];
  }

  /** A key and value fit for a query string without escaping. */
  predicate Plain(s: string) {
    '=' !in s && '%' !in s && '&' !in s
  }

  /** A URL with one plain parameter and one encoded one reads back as both. */
  lemma ReadsTwo(path: string, k1: string, v1: string, k2: string, value: string)
    requires '?' !in path && Plain(k1) && Plain(v1) && Plain(k2) && k1 != k2
    ensures PathOf(path + "?" + Pair(k1, v1) + ("&" + Pair(k2, Encode(value)))) == path
    ensures GetParam(QueryOf(path + "?" + Pair(k1, v1) + ("&" + Pair(k2, Encode(value)))), k1) == Some(v1)
    ensures GetParam(QueryOf(path + "?" + Pair(k1, v1) + ("&" + Pair(k2, Encode(value)))), k2) == Some(value)
  {
    var a := Pair(k1, v1);
    var b := Pair(k2, Encode(value));
    EncodeHasNoDelimiters(value);
    assert '&' !in a && '&' !in b;
    TwoPieces(path, a, b);
    PlainPair(k1, v1);
    EncodedPair(k2, value);
    LookUp(Param(k1, v1), Param(k2, value), k1);
    LookUp(Param(k1, v1), Param(k2, value), k2);
  }

  /** A URL with one plain parameter reads back as it, and has no other key. */
  lemma ReadsPlain(path: string, k1: string, v1: string, k2: string)
    requires '?' !in path && Plain(k1) && Plain(v1) && k1 != k2
    ensures PathOf(path + "?" + Pair(k1, v1)) == path
    ensures GetParam(QueryOf(path + "?" + Pair(k1, v1)), k1) == Some(v1)
    ensures GetParam(QueryOf(path + "?" + Pair(k1, v1)), k2) == None
  {
    var a := Pair(k1, v1);
    assert '&' !in a;
    OnePiece(path, a);
    PlainPair(k1, v1);
    LookUp(Param(k1, v1), Param(k1, v1), k1);
    LookUp(Param(k1, v1), Param(k1, v1), k2);
  }

  /** A URL with one encoded parameter reads back as it. */
  lemma ReadsEncoded(path: string, k: string, value: string)
    requires '?' !in path && Plain(k)
    ensures PathOf(path + "?" + Pair(k, Encode(value))) == path
    ensures GetParam(QueryOf(path + "?" + Pair(k, Encode(value))), k) == Some(value)
  {
    var a := Pair(k, Encode(value));
    EncodeHasNoDelimiters(value);
    assert '&' !in a;
    OnePiece(path, a);
    EncodedPair(k, value);
    LookUp(Param(k, value), Param(k, value), k);
  }
}

=== FILE: wrappers.dfy ===
/** Optional values, standing in for the source's `null`, `undefined` and `NaN` results. */
module Wrappers {

  datatype Option<+T> = None | Some(value: T) {

    /** The wrapped value, or `default` when there is none (the source's `x ?? default`). */
    function GetOr(default: T): T {
      match this
      case Some(v) => v
      case None => default
    }
  }
}
